=== FILE: README.md ===
# Library Management & Attendance — a Dafny model

This project models the server-side core of a small PHP/MySQL library system,
together with the small validators and the CSV exporter in its client script.
The system keeps a catalogue of books, a register of students, a ledger of
book issues and a daily attendance register.

- **Tables.** The four tables are Dafny maps in one immutable `Ledger.Library` value.
- **Handlers.** Every POST handler is a pure function from a library to a `Ledger.Step`:
  - issue and return a book (`issue_book.php`);
  - add, edit and delete books and students;
  - mark attendance.

  A `Step` holds the new library and the flash notices the handler leaves for the next page.
- **Read-only pages.** The dashboard, the listings and the five reports are functions of the library.

Dates are integer day numbers. "Today" (`CURDATE()`) and the clock
(`CURRENT_TIMESTAMP`) are parameters. The consistency the handlers are meant to
keep is the predicate `Ledger.Valid`:

- **Copy conservation.** For every book, `available_copies` plus the book's open issues equals `total_copies`.
- **Shelves.** No shelf is overdrawn.
- **Roll numbers.** Roll numbers are unique.
- **Key counters.** Each auto-increment counter is above every key in use.

The lemmas prove which handlers preserve `Valid`. They also pin down exactly
how the others break it: editing the copy count, a negative copy count, and
returning a book twice.

Modules, one per file, follow the program's structure:

- `base.dfy` (Base): `Option`, set-cardinality helpers
- `text.dfy` (Text): PHP `empty()`, `intval()`, SQL `LIKE '%t%'` as substring, decimal rendering, JavaScript white space
- `sanitize.dfy` (Sanitize): `sanitizeInput`: `trim`, `stripslashes`, `htmlspecialchars`
- `config.dfy` (Config): constants, `calculateFine`, the default due date, `formatDate`
- `flash.dfy` (Flash): the session's success/error slots
- `sorting.dfy` (Sorting): `ORDER BY … DESC`, `LIMIT`, key-descending listings
- `ledger.dfy` (Ledger): the tables and the consistency predicate
- `lending.dfy` (Lending): issue, return, the currently-issued list
- `books.dfy` (Books): book add/edit/delete, catalogue search
- `students.dfy` (Students): student add/edit/delete, student listing
- `attendance.dfy` (Attendance): marking a day, the page's status defaults, the day summary
- `reports.dfy` (Reports): the five report tabs
- `dashboard.dfy` (Dashboard): the statistic cards and the two five-row panels
- `validators.dfy` (Validators): `validateEmail`, `validatePhone`, `validateISBN`
- `csv.dfy` (Csv): `exportTableToCSV`, and a reader for section 2 of RFC 4180

Three behaviours of the handlers shape the model:

- **Deletes.** Deleting a book or a student leaves its issues in place, orphaned.
- **Returns.** A return does not check that the issue is still open.
- **Duplicate issues.** A duplicate issue request issues a second copy.

## Model

| member | source | states |
|---|---|---|
| Text.IntValOfNumeral | library_system/books.php:22-23 | `intval` reads back exactly a rendered number up to PHP_INT_MAX, with or without a minus sign |
| Text.NoDigitsReadAsZero | library_system/books.php:22-23 | `intval` of text that starts with neither a sign, a digit nor a blank is 0 |
| Text.DigitsThenText | library_system/books.php:22-23 | `intval` stops at the first non-digit: digits followed by text that starts with neither a digit nor '.', 'e' or 'E' read as the digits alone |
| Text.IntValOfText | library_system/books.php:22-23 | worked cases: "abc" reads as 0 and "7abc" as 7 |
| Text.ParseNatToString | library_system/issue_book.php:82 | the decimal rendering used in notices parses back to the same number |
| Sanitize.PhpTrim | library_system/includes/config.php:58 | the result is the input less a prefix and a suffix of whitespace, and neither starts nor ends with whitespace |
| Sanitize.StripAddSlashes | library_system/includes/config.php:59 | `stripslashes` undoes `addslashes` on every string |
| Sanitize.UnescapeEscape | library_system/includes/config.php:60 | decoding the five entities undoes `htmlspecialchars` on every string |
| Sanitize.SanitizeInput | library_system/includes/config.php:57-62 | the stored text never holds `<`, `>`, `"` or `'` |
| Sanitize.SanitizeNotIdempotent | library_system/includes/config.php:57-62 | an ampersand followed by plain text t is stored as "&amp;" + t, and a second pass stores "&amp;amp;" + t: the function is not idempotent |
| Sanitize.SanitizePlain | library_system/includes/config.php:57-62 | text without edge whitespace, backslashes or markup characters is stored exactly as typed |
| Config.DefaultDueDate | library_system/includes/config.php:16 | the due date is ISSUE_DURATION_DAYS (14) days after the issue date |
| Config.DefaultDueDateExample | library_system/issue_book.php:248 | an issue on 2024-01-01 is due on 2024-01-15 |
| Config.DefaultLoanFine | library_system/includes/config.php:141-151 | a loan given the default due date owes nothing for its first ISSUE_DURATION_DAYS days after issue, and FINE_PER_DAY for each day beyond them |
| Config.CalculateFine | library_system/includes/config.php:141-151 | the fine is non-negative, zero exactly when today is on or before the due date, and a multiple of FINE_PER_DAY |
| Config.FineChargesEachLateDay | library_system/includes/config.php:145-147 | the fine is FINE_PER_DAY times the number of days after the due date, up to and including today |
| Config.FineMonotone | library_system/includes/config.php:141-151 | the fine never decreases as today advances |
| Config.FineExample | library_system/includes/config.php:145-147 | a book due 2024-01-15 owes 25 on 2024-01-20 |
| Config.FormatDate | library_system/includes/config.php:129-134 | PHP-empty values and the zero date render as "N/A"; every other value goes to the date renderer |
| Config.FormatDateShowsNA | library_system/includes/config.php:129-134 | with a date renderer that never yields "N/A", the output is "N/A" exactly for a PHP-empty value or the zero date |
| Flash.ShowSuccess | library_system/includes/config.php:86-88 | the success slot holds the new message and the error slot is untouched |
| Flash.ShowError | library_system/includes/config.php:94-96 | the error slot holds the new message and the success slot is untouched |
| Flash.GetSuccessMessage | library_system/includes/config.php:102-109 | returns the stored success message or '' and clears only that slot |
| Flash.GetErrorMessage | library_system/includes/config.php:115-122 | returns the stored error message or '' and clears only that slot |
| Flash.SuccessShownOnce | library_system/includes/config.php:102-109 | a second read right after the first gives '' |
| Flash.ErrorShownOnce | library_system/includes/config.php:115-122 | a second read right after the first gives '' |
| Flash.LastSuccessWins | library_system/includes/config.php:86-88 | of two success messages only the later survives |
| Flash.LastErrorWins | library_system/includes/config.php:94-96 | of two error messages only the later survives |
| Flash.ApplyKeepsLast | library_system/includes/config.php:86-96 | after a handler's notices each slot holds the last message of its kind, or its earlier content |
| Sorting.KeysDescending | library_system/books.php:100 | `ORDER BY book_id DESC`: every key exactly once, strictly descending |
| Sorting.OrderBy | library_system/issue_book.php:105 | `ORDER BY key DESC`: every selected row exactly once, by non-increasing key |
| Sorting.TopBy | library_system/dashboard.php:60-61 | `ORDER BY … LIMIT n`: at most n distinct selected rows, all n when that many exist, in key order, and no selected row left out ranks above a row kept |
| Sorting.TakeKeepsTop | library_system/reports.php:66-67 | rows cut off by LIMIT rank no higher than any row kept |
| Sorting.TakeKeepsTopAll | library_system/reports.php:66-67 | the same for every row cut off and every row kept of a sorted list |
| Ledger.EmptyLibraryValid | library_system/books.php:26-27 | the empty library is consistent |
| Ledger.ValidCopiesInRange | library_system/issue_book.php:28 | in a consistent ledger 0 <= available_copies <= total_copies |
| Ledger.ValidCountersFresh | library_system/books.php:26 | the next auto-increment key is unused and no open issue names the next book key |
| Lending.IssueBook | library_system/issue_book.php:16-53 | with no copy on the shelf, or no such book, nothing changes and the error notice is left; otherwise exactly one issue row is added under a fresh key, that book's shelf count drops by one, and nothing else changes |
| Lending.IssueAddsOneRecord | library_system/issue_book.php:34-39 | a successful issue adds exactly one row to book_issues |
| Lending.IssuePreservesValid | library_system/issue_book.php:25-41 | issuing keeps copies conserved and no shelf overdrawn |
| Lending.IssueIgnoresStudentAndDates | library_system/issue_book.php:18-28 | the outcome and the shelf counts do not depend on the student or the dates: neither is checked |
| Lending.ReturnBook | library_system/issue_book.php:54-93 | an unknown issue changes nothing and leaves the error notice; otherwise the issue is closed with the fine for today, its book regains one copy, the notice names the fine when positive, and nothing else changes |
| Lending.ReturnFineIgnoresReturnDate | library_system/issue_book.php:57-65 | the stored fine depends on today and the due date, never on the posted return date |
| Lending.ReturnOpenPreservesValid | library_system/issue_book.php:61-79 | returning an open issue keeps the ledger consistent |
| Lending.ReturnOfReturnedBreaksConservation | library_system/issue_book.php:61-77 | returning an issue already returned breaks copy conservation |
| Lending.DoubleReturnExample | library_system/issue_book.php:61-77 | a one-copy book issued once and returned twice ends with 2 available of 1 total |
| Lending.ReturnBookGuarded | library_system/issue_book.php:54-93 | the corrected return: an already-returned issue changes nothing; an open one is closed with today's fine |
| Lending.GuardedReturnPreservesValid | library_system/issue_book.php:61-79 | the corrected return keeps the ledger consistent on every input |
| Lending.IssueThenReturnRestores | library_system/issue_book.php:16-93 | issuing and then returning that issue with the return handler as written restores every shelf count and the open loans, with the fine for today (zero if on time) |
| Lending.OpenIssueIds | library_system/issue_book.php:97-106 | the currently-issued list holds the open issues whose book and student rows both exist |
| Lending.RowFor | library_system/issue_book.php:147-149 | a listed row's days overdue is today minus its due date, its fine is calculateFine, and it is flagged overdue exactly when the fine is positive |
| Lending.OpenIssueRows | library_system/issue_book.php:97-106 | every open joined issue exactly once, newest issue date first, each with its fine |
| Lending.PreviewFineIsCharged | library_system/issue_book.php:148 | the fine shown on the list is the fine a return on the same day stores |
| Books.FormBook | library_system/books.php:18-24 | text fields are sanitized and numbers go through intval |
| Books.AddBook | library_system/books.php:16-37 | one new row under a fresh key with every copy available, and nothing else changes |
| Books.AddBookPreservesValid | library_system/books.php:26-27 | a new book with a non-negative copy count keeps the ledger consistent |
| Books.AddNegativeCopiesOverdraws | library_system/books.php:21-27 | a negative copy count is stored and overdraws the shelf |
| Books.EditBook | library_system/books.php:38-60 | the row is overwritten except for available_copies; an unknown key changes nothing but still reports success |
| Books.EditBelowAvailableBreaksRange | library_system/books.php:49-50 | lowering total_copies below the copies on the shelf leaves available > total |
| Books.EditChangingTotalBreaksConservation | library_system/books.php:49-50 | any change of total_copies on a consistent book breaks conservation |
| Books.EditSameTotalPreservesValid | library_system/books.php:49-50 | an edit keeping total_copies keeps the ledger consistent |
| Books.DeleteBook | library_system/books.php:61-76 | the row is removed unconditionally and nothing else changes |
| Books.DeletePreservesValid | library_system/books.php:65-67 | the remaining rows stay consistent after a delete |
| Books.DeleteOrphansIssues | library_system/books.php:65-67 | issues of a deleted book stay stored but drop off the currently-issued list |
| Books.SearchTerm | library_system/books.php:94-95 | an absent or PHP-empty search ('' or '0') means no filter; otherwise the sanitized term |
| Books.ListBooks | library_system/books.php:91-100 | exactly the books whose title, author, ISBN or category contains the term (all without a term), newest key first |
| Books.ListBooksUnfiltered | library_system/books.php:94 | with no search, or the search '0', every book is listed |
| Books.SearchNarrowsBooks | library_system/books.php:96 | a search never lists a book the plain listing lacks |
| Books.EditTarget | library_system/books.php:82-87 | the edit form is prefilled exactly when the key names a book |
| Students.FormStudent | library_system/students.php:18-24 | text fields are sanitized and the year goes through intval |
| Students.AddStudent | library_system/students.php:16-37 | a taken roll number fails with no change; otherwise one 'active' row under a fresh key |
| Students.AddStudentPreservesValid | library_system/students.php:26-29 | adding keeps roll numbers unique and the ledger consistent |
| Students.EditStudent | library_system/students.php:38-61 | every field is overwritten, status included; a roll number held by another student fails with no change; an unknown key changes nothing but reports success |
| Students.EditStudentPreservesValid | library_system/students.php:50-53 | editing keeps roll numbers unique and the ledger consistent |
| Students.EditKeepingRollSucceeds | library_system/students.php:48-51 | a student may keep their own roll number, and the posted status is stored |
| Students.DeleteStudent | library_system/students.php:62-77 | the row is removed unconditionally and nothing else changes |
| Students.DeleteStudentPreservesValid | library_system/students.php:66-67 | the remaining rows stay consistent after a delete |
| Students.DeleteStudentOrphansIssues | library_system/students.php:66-67 | a deleted student's issues stay stored but drop off the currently-issued list |
| Students.ListStudents | library_system/students.php:80-89 | without a term the active students; with one, every student whose name, roll number, e-mail or department contains it; newest key first |
| Students.DefaultListingIsActiveStudents | library_system/students.php:82 | the default listing is exactly the active students |
| Students.SearchFindsInactive | library_system/students.php:83-85 | a search drops the active-only filter, so an inactive student can be found |
| Attendance.ActiveIds | library_system/attendance.php:24 | the students marked are exactly the active ones |
| Attendance.TypeStringsCounted | library_system/attendance.php:35 | the type string as written has seven letters for eight bound variables, so bind_param refuses it; the corrected one has eight |
| Attendance.Marked | library_system/attendance.php:26-43 | a completed walk gives each active student the submitted record for the date (status 'absent' and empty remarks when nothing was posted); every other record is unchanged; no other key appears |
| Attendance.MarkNotices | library_system/attendance.php:45-50 | a notice is left exactly when something was counted |
| Attendance.MarkOutcome | library_system/attendance.php:26-53 | a marking request changes only the attendance table and never leaves a failure notice |
| Attendance.MarkAttendance | library_system/attendance.php:16-54 | the loop stops at the first student bind_param or the store refuses, keeping the records before it; a request that reaches its redirect has counted every active student as a success |
| Attendance.AsWrittenMarksNobody | library_system/attendance.php:35 | with the type string as written, a day with an active student ends at the first bind_param with no record written and no notice; a day with none redirects with no notice |
| Attendance.CorrectedMarksEveryActive | library_system/attendance.php:26-50 | with the corrected type string, the request reaches its redirect exactly when the store executes every active student's upsert, and then the table is `Marked` and the success notice counts every active student |
| Attendance.NoFailureNotice | library_system/attendance.php:48-50 | the "Failed to mark attendance" notice is never left: a refused statement ends the request instead of being counted |
| Attendance.ResubmitOverwrites | library_system/attendance.php:32-34 | completing the same form again gives the same table as completing it once |
| Attendance.ResubmitChangesOnlyTimestamps | library_system/attendance.php:34 | a completed resubmission changes no key and no field but `marked_at` |
| Attendance.DisplayAndStoredDefaultsDiffer | library_system/attendance.php:28 | a student without a record is drawn as 'present' but a completed submission without the student's radio saves 'absent' |
| Attendance.SubmitAsDrawnKeepsStatuses | library_system/attendance.php:133-155 | completing the page as drawn leaves the displayed statuses as they were |
| Attendance.Summarize | library_system/attendance.php:184-192 | the day's counts by status never exceed the number of records that day |
| Attendance.MarkedDayCoversActive | library_system/attendance.php:32-38 | after a completed submission, the day's total counts at least one record per active student |
| Reports.ReportTabOf | library_system/reports.php:13-42 | no `type` selects the overview; an unknown value selects no tab |
| Reports.OverviewCounts | library_system/reports.php:49-52 | the four counts; overdue never exceeds issued |
| Reports.IssuedCountsOpenLoans | library_system/reports.php:51 | in a consistent ledger a book's open issues are its total less its available copies |
| Reports.BooksByCategory | library_system/reports.php:55 | every category present, each with its number of books |
| Reports.StudentsByDepartment | library_system/reports.php:58 | every department of an active student, each with its number of active students |
| Reports.RecentIssues | library_system/reports.php:61-68 | joined issues of either status, newest issue date first, at most the limit |
| Reports.RecentIssuesAreLatest | library_system/reports.php:66-67 | an issue left out is no newer than any issue shown |
| Reports.BookRow | library_system/reports.php:145-147 | total and current issue counts of a book; current never exceeds total |
| Reports.BooksReportRows | library_system/reports.php:144-150 | every book exactly once, most-issued first |
| Reports.BookReportMatchesShelf | library_system/reports.php:147 | in a consistent ledger a book's current issues are its total less its available copies |
| Reports.StudentRow | library_system/reports.php:190-194 | issue and attendance counts of a student; current books never exceed books issued |
| Reports.StudentsReport | library_system/reports.php:189-198 | one row per active student |
| Reports.AttendanceRow | library_system/reports.php:243-252 | counts of the records in the date range; a student with none still counts one day (the LEFT JOIN's NULL row) |
| Reports.PercentHundredths | library_system/reports.php:295-296 | the percentage rounded half-up to two decimals |
| Reports.BadgeSuccessIff | library_system/reports.php:307 | the badge is green exactly when 20000·present >= 14999·days, i.e. the rounded percentage is at least 75 |
| Reports.NoRecordsShowsZero | library_system/reports.php:294-296 | a student with no records in range shows 0% and a red badge |
| Reports.AttendanceReport | library_system/reports.php:242-254 | one row per active student |
| Reports.OverdueRowFor | library_system/reports.php:353-354 | days overdue is today minus due date and the fine is days times FINE_PER_DAY |
| Reports.OverdueReport | library_system/reports.php:322-331 | every joined overdue open issue exactly once, most overdue first, with a positive day count and the fine calculateFine gives |
| Reports.OverdueReportWithinCount | library_system/reports.php:329 | the overdue list is never longer than the overdue count, and as long exactly when no overdue issue is orphaned |
| Dashboard.DashboardStats | library_system/dashboard.php:15-39 | the six cards; the available-copies sum is NULL exactly when there are no books; overdue never exceeds issued |
| Dashboard.DashboardAgreesWithReports | library_system/dashboard.php:30-39 | the issued and overdue cards equal the overview report's counts, and the attendance card equals the day summary's total |
| Dashboard.ShelfAccounting | library_system/dashboard.php:22 | over distinct books of a consistent ledger, the sum of available copies plus their open issues is the sum of total copies |
| Dashboard.AvailableCardAccounting | library_system/dashboard.php:22-31 | the available card is total stock less copies out, between stock minus the issued card and stock |
| Dashboard.RecentIssuesPanel | library_system/dashboard.php:42-50 | at most five distinct joined issues, all of them when fewer, newest first, and no joined issue left out is newer than one shown |
| Dashboard.RecentPanelShowsReturned | library_system/dashboard.php:42-50 | returned issues are not filtered out of the recent panel |
| Dashboard.OverduePanel | library_system/dashboard.php:53-62 | at most five distinct joined overdue issues, all of them when fewer, earliest due date first |
| Dashboard.OverduePanelIsEarliestDue | library_system/dashboard.php:53-62 | no joined overdue issue left out of the panel is due before one the panel shows |
| Dashboard.OverduePanelMostOverdueFirst | library_system/dashboard.php:55-60 | earliest due first is most days overdue first, every day count positive |
| Validators.ValidateEmailMatchesPattern | library_system/js/main.js:55-58 | the validator holds exactly for one '@', no white space, a non-empty local part and a '.' strictly inside the domain, which is what the regular expression matches |
| Validators.ValidPhoneStoredVerbatim | library_system/js/main.js:63-66 | a phone the form accepts (ten ASCII digits) is stored exactly as typed |
| Validators.StripIsbn | library_system/js/main.js:73 | the result holds no hyphen or white space and keeps every other character |
| Validators.StripIsbnAppend | library_system/js/main.js:73 | stripping works piece by piece over concatenation |
| Text.JsLength | library_system/js/main.js:76 | JavaScript's `length` counts UTF-16 code units: it equals the number of characters exactly when none lies outside the Basic Multilingual Plane, and is at most twice that number |
| Text.JsLengthAppend | library_system/js/main.js:76 | code-unit lengths add up over concatenation |
| Validators.ValidateIsbnOnStripped | library_system/js/main.js:73-80 | the verdict depends only on the stripped text and holds exactly when its length in UTF-16 code units is 10 or 13; for text within the Basic Multilingual Plane, exactly when it has 10 or 13 characters |
| Validators.SeparatorIgnored | library_system/js/main.js:73 | inserting a hyphen or a space anywhere never changes the verdict |
| Validators.ValidateIsbnLengthOnly | library_system/js/main.js:76-80 | text without separators passes exactly when its length in UTF-16 code units is 10 or 13, and for text within the Basic Multilingual Plane exactly when it has 10 or 13 characters; the characters themselves are not examined, so there is no digit or check-digit test ("12345abcde" passes) |
| Validators.AstralCountsTwice | library_system/js/main.js:76 | a character outside the Basic Multilingual Plane counts as two: digits followed by one emoji pass exactly when there are 8 or 11 digits |
| Csv.JsTrim | library_system/js/main.js:200 | the trimmed cell text is no longer than the input and neither starts nor ends with white space |
| Csv.JsTrimIsSlice | library_system/js/main.js:200 | the trimmed text is a contiguous slice of the input with only white space before and after it |
| Csv.QuoteCell | library_system/js/main.js:200 | every cell is wrapped in double quotes |
| Csv.ReadQuotedCell | library_system/js/main.js:200 | an RFC 4180 reader gets the trimmed text back from a quoted cell |
| Csv.ReadRenderedRow | library_system/js/main.js:199-203 | a rendered row reads back as its trimmed cells |
| Csv.ReadRenderedTable | library_system/js/main.js:192-206 | reading an export gives back every row's trimmed cells, provided no row is empty |
| Csv.UnquoteCell | library_system/js/main.js:200 | unquoting one exported cell recovers the trimmed text |

## Left out

- PHP 8.1 or later is assumed throughout. There mysqli reports a failed statement by throwing, so every handler that stores something either completes or aborts. Under PHP 7 a failed statement returns false and the handlers go on, which the model does not follow; the lines for `Students.AddStudent`, `Lending.ReturnBook` and `Attendance.MarkAttendance` say what that would change.
- Login, sessions and `requireLogin` (login.php, `isLoggedIn`). They depend on `password_verify` and PHP session state. The acting admin is a parameter.
- HTML rendering, the navigation header, and all client-side UI code. This covers modals, notifications, tooltips, debounce, auto-save, clipboard, keyboard shortcuts and live search.
- `daysBetween` in js/main.js and the due-date auto-fill script in issue_book.php. Both use floating-point milliseconds and time zones.
- Parsing date strings. Dates are day numbers throughout, and `Config.DayNumber` exists only to state the worked examples. A malformed posted date is not modelled.
- Config.CalculateFine: modelled on day numbers. The source floors seconds/86400, which can lose a day across a daylight-saving change.
- Text.IntVal: reads optional leading blanks, a sign and decimal digits only. Exponent and decimal forms ("1e3", "2.5") and saturation at PHP_INT_MAX are not modelled, so on "7e3" it gives 7 where PHP 7.1 or later gives 7000.
- Text.IntValOfNumeral: stated only up to PHP_INT_MAX, where the model's IntVal agrees with PHP; beyond it intval saturates.
- Text.DigitsThenText: stated only for text after the digits that starts with neither '.', 'e' nor 'E'. PHP would read a decimal or exponent part there, which the model's IntVal ignores.
- Books.ListBooks: `LIKE` is a case-sensitive substring test. Collation case folding and the `%` and `_` wildcards inside a search term are not modelled.
- Students.ListStudents: same `LIKE` approximation as the catalogue search.
- Reports.PercentHundredths: exact rational arithmetic rounded half-up. PHP's floating-point `round(…, 2)` can differ in the last digit on binary ties.
- Reports.StudentsReport: a map keyed by student id. The `ORDER BY student_name` of the students, attendance and marking pages is not modelled, because it depends on the database collation.
- Reports.AttendanceReport: same ordering caveat as the students report.
- Reports.BooksByCategory: a map, without the `ORDER BY count DESC`. Categories are grouped by exact text; under a case-insensitive collation "Fiction" and "fiction" would be one group.
- Reports.StudentsByDepartment: a map, without the `ORDER BY count DESC`. Departments are grouped by exact text, with the same collation caveat as the categories.
- Ties in every `ORDER BY` are broken by the model's deterministic order. SQL leaves that order unspecified.
- Students.AddStudent: the failure notice keeps only the fixed prefix, not the driver's error text. Under PHP 8.1+ mysqli throws instead and the request aborts. The tables are unchanged either way.
- Students.EditStudent: same failure-text and PHP 8.1+ caveat as the add.
- Store constraints are an assumption, since the handlers' code does not show the schema. The model assumes these column defaults, which fill what the INSERTs leave out: `book_issues.status` 'issued', `book_issues.fine_amount` 0, `book_issues.return_date` and `returned_by` NULL (issue_book.php:34), `students.status` 'active' (students.php:26), and `attendance.marked_at` the current time (attendance.php:32-33). Copy conservation after an issue, and the default student listing, rest on the first and the fourth. It assumes no foreign keys and only two unique keys: `roll_number` on students, and (`student_id`, `attendance_date`) on attendance, which the upsert of attendance.php:32-34 needs. With foreign keys from book_issues to books and students, IssueBook for an unknown student would roll back, and the deletes of `Books.DeleteOrphansIssues` and `Students.DeleteStudentOrphansIssues` would fail or cascade instead of orphaning issues.
- Book add, edit and delete failures: under the assumed constraints none of them can fail, so they are always modelled as succeeding.
- Collation is an assumption too. Text comparisons in the store are modelled as exact: the `status = 'active'` filters, the unique roll number, the `GROUP BY` of the two count reports and the `LIKE` searches. A case-insensitive collation, MySQL's default, would make them ignore case (and trailing spaces for `=`).
- Lending.IssueBook: the race between the availability check and the transaction is not modelled. Each handler is one atomic step, and a rollback means no change.
- Lending.ReturnBook: for an unknown issue id only the fixed "Error returning book: " prefix is kept. That branch relies on PHP 8.1: with no row, the shelf UPDATE of issue_book.php:77 ends in "WHERE book_id = ", and only a throwing mysqli turns that syntax error into the rollback of :86-88. Under PHP 7 the handler would commit and report "Book returned successfully!", with a fine computed from a missing due date; that is not modelled.
- Attendance.MarkAttendance: whether the store executes each upsert is the parameter `accepts`, and the bind_param type string is the parameter `types`. The date is a parameter, and `marked_at` is the parameter `now`.
- Attendance.MarkAttendance: assumes PHP 8.1 or later, where a refused type string and a refused statement both throw. Under PHP 7 bind_param would return false, every `execute` would fail, and each active student would be counted as an error; that behaviour is not modelled.
- The dashboard's status badge and all `formatDate` calls in views are presentation only.
- Csv: `downloadCSV` (Blob, object URL, link click) is browser I/O. The reader takes LF as the line break because the exporter writes LF, where section 2 of RFC 4180 prescribes CRLF.

## Findings

| source | as written | input that shows it | evidently intended | confidence | as-written member | corrected member |
|---|---|---|---|---|---|---|
| library_system/issue_book.php:61-77 | the return handler never checks the issue's status: it re-closes an already-returned issue and adds one more copy to the shelf | a one-copy book issued once and returned twice (the same `issue_id` posted again) ends with available_copies 2 and total_copies 1 | a second return of the same issue is refused and changes nothing | not executed | Lending.ReturnOfReturnedBreaksConservation | Lending.GuardedReturnPreservesValid |
| library_system/attendance.php:35 | bind_param gets the type string "issisis" (seven letters) for eight bound variables, so PHP 8 throws ArgumentCountError at the first student and nothing is written | any day with at least one active student | the type string "ississis", one letter per variable, so every active student's record is upserted | not executed | Attendance.AsWrittenMarksNobody | Attendance.CorrectedMarksEveryActive |

=== FILE: attendance.dfy ===
/**
 * attendance.php: marking a day's attendance for every active student, the
 * marking page's preselected statuses, and the per-day summary.
 *
 * The marking handler walks the active students in the order the store
 * returns them and upserts one record per student for the posted date
 * (INSERT ... ON DUPLICATE KEY UPDATE). A student with no posted status is
 * recorded 'absent' with empty remarks. Each upsert binds eight variables,
 * but the handler passes bind_param a type string of seven letters, which
 * PHP 8 rejects with an ArgumentCountError that nothing catches: as written,
 * no record is ever written. The model states that, and models the handler
 * with the type string corrected alongside it. Under the mysqli reporting of
 * PHP 8.1 and later a statement the store rejects throws as well, so a
 * request either reaches its redirect or stops at the first failing student,
 * keeping the records written before it: there is no transaction. Which
 * statements the store accepts is outside the model, so it is a parameter.
 */
module Attendance {
  import opened Base
  import opened Text
  import opened Sanitize
  import opened Ledger
  import opened Flash
  import Sorting

  const Present: string := "present"
  const Absent: string := "absent"
  const Late: string := "late"

  /** The posted marking form: the date, and the status_<id> and
      remarks_<id> fields that were present in the request. */
  datatype MarkForm = MarkForm(
    date: Day,
    statuses: map<StudentId, string>,
    remarks: map<StudentId, string>)

  /** Whether the store executes the upsert of a student's record with the
      given status. */
  type Accepts = (StudentId, string) -> bool

  /** How a marking request ends: it reaches its redirect, leaving its
      notices, or an uncaught error ends the script, leaving no notice and
      the records already written. */
  datatype Outcome = Redirected(step: Step) | Aborted(lib: Library)
  {
    function Final(): Library
    {
      match this
      case Redirected(step) => step.lib
      case Aborted(lib) => lib
    }

    function Notices(): seq<Notice>
    {
      if Redirected? then step.notices else []
    }
  }

  /** The type string attendance.php:35 passes to bind_param. */
  const UpsertTypesAsWritten: string := "issisis"
  /** One letter per bound variable: student_id, the date, status,
      marked_by and remarks, then status, marked_by and remarks again. */
  const UpsertTypes: string := "ississis"
  /** The variables bound to the upsert's eight placeholders. */
  const UpsertVariables: nat := 8

  /** bind_param accepts the type string only with one letter per bound
      variable; otherwise PHP 8 throws ArgumentCountError. */
  predicate BindsAll(types: string)
  {
    |types| == UpsertVariables
  }

  /** The two type strings differ exactly in whether bind_param accepts them. */
  lemma TypeStringsCounted()
    ensures !BindsAll(UpsertTypesAsWritten) && BindsAll(UpsertTypes)
  {
  }

  /** The students the handler walks: status 'active'. */
  function ActiveIds(lib: Library): (ids: set<StudentId>)
    ensures forall s :: s in ids <==> s in lib.students && IsActive(lib.students[s])
  {
    set s | s in lib.students && IsActive(lib.students[s])
  }

  /** The posted status, sanitized; 'absent' when none was posted. */
  function SubmittedStatus(f: MarkForm, s: StudentId): string
  {
    if s in f.statuses then SanitizeInput(f.statuses[s]) else Absent
  }

  /** The posted remarks, sanitized; '' when none were posted. */
  function SubmittedRemarks(f: MarkForm, s: StudentId): string
  {
    if s in f.remarks then SanitizeInput(f.remarks[s]) else ""
  }

  /** The record the upsert leaves: every column is (re)written, and
      marked_at is the time of the request. */
  function RecordFor(f: MarkForm, s: StudentId, admin: AdminId, now: int): AttendanceRecord
  {
    AttendanceRecord(SubmittedStatus(f, s), SubmittedRemarks(f, s), admin, now)
  }

  /** The attendance table after the upserts for the students in `written`
      on the form's date: those records are replaced or created, every other
      record is kept as it was. */
  function MarkedWith(att: map<(StudentId, Day), AttendanceRecord>, written: set<StudentId>,
                      f: MarkForm, admin: AdminId, now: int): (m: map<(StudentId, Day), AttendanceRecord>)
    ensures forall k :: k in m <==> k in att || (k.1 == f.date && k.0 in written)
    ensures forall k :: k in m ==>
      m[k] == if k.1 == f.date && k.0 in written then RecordFor(f, k.0, admin, now) else att[k]
  {
    PairKeys(written, f.date);
    map k | k in att.Keys + (set s | s in written :: (s, f.date)) ::
      if k.1 == f.date && k.0 in written then RecordFor(f, k.0, admin, now) else att[k]
  }

  /** The keys (s, date) of the students in `written`. */
  lemma PairKeys(written: set<StudentId>, date: Day)
    ensures forall k: (StudentId, Day) :: k in (set s | s in written :: (s, date)) <==> k.1 == date && k.0 in written
  {
    forall k: (StudentId, Day) | k.1 == date && k.0 in written
      ensures k in (set s | s in written :: (s, date))
    {
      var s0 := k.0;
      assert s0 in written;
      assert k == (s0, date);
    }
  }

  /** No upsert leaves the table as it was. */
  lemma MarkedWithNothing(att: map<(StudentId, Day), AttendanceRecord>, f: MarkForm, admin: AdminId, now: int)
    ensures MarkedWith(att, {}, f, admin, now) == att
  {
    var m := MarkedWith(att, {}, f, admin, now);
    assert m.Keys == att.Keys;
  }

  /** One more upsert on top of a partial marking. */
  lemma MarkedWithOneMore(att: map<(StudentId, Day), AttendanceRecord>, written: set<StudentId>, s: StudentId,
                          f: MarkForm, admin: AdminId, now: int)
    ensures MarkedWith(att, written + {s}, f, admin, now)
         == MarkedWith(att, written, f, admin, now)[(s, f.date) := RecordFor(f, s, admin, now)]
  {
    var m1 := MarkedWith(att, written + {s}, f, admin, now);
    var m2 := MarkedWith(att, written, f, admin, now)[(s, f.date) := RecordFor(f, s, admin, now)];
    assert m1.Keys == m2.Keys;
    forall k | k in m1 ensures m1[k] == m2[k] {
      if k != (s, f.date) {
        assert k.1 == f.date && k.0 in written + {s} <==> k.1 == f.date && k.0 in written;
      }
    }
  }

  /** The table a completed submission leaves: every active student has the
      submitted record for the date, every other record is kept, and no other
      key appears. */
  function Marked(lib: Library, f: MarkForm, admin: AdminId, now: int): (m: map<(StudentId, Day), AttendanceRecord>)
    ensures forall s :: s in ActiveIds(lib) ==> (s, f.date) in m && m[(s, f.date)] == RecordFor(f, s, admin, now)
    ensures forall k :: k in lib.attendance && (k.1 != f.date || k.0 !in ActiveIds(lib)) ==>
      k in m && m[k] == lib.attendance[k]
    ensures forall k :: k in m ==> k in lib.attendance || (k.1 == f.date && k.0 in ActiveIds(lib))
  {
    MarkedWith(lib.attendance, ActiveIds(lib), f, admin, now)
  }

  /** The flash messages: a success line when some record was written, an
      error line when some upsert failed. */
  function MarkNotices(successCount: nat, errorCount: nat): (ns: seq<Notice>)
    ensures (successCount > 0 || errorCount > 0) <==> |ns| > 0
  {
    (if successCount > 0
     then [ShowSuccessNotice("Attendance marked successfully for " + NatToString(successCount) + " students!")]
     else [])
    + (if errorCount > 0
       then [ShowErrorNotice("Failed to mark attendance for " + NatToString(errorCount) + " students!")]
       else [])
  }

  /** A list without repeats has as many elements as its set of elements. */
  lemma {:induction false} DistinctCard(xs: seq<StudentId>)
    requires Sorting.Distinct(xs)
    ensures |set x | x in xs| == |xs|
    decreases |xs|
  {
    if |xs| > 0 {
      var init := xs[..|xs| - 1];
      assert Sorting.Distinct(init);
      DistinctCard(init);
      assert (set x | x in xs) == (set x | x in init) + {xs[|xs| - 1]};
      assert xs[|xs| - 1] !in init;
    }
  }

  /** The students among the first `i` of `order`. */
  function Upserted(order: seq<StudentId>, i: nat): set<StudentId>
    requires i <= |order|
  {
    set x | x in order[..i]
  }

  /** The position in `order` of the first student whose upsert the store
      rejects, or |order| when it accepts them all. */
  function FirstRejected(order: seq<StudentId>, f: MarkForm, accepts: Accepts): (i: nat)
    ensures i <= |order|
    ensures forall j :: 0 <= j < i ==> accepts(order[j], SubmittedStatus(f, order[j]))
    ensures i < |order| ==> !accepts(order[i], SubmittedStatus(f, order[i]))
  {
    if order == [] || !accepts(order[0], SubmittedStatus(f, order[0])) then 0
    else 1 + FirstRejected(order[1..], f, accepts)
  }

  /** The first rejection is where the accepted run ends. */
  lemma {:induction false} FirstRejectedAt(order: seq<StudentId>, f: MarkForm, accepts: Accepts, i: nat)
    requires i <= |order|
    requires forall j :: 0 <= j < i ==> accepts(order[j], SubmittedStatus(f, order[j]))
    requires i < |order| ==> !accepts(order[i], SubmittedStatus(f, order[i]))
    ensures FirstRejected(order, f, accepts) == i
  {
    if i > 0 {
      FirstRejectedAt(order[1..], f, accepts, i - 1);
    }
  }

  /** What one submission of the marking form leads to, as the handler's
      loop produces it with the type string `types`: an empty walk redirects
      with no notice; a type string bind_param refuses stops the request at
      the first student; otherwise the students are upserted in order up to
      the first one the store rejects, where the request stops. Only the
      attendance table ever changes, and no failure notice is ever left. */
  function MarkOutcome(types: string, lib: Library, f: MarkForm, admin: AdminId, now: int,
                       order: seq<StudentId>, accepts: Accepts): (r: Outcome)
    ensures r.Final() == lib.(attendance := r.Final().attendance)
    ensures forall k :: 0 <= k < |r.Notices()| ==> r.Notices()[k].ShowSuccessNotice?
  {
    if order != [] && !BindsAll(types) then Aborted(lib)
    else
      var i := FirstRejected(order, f, accepts);
      var lib' := lib.(attendance := MarkedWith(lib.attendance, Upserted(order, i), f, admin, now));
      if i < |order| then Aborted(lib') else Redirected(Step(lib', MarkNotices(i, 0)))
  }

  /** The request as the loop leaves it after `i` upserts, stopped by the
      first student it cannot upsert or by the end of the walk. */
  lemma OutcomeAfter(types: string, lib: Library, f: MarkForm, admin: AdminId, now: int,
                     order: seq<StudentId>, accepts: Accepts, i: nat)
    requires i <= |order| && (i == 0 || BindsAll(types))
    requires forall j :: 0 <= j < i ==> accepts(order[j], SubmittedStatus(f, order[j]))
    requires i < |order| ==> !BindsAll(types) || !accepts(order[i], SubmittedStatus(f, order[i]))
    ensures var lib' := lib.(attendance := MarkedWith(lib.attendance, Upserted(order, i), f, admin, now));
      MarkOutcome(types, lib, f, admin, now, order, accepts)
      == if i < |order| then Aborted(lib') else Redirected(Step(lib', MarkNotices(i, 0)))
  {
    if i < |order| && !BindsAll(types) {
      MarkedWithNothing(lib.attendance, f, admin, now);
      assert Upserted(order, 0) == {};
    } else {
      FirstRejectedAt(order, f, accepts, i);
    }
  }

  lemma UpsertedStep(order: seq<StudentId>, i: nat)
    requires i < |order|
    ensures Upserted(order, i + 1) == Upserted(order, i) + {order[i]}
  {
    assert order[..i + 1] == order[..i] + [order[i]];
  }

  /** The store lists each active student once. */
  lemma OrderCountsActive(lib: Library, order: seq<StudentId>)
    requires Sorting.Distinct(order)
    requires forall s :: s in order <==> s in ActiveIds(lib)
    ensures |order| == |ActiveIds(lib)|
  {
    DistinctCard(order);
    assert (set x | x in order) == ActiveIds(lib);
  }

  /** Once the walk reaches the end of `order`, it has upserted every
      active student. */
  lemma UpsertedAll(lib: Library, order: seq<StudentId>)
    requires forall s :: s in order <==> s in ActiveIds(lib)
    ensures Upserted(order, |order|) == ActiveIds(lib)
  {
    assert order[..|order|] == order;
    forall x ensures x in Upserted(order, |order|) <==> x in ActiveIds(lib) {
    }
  }

  /** The handler's loop: upserts the students of `order` in turn and stops
      at the first bind_param that throws ArgumentCountError or the first
      execute() that throws mysqli_sql_exception. `i` students were
      upserted, and `att` holds their records. */
  method UpsertWalk(types: string, att0: map<(StudentId, Day), AttendanceRecord>, f: MarkForm,
                    admin: AdminId, now: int, order: seq<StudentId>, accepts: Accepts)
    returns (att: map<(StudentId, Day), AttendanceRecord>, i: nat)
    ensures i <= |order| && (i == 0 || BindsAll(types))
    ensures forall j :: 0 <= j < i ==> accepts(order[j], SubmittedStatus(f, order[j]))
    ensures i < |order| ==> !BindsAll(types) || !accepts(order[i], SubmittedStatus(f, order[i]))
    ensures att == MarkedWith(att0, Upserted(order, i), f, admin, now)
  {
    att := att0;
    MarkedWithNothing(att0, f, admin, now);
    assert Upserted(order, 0) == {};
    ghost var done: set<StudentId> := {};
    i := 0;
    while i < |order| && BindsAll(types) && accepts(order[i], SubmittedStatus(f, order[i]))
      invariant 0 <= i <= |order|
      invariant i == 0 || BindsAll(types)
      invariant forall j :: 0 <= j < i ==> accepts(order[j], SubmittedStatus(f, order[j]))
      invariant done == Upserted(order, i)
      invariant att == MarkedWith(att0, done, f, admin, now)
    {
      var s := order[i];
      UpsertedStep(order, i);
      MarkedWithOneMore(att0, done, s, f, admin, now);
      att := att[(s, f.date) := RecordFor(f, s, admin, now)];
      done := done + {s};
      i := i + 1;
    }
  }

  /** action=mark_attendance, with the type string `types` passed to
      bind_param. `order` is the order in which the store returns the active
      students. The handler counts each upsert the store executes; since
      execute() throws rather than return false, the error counter of
      attendance.php:40 stays 0. */
  method MarkAttendance(types: string, lib: Library, f: MarkForm, admin: AdminId, now: int,
                        order: seq<StudentId>, accepts: Accepts)
    returns (r: Outcome, successCount: nat)
    requires Sorting.Distinct(order)
    requires forall s :: s in order <==> s in ActiveIds(lib)
    ensures r == MarkOutcome(types, lib, f, admin, now, order, accepts)
    ensures r.Redirected? ==> successCount == |ActiveIds(lib)|
    ensures successCount <= |ActiveIds(lib)|
  {
    var att, i := UpsertWalk(types, lib.attendance, f, admin, now, order, accepts);
    successCount := i;
    OutcomeAfter(types, lib, f, admin, now, order, accepts, i);
    OrderCountsActive(lib, order);
    if i < |order| {
      r := Aborted(lib.(attendance := att));
    } else {
      r := Redirected(Step(lib.(attendance := att), MarkNotices(successCount, 0)));
    }
  }

  /** As written, the handler marks nobody: with an active student the
      request ends at the first bind_param with nothing written and no
      notice, and with none it redirects with no notice. */
  lemma AsWrittenMarksNobody(lib: Library, f: MarkForm, admin: AdminId, now: int,
                             order: seq<StudentId>, accepts: Accepts)
    requires forall s :: s in order <==> s in ActiveIds(lib)
    ensures MarkOutcome(UpsertTypesAsWritten, lib, f, admin, now, order, accepts)
         == if ActiveIds(lib) == {} then Redirected(Step(lib, [])) else Aborted(lib)
  {
    if order == [] {
      forall x | x in ActiveIds(lib) ensures x in order {
      }
      assert ActiveIds(lib) == {};
      MarkedWithNothing(lib.attendance, f, admin, now);
      assert Upserted(order, 0) == {};
    } else {
      var first := order[0];
      assert first in order;
    }
  }

  /** With the type string corrected, the request completes exactly when the
      store executes every active student's upsert, and then every active
      student has the submitted record and the success notice counts them. */
  lemma CorrectedMarksEveryActive(lib: Library, f: MarkForm, admin: AdminId, now: int,
                                  order: seq<StudentId>, accepts: Accepts)
    requires Sorting.Distinct(order)
    requires forall s :: s in order <==> s in ActiveIds(lib)
    ensures var r := MarkOutcome(UpsertTypes, lib, f, admin, now, order, accepts);
      && (r.Redirected? <==> forall s :: s in ActiveIds(lib) ==> accepts(s, SubmittedStatus(f, s)))
      && (r.Redirected? ==>
            r.step == Step(lib.(attendance := Marked(lib, f, admin, now)), MarkNotices(|ActiveIds(lib)|, 0)))
  {
    var i := FirstRejected(order, f, accepts);
    if i == |order| {
      UpsertedAll(lib, order);
      OrderCountsActive(lib, order);
      forall s | s in ActiveIds(lib) ensures accepts(s, SubmittedStatus(f, s)) {
        var j :| 0 <= j < |order| && order[j] == s;
      }
    } else {
      assert order[i] in ActiveIds(lib);
    }
  }

  /** The failure notice of attendance.php:48-50 is never left: a rejected
      upsert ends the request instead of being counted. */
  lemma NoFailureNotice(types: string, lib: Library, f: MarkForm, admin: AdminId, now: int,
                        order: seq<StudentId>, accepts: Accepts, k: int)
    requires 0 <= k < |MarkOutcome(types, lib, f, admin, now, order, accepts).Notices()|
    ensures !MarkOutcome(types, lib, f, admin, now, order, accepts).Notices()[k].ShowErrorNotice?
  {
  }

  /** Submitting the same form twice leaves what one submission leaves,
      stamped with the time of the second. */
  lemma ResubmitOverwrites(lib: Library, f: MarkForm, admin: AdminId, now1: int, now2: int)
    ensures var lib1 := lib.(attendance := Marked(lib, f, admin, now1));
      Marked(lib1, f, admin, now2) == Marked(lib, f, admin, now2)
  {
    var lib1 := lib.(attendance := Marked(lib, f, admin, now1));
    assert ActiveIds(lib1) == ActiveIds(lib);
  }

  /** Resubmission changes nothing but the marked_at stamps. */
  lemma ResubmitChangesOnlyTimestamps(lib: Library, f: MarkForm, admin: AdminId, now1: int, now2: int)
    ensures var m1 := Marked(lib, f, admin, now1);
      var m2 := Marked(lib.(attendance := m1), f, admin, now2);
      && m2.Keys == m1.Keys
      && forall k :: k in m1 ==> m2[k].(markedAt := 0) == m1[k].(markedAt := 0)
  {
    ResubmitOverwrites(lib, f, admin, now1, now2);
  }

  // ------------------------------------------------------------ marking page

  /** The radio button preselected on the marking page: the stored status,
      or 'present' when the student has no record for the date. */
  function DisplayStatus(att: map<(StudentId, Day), AttendanceRecord>, s: StudentId, date: Day): string
  {
    if (s, date) in att then att[(s, date)].status else Present
  }

  /** The page and the handler disagree about a student without a record:
      the page shows 'present', but a completed submission with no status
      for the student (one who turned active after the page was drawn)
      stores 'absent'. */
  lemma DisplayAndStoredDefaultsDiffer(lib: Library, f: MarkForm, admin: AdminId, now: int, s: StudentId)
    requires s in ActiveIds(lib) && s !in f.statuses
    requires (s, f.date) !in lib.attendance
    ensures DisplayStatus(lib.attendance, s, f.date) == Present
    ensures DisplayStatus(Marked(lib, f, admin, now), s, f.date) == Absent
  {
  }

  /** Submitting the page as drawn keeps every displayed status: each of
      'present', 'absent' and 'late' passes through sanitizeInput unchanged. */
  lemma SubmitAsDrawnKeepsStatuses(lib: Library, f: MarkForm, admin: AdminId, now: int, s: StudentId)
    requires s in ActiveIds(lib) && s in f.statuses
    requires f.statuses[s] == DisplayStatus(lib.attendance, s, f.date)
    requires f.statuses[s] in {Present, Absent, Late}
    ensures DisplayStatus(Marked(lib, f, admin, now), s, f.date) == DisplayStatus(lib.attendance, s, f.date)
  {
    StatusSurvivesSanitize(f.statuses[s]);
    assert SubmittedStatus(f, s) == f.statuses[s];
  }

  /** 'present', 'absent' and 'late' hold no character sanitizeInput alters. */
  lemma StatusSurvivesSanitize(st: string)
    requires st in {Present, Absent, Late}
    ensures SanitizeInput(st) == st
  {
    SanitizePlain(st);
  }

  // ----------------------------------------------------------- day summary

  datatype DaySummary = DaySummary(present: nat, absent: nat, late: nat, totalMarked: nat)

  /** The records of one date, of every student, active, inactive or
      deleted: the summary query does not join the students table. */
  function DayKeys(att: map<(StudentId, Day), AttendanceRecord>, date: Day): (ks: set<(StudentId, Day)>)
    ensures forall k :: k in ks <==> k in att && k.1 == date
  {
    set k | k in att && k.1 == date
  }

  function WithStatus(att: map<(StudentId, Day), AttendanceRecord>, date: Day, status: string): (ks: set<(StudentId, Day)>)
    ensures ks <= DayKeys(att, date)
    ensures forall k :: k in ks <==> k in att && k.1 == date && att[k].status == status
  {
    set k | k in att && k.1 == date && att[k].status == status
  }

  /** The summary cards: records of the date with each status, and all
      records of the date. The three status counts never exceed the total;
      they fall short by the records holding any other status. */
  function Summarize(att: map<(StudentId, Day), AttendanceRecord>, date: Day): (r: DaySummary)
    ensures r.totalMarked == |DayKeys(att, date)|
    ensures r.present == |WithStatus(att, date, Present)|
    ensures r.absent == |WithStatus(att, date, Absent)|
    ensures r.late == |WithStatus(att, date, Late)|
    ensures r.present + r.absent + r.late <= r.totalMarked
  {
    var p := WithStatus(att, date, Present);
    var a := WithStatus(att, date, Absent);
    var l := WithStatus(att, date, Late);
    assert p * a == {} && (p + a) * l == {};
    assert |p + a| == |p| + |a|;
    assert |p + a + l| == |p + a| + |l|;
    assert p + a + l <= DayKeys(att, date);
    SubsetCard(p + a + l, DayKeys(att, date));
    DaySummary(|p|, |a|, |l|, |DayKeys(att, date)|)
  }

  /** After a completed submission, the day's total counts at least every
      active student. */
  lemma MarkedDayCoversActive(lib: Library, f: MarkForm, admin: AdminId, now: int)
    ensures |ActiveIds(lib)| <= Summarize(Marked(lib, f, admin, now), f.date).totalMarked
  {
    var m := Marked(lib, f, admin, now);
    var act := ActiveIds(lib);
    var keys := set s | s in act :: (s, f.date);
    assert keys <= DayKeys(m, f.date);
    SubsetCard(keys, DayKeys(m, f.date));
    PairCard(act, f.date);
  }

  lemma {:induction false} PairCard(ids: set<StudentId>, date: Day)
    ensures |set s | s in ids :: (s, date)| == |ids|
    decreases |ids|
  {
    if ids != {} {
      var x := Pick(ids);
      PairCard(ids - {x}, date);
      assert (set s | s in ids :: (s, date)) == (set s | s in ids - {x} :: (s, date)) + {(x, date)};
    }
  }
}

=== FILE: base.dfy ===
/**
 * Small shared vocabulary: optional values, the stand-in for SQL NULL and for
 * PHP's `isset` on a request parameter, and two facts about finite sets.
 */
module Base {

  /** A value that may be absent: SQL NULL, an unset form field, a missing row. */
  datatype Option<T> = None | Some(value: T) {

    /** The wrapped value, or `default` when absent (PHP's `??`). */
    function GetOr(default: T): T
    {
      match this
      case Some(v) => v
      case None => default
    }
  }

  /** A member of a non-empty set. */
  lemma Pick<T>(s: set<T>) returns (x: T)
    requires s != {}
    ensures x in s
  {
    if forall y :: y !in s {
      assert false;
    }
    x :| x in s;
  }

  /** A subset is no larger than the set containing it. */
  lemma {:induction false} SubsetCard<T>(a: set<T>, b: set<T>)
    requires a <= b
    ensures |a| <= |b|
    decreases |b|
  {
    if a != {} {
      var x := Pick(a);
      SubsetCard(a - {x}, b - {x});
    }
  }
}

=== FILE: books.dfy ===
/**
 * books.php: add, edit and delete a book, and the searchable catalogue
 * listing.
 *
 * Every text field is stored sanitized and every number arrives through
 * intval(). The handlers check nothing about the copy counts: add starts
 * a book with all its copies on the shelf, edit replaces total_copies and
 * leaves available_copies alone, and delete removes the row whatever issues
 * still name it. The lemmas below say which of these keep the ledger
 * consistent and which break it.
 */
module Books {
  import opened Base
  import opened Text
  import opened Sanitize
  import opened Ledger
  import opened Flash
  import Sorting
  import Lending

  const AddedMessage: string := "Book added successfully!"
  const UpdatedMessage: string := "Book updated successfully!"
  const DeletedMessage: string := "Book deleted successfully!"

  /** The posted add/edit form, as raw request strings. */
  datatype BookForm = BookForm(
    title: string,
    author: string,
    isbn: string,
    category: string,
    totalCopies: string,
    publicationYear: string,
    publisher: string)

  /** The row the form describes, with the given shelf count. */
  function FormBook(f: BookForm, available: int): (b: Book)
    ensures b.totalCopies == IntVal(f.totalCopies) && b.availableCopies == available
    ensures b.title == SanitizeInput(f.title) && b.author == SanitizeInput(f.author)
    ensures b.isbn == SanitizeInput(f.isbn) && b.category == SanitizeInput(f.category)
    ensures b.publisher == SanitizeInput(f.publisher) && b.publicationYear == IntVal(f.publicationYear)
  {
    Book(SanitizeInput(f.title), SanitizeInput(f.author), SanitizeInput(f.isbn), SanitizeInput(f.category),
         SanitizeInput(f.publisher), IntVal(f.publicationYear), IntVal(f.totalCopies), available)
  }

  /** action=add: a new row under a fresh key with every copy available. */
  function AddBook(lib: Library, f: BookForm): (r: Step)
    ensures r.lib.books == lib.books[lib.nextBookId := FormBook(f, IntVal(f.totalCopies))]
    ensures r.lib.books[lib.nextBookId].availableCopies == r.lib.books[lib.nextBookId].totalCopies
    ensures r.lib.nextBookId == lib.nextBookId + 1
    ensures r.lib.issues == lib.issues && r.lib.students == lib.students && r.lib.attendance == lib.attendance
    ensures r.lib.nextStudentId == lib.nextStudentId && r.lib.nextIssueId == lib.nextIssueId
    ensures r.notices == [ShowSuccessNotice(AddedMessage)]
  {
    var lib' := lib.(books := lib.books[lib.nextBookId := FormBook(f, IntVal(f.totalCopies))],
                     nextBookId := lib.nextBookId + 1);
    Step(lib', [ShowSuccessNotice(AddedMessage)])
  }

  /** A new book with a non-negative copy count keeps the ledger valid: no
      issue names the fresh key, so none of its copies is out. */
  lemma AddBookPreservesValid(lib: Library, f: BookForm)
    requires Valid(lib) && IntVal(f.totalCopies) >= 0
    ensures Valid(AddBook(lib, f).lib)
  {
    NewBookPreservesValid(lib, FormBook(f, IntVal(f.totalCopies)));
  }

  /** Nothing stops a negative count: intval('-3') is stored as both total
      and available copies, which leaves the shelf overdrawn. */
  lemma AddNegativeCopiesOverdraws(lib: Library, f: BookForm)
    requires IntVal(f.totalCopies) < 0
    ensures !NoOverdraw(AddBook(lib, f).lib)
  {
    assert lib.nextBookId in AddBook(lib, f).lib.books;
  }

  /** action=edit: overwrites the descriptive fields and total_copies of the
      row keyed intval(book_id), keeping its available_copies. An unknown key
      matches no row: nothing changes, and the success message is shown all
      the same. */
  function EditBook(lib: Library, bookId: string, f: BookForm): (r: Step)
    ensures r.notices == [ShowSuccessNotice(UpdatedMessage)]
    ensures IntVal(bookId) !in lib.books ==> r.lib == lib
    ensures IntVal(bookId) in lib.books ==>
      r.lib == lib.(books := lib.books[IntVal(bookId) := FormBook(f, lib.books[IntVal(bookId)].availableCopies)])
  {
    var id := IntVal(bookId);
    if id in lib.books then
      Step(lib.(books := lib.books[id := FormBook(f, lib.books[id].availableCopies)]), [ShowSuccessNotice(UpdatedMessage)])
    else
      Step(lib, [ShowSuccessNotice(UpdatedMessage)])
  }

  /** Lowering total_copies below the copies on the shelf leaves
      available_copies > total_copies. */
  lemma EditBelowAvailableBreaksRange(lib: Library, bookId: string, f: BookForm)
    requires IntVal(bookId) in lib.books
    requires IntVal(f.totalCopies) < lib.books[IntVal(bookId)].availableCopies
    ensures !CopiesInRange(EditBook(lib, bookId, f).lib)
  {
    assert IntVal(bookId) in EditBook(lib, bookId, f).lib.books;
  }

  /** Any change of total_copies on a consistent book breaks conservation,
      since available_copies does not follow. */
  lemma EditChangingTotalBreaksConservation(lib: Library, bookId: string, f: BookForm)
    requires Valid(lib)
    requires IntVal(bookId) in lib.books
    requires IntVal(f.totalCopies) != lib.books[IntVal(bookId)].totalCopies
    ensures !CopiesConserved(EditBook(lib, bookId, f).lib)
  {
    var id := IntVal(bookId);
    ChangedTotalBreaksConservation(lib, id, FormBook(f, lib.books[id].availableCopies));
  }

  /** An edit that keeps total_copies keeps the ledger valid. */
  lemma EditSameTotalPreservesValid(lib: Library, bookId: string, f: BookForm)
    requires Valid(lib)
    requires IntVal(bookId) in lib.books ==> IntVal(f.totalCopies) == lib.books[IntVal(bookId)].totalCopies
    ensures Valid(EditBook(lib, bookId, f).lib)
  {
    var id := IntVal(bookId);
    if id in lib.books {
      ReplaceRowPreservesValid(lib, id, FormBook(f, lib.books[id].availableCopies));
    }
  }

  /** Replacing a book row by one with the same copy counts keeps the ledger valid. */
  lemma ReplaceRowPreservesValid(lib: Library, id: BookId, nb: Book)
    requires Valid(lib) && id in lib.books
    requires nb.totalCopies == lib.books[id].totalCopies && nb.availableCopies == lib.books[id].availableCopies
    ensures Valid(lib.(books := lib.books[id := nb]))
  {
    var r := lib.(books := lib.books[id := nb]);
    forall b | b in r.books
      ensures r.books[b].availableCopies + |OpenLoans(r.issues, b)| == r.books[b].totalCopies
      ensures r.books[b].availableCopies >= 0
    {
      if b != id {
        assert r.books[b] == lib.books[b];
      }
    }
  }

  /** action=delete: removes the row keyed intval(book_id) whatever issues
      still name it; those issues stay in book_issues. */
  function DeleteBook(lib: Library, bookId: string): (r: Step)
    ensures r.lib.books == lib.books - {IntVal(bookId)}
    ensures r.lib.issues == lib.issues && r.lib.students == lib.students && r.lib.attendance == lib.attendance
    ensures r.lib.nextBookId == lib.nextBookId && r.lib.nextStudentId == lib.nextStudentId
    ensures r.lib.nextIssueId == lib.nextIssueId
    ensures r.notices == [ShowSuccessNotice(DeletedMessage)]
  {
    Step(lib.(books := lib.books - {IntVal(bookId)}), [ShowSuccessNotice(DeletedMessage)])
  }

  /** Deleting a book keeps the remaining rows consistent. */
  lemma DeletePreservesValid(lib: Library, bookId: string)
    requires Valid(lib)
    ensures Valid(DeleteBook(lib, bookId).lib)
  {
  }

  /** The issues of a deleted book are orphaned: still stored, but no longer
      on the list of books currently issued, whatever their status. */
  lemma DeleteOrphansIssues(lib: Library, bookId: string, issueId: IssueId)
    requires issueId in lib.issues && lib.issues[issueId].book == IntVal(bookId)
    ensures var r := DeleteBook(lib, bookId).lib;
      issueId in r.issues && issueId !in Lending.OpenIssueIds(r)
  {
  }

  /** The search parameter: absent, or empty in PHP's sense ('' or '0'),
      means no search; otherwise the term is sanitized like stored text. */
  function SearchTerm(search: Option<string>): (t: Option<string>)
    ensures search.None? ==> t.None?
    ensures search.Some? && PhpEmpty(search.value) ==> t.None?
    ensures search.Some? && !PhpEmpty(search.value) ==> t == Some(SanitizeInput(search.value))
  {
    match search
    case None => None
    case Some(s) => if PhpEmpty(s) then None else Some(SanitizeInput(s))
  }

  /** The search's WHERE clause: the term occurs in the title, the author,
      the ISBN or the category. */
  predicate BookMatches(b: Book, term: string)
  {
    Contains(b.title, term) || Contains(b.author, term) || Contains(b.isbn, term) || Contains(b.category, term)
  }

  function MatchingBooks(lib: Library, term: Option<string>): (ids: set<BookId>)
    ensures forall id :: id in ids <==> id in lib.books && (term.None? || BookMatches(lib.books[id], term.value))
  {
    set id | id in lib.books && (term.None? || BookMatches(lib.books[id], term.value))
  }

  /** The catalogue: the books the search selects, newest key first. */
  function ListBooks(lib: Library, search: Option<string>): (ids: seq<BookId>)
    ensures forall id :: id in ids <==>
      id in lib.books && (SearchTerm(search).None? || BookMatches(lib.books[id], SearchTerm(search).value))
    ensures forall i, j :: 0 <= i < j < |ids| ==> ids[i] > ids[j]
  {
    Sorting.KeysDescending(MatchingBooks(lib, SearchTerm(search)))
  }

  /** Without a search, and for the search '0', every book is listed. */
  lemma ListBooksUnfiltered(lib: Library, search: Option<string>)
    requires search.None? || PhpEmpty(search.value)
    ensures forall id :: id in ListBooks(lib, search) <==> id in lib.books
  {
  }

  /** A search only ever narrows the catalogue. */
  lemma SearchNarrowsBooks(lib: Library, search: string)
    ensures forall id :: id in ListBooks(lib, Some(search)) ==> id in ListBooks(lib, None)
  {
  }

  /** GET action=edit: the row to prefill the edit form with, if any. */
  function EditTarget(lib: Library, id: string): (b: Option<Book>)
    ensures b.Some? <==> IntVal(id) in lib.books
    ensures b.Some? ==> b.value == lib.books[IntVal(id)]
  {
    if IntVal(id) in lib.books then Some(lib.books[IntVal(id)]) else None
  }
}

=== FILE: config.dfy ===
/**
 * Application settings and the date-valued helpers of includes/config.php:
 * the loan duration, the daily fine and `calculateFine`, plus `formatDate`'s
 * "N/A" branch.
 *
 * Dates are whole day numbers (days since 1970-01-01). The source converts
 * 'Y-m-d' strings with strtotime() and divides a difference of seconds by
 * 86400; on day numbers that division is exact, so DATEDIFF and the fine's
 * day count are both plain subtraction here.
 */
module Config {
  import opened Text

  /** ISSUE_DURATION_DAYS: the default loan length. */
  const IssueDurationDays: int := 14

  /** FINE_PER_DAY: currency units charged per whole day past the due date. */
  const FinePerDay: int := 5

  /** A calendar date as a day number (days since 1970-01-01, proleptic
      Gregorian), the value strtotime('Y-m-d') / 86400 denotes. */
  function DayNumber(y: int, m: int, d: int): int
    requires 1 <= m <= 12 && 1 <= d <= 31
  {
    var y' := if m <= 2 then y - 1 else y;
    var era := y' / 400;
    var yoe := y' - era * 400;
    var mp := (m + 9) % 12;
    var doy := (153 * mp + 2) / 5 + d - 1;
    var doe := yoe * 365 + yoe / 4 - yoe / 100 + doy;
    era * 146097 + doe - 719468
  }

  /** Within a month, the k-th day after d is numbered k higher. */
  lemma DayNumberWithinMonth(y: int, m: int, d: int, k: nat)
    requires 1 <= m <= 12 && 1 <= d && d + k <= 31
    ensures DayNumber(y, m, d + k) == DayNumber(y, m, d) + k
  {
  }

  /** The due date the issue form proposes for a loan issued on
      `issueDate`: ISSUE_DURATION_DAYS later (issue_book.php:248 adds the
      duration to today, which is also the form's default issue date). */
  function DefaultDueDate(issueDate: int): (due: int)
    ensures due > issueDate
    ensures due - issueDate == IssueDurationDays
  {
    issueDate + IssueDurationDays
  }

  /** calculateFine(dueDate) evaluated on day `today`: nothing is owed up to
      and including the due date; afterwards every whole day costs
      FINE_PER_DAY. */
  function CalculateFine(due: int, today: int): (fine: int)
    ensures fine >= 0
    ensures fine == 0 <==> today <= due
    ensures fine % FinePerDay == 0
  {
    if today > due then (today - due) * FinePerDay else 0
  }

  /** A loan given the default due date costs nothing for its first
      ISSUE_DURATION_DAYS days and FINE_PER_DAY for every day after them. */
  lemma DefaultLoanFine(issueDate: int, today: int)
    ensures today <= issueDate + IssueDurationDays ==> CalculateFine(DefaultDueDate(issueDate), today) == 0
    ensures today > issueDate + IssueDurationDays ==>
      CalculateFine(DefaultDueDate(issueDate), today) == FinePerDay * (today - issueDate - IssueDurationDays)
  {
  }

  /** The days a loan is late on day `today`: those after the due date, up to
      and including today. */
  function LateDays(due: int, today: int): (days: set<int>)
    ensures forall d :: d in days <==> due < d <= today
    decreases if today > due then today - due else 0
  {
    if today <= due then {} else LateDays(due, today - 1) + {today}
  }

  lemma {:induction false} LateDaysCount(due: int, today: int)
    ensures |LateDays(due, today)| == if today > due then today - due else 0
    decreases if today > due then today - due else 0
  {
    if today > due {
      LateDaysCount(due, today - 1);
    }
  }

  /** The fine is FINE_PER_DAY for each calendar day after the due date up to
      today, counted independently of the formula. */
  lemma FineChargesEachLateDay(due: int, today: int)
    ensures CalculateFine(due, today) == FinePerDay * |LateDays(due, today)|
  {
    LateDaysCount(due, today);
  }

  /** For a fixed due date, the fine never decreases as time passes. */
  lemma FineMonotone(due: int, today: int, later: int)
    requires today <= later
    ensures CalculateFine(due, today) <= CalculateFine(due, later)
  {
  }

  /** Due 2024-01-15, evaluated on 2024-01-20, five days late: 25. */
  lemma FineExample()
    ensures CalculateFine(DayNumber(2024, 1, 15), DayNumber(2024, 1, 20)) == 25
  {
    DayNumberWithinMonth(2024, 1, 15, 5);
  }

  /** A book issued on 2024-01-01 is by default due on 2024-01-15. */
  lemma DefaultDueDateExample()
    ensures DefaultDueDate(DayNumber(2024, 1, 1)) == DayNumber(2024, 1, 15)
  {
    DayNumberWithinMonth(2024, 1, 1, 14);
  }

  /** The date value MySQL stores for "no date". */
  const ZeroDate: string := "0000-00-00"

  /** formatDate(): "N/A" for an empty value (PHP's empty(), which includes
      "0") and for the zero date; every other value is handed to PHP's date
      rendering, which is passed in here as `render`. */
  function FormatDate(date: string, render: string -> string): (r: string)
    ensures PhpEmpty(date) || date == ZeroDate ==> r == "N/A"
    ensures !PhpEmpty(date) && date != ZeroDate ==> r == render(date)
  {
    if PhpEmpty(date) || date == ZeroDate then "N/A" else render(date)
  }

  /** When the date renderer never itself produces "N/A", the page shows
      "N/A" exactly for an empty value or the zero date. */
  lemma FormatDateShowsNA(date: string, render: string -> string)
    requires forall x :: render(x) != "N/A"
    ensures FormatDate(date, render) == "N/A" <==> PhpEmpty(date) || date == ZeroDate
  {
  }
}

=== FILE: csv.dfy ===
/**
 * exportTableToCSV in js/main.js: every cell is trimmed, its double quotes
 * doubled and the result wrapped in double quotes; cells are joined by ','
 * and rows by '\n', with nothing after the last row.
 *
 * Alongside the exporter is a reader for section 2 of RFC 4180 (quoted
 * and unquoted fields, "" inside quotes), taking LF as the record
 * separator as the exporter writes it. Reading an export gives back the
 * trimmed cells of every row.
 */
module Csv {
  import opened Base
  import opened Text

  /** `r` is the slice of `s` at `i` with only white space around it. */
  predicate TrimmedAt(s: string, r: string, i: int)
  {
    && 0 <= i <= |s| - |r| && r == s[i..][..|r|]
    && (forall k :: 0 <= k < i ==> IsJsSpace(s[k]))
    && (forall k :: i + |r| <= k < |s| ==> IsJsSpace(s[k]))
  }

  /** String.prototype.trim: drops white space at both ends. */
  function JsTrim(s: string): (r: string)
    ensures |r| <= |s|
    ensures r != [] ==> !IsJsSpace(r[0]) && !IsJsSpace(r[|r| - 1])
  {
    JsTrimEnd(JsTrimStart(s))
  }

  /** What trim leaves is a slice of its input with only white space
      around it. */
  lemma JsTrimIsSlice(s: string)
    ensures exists i :: TrimmedAt(s, JsTrim(s), i)
  {
    TrimmedSlice(s, JsTrimStart(s), JsTrim(s));
  }

  /** Trimming the start and then the end leaves a slice of the input with
      only white space around it. */
  lemma TrimmedSlice(s: string, t: string, r: string)
    requires |t| <= |s| && t == s[|s| - |t|..]
    requires forall k :: 0 <= k < |s| - |t| ==> IsJsSpace(s[k])
    requires |r| <= |t| && r == t[..|r|]
    requires forall k :: |r| <= k < |t| ==> IsJsSpace(t[k])
    ensures TrimmedAt(s, r, |s| - |t|)
  {
    var i := |s| - |t|;
    SuffixOfSuffix(s, t, r, IsJsSpace);
    assert r == s[i..][..|r|];
  }

  /** Whatever holds of the tail of a suffix holds of the same positions in
      the whole. */
  lemma SuffixOfSuffix(s: string, t: string, r: string, p: char -> bool)
    requires |t| <= |s| && t == s[|s| - |t|..]
    requires |r| <= |t| && r == t[..|r|]
    requires forall k :: |r| <= k < |t| ==> p(t[k])
    ensures forall k :: |s| - |t| + |r| <= k < |s| ==> p(s[k])
  {
    var i := |s| - |t|;
    forall k | i + |r| <= k < |s| ensures p(s[k]) {
      assert s[k] == t[k - i];
    }
  }

  function JsTrimStart(s: string): (r: string)
    ensures |r| <= |s| && r == s[|s| - |r|..]
    ensures r != [] ==> !IsJsSpace(r[0])
    ensures forall k :: 0 <= k < |s| - |r| ==> IsJsSpace(s[k])
    decreases |s|
  {
    if s != [] && IsJsSpace(s[0]) then JsTrimStart(s[1..]) else s
  }

  function JsTrimEnd(s: string): (r: string)
    ensures |r| <= |s| && r == s[..|r|]
    ensures r != [] ==> !IsJsSpace(r[|r| - 1])
    ensures r != [] && !IsJsSpace(s[0]) ==> !IsJsSpace(r[0])
    ensures forall k :: |r| <= k < |s| ==> IsJsSpace(s[k])
    decreases |s|
  {
    if s != [] && IsJsSpace(s[|s| - 1]) then JsTrimEnd(s[..|s| - 1]) else s
  }

  /** `.replace(/"/g, '""')`. */
  function DoubleQuotes(s: string): (r: string)
    ensures |r| >= |s|
  {
    if s == [] then [] else (if s[0] == '"' then "\"\"" else [s[0]]) + DoubleQuotes(s[1..])
  }

  /** One exported cell. */
  function QuoteCell(text: string): (r: string)
    ensures |r| >= 2 && r[0] == '"' && r[|r| - 1] == '"'
  {
    "\"" + DoubleQuotes(JsTrim(text)) + "\""
  }

  /** `csvRow.join(',')` over the quoted cells. */
  function RenderRow(cells: seq<string>): string
  {
    if cells == [] then ""
    else if |cells| == 1 then QuoteCell(cells[0])
    else QuoteCell(cells[0]) + "," + RenderRow(cells[1..])
  }

  /** `csv.join('\n')` over the rendered rows. */
  function RenderTable(rows: seq<seq<string>>): string
  {
    if rows == [] then ""
    else if |rows| == 1 then RenderRow(rows[0])
    else RenderRow(rows[0]) + "\n" + RenderTable(rows[1..])
  }

  /** The cells as the export carries them. */
  function TrimAll(cells: seq<string>): (r: seq<string>)
    ensures |r| == |cells|
    ensures forall k :: 0 <= k < |r| ==> r[k] == JsTrim(cells[k])
  {
    seq(|cells|, k requires 0 <= k < |cells| => JsTrim(cells[k]))
  }

  function TrimRows(rows: seq<seq<string>>): (r: seq<seq<string>>)
    ensures |r| == |rows|
    ensures forall k :: 0 <= k < |r| ==> r[k] == TrimAll(rows[k])
  {
    if rows == [] then [] else [TrimAll(rows[0])] + TrimRows(rows[1..])
  }

  // ---- Reading, after section 2 of RFC 4180 ----

  /** A character of an unquoted field (TEXTDATA, and no line break). */
  predicate IsTextData(c: char)
  {
    c != ',' && c != '"' && c != '\n' && c != '\r'
  }

  /** The rest of a quoted field after its opening quote: the field's text
      and what follows the closing quote; None when the quote never closes. */
  function ReadQuoted(s: string): (r: Option<(string, string)>)
    ensures r.Some? ==> |r.value.1| < |s|
    decreases |s|
  {
    if s == [] then None
    else if s[0] == '"' then
      if |s| >= 2 && s[1] == '"' then
        match ReadQuoted(s[2..])
        case None => None
        case Some((text, rest)) => Some(("\"" + text, rest))
      else Some(("", s[1..]))
    else
      match ReadQuoted(s[1..])
      case None => None
      case Some((text, rest)) => Some(([s[0]] + text, rest))
  }

  /** The longest prefix of TEXTDATA. */
  function TextPrefix(s: string): (n: nat)
    ensures n <= |s|
    ensures forall k :: 0 <= k < n ==> IsTextData(s[k])
    ensures n < |s| ==> !IsTextData(s[n])
  {
    if s != [] && IsTextData(s[0]) then 1 + TextPrefix(s[1..]) else 0
  }

  /** One field, quoted or not, and what follows it. */
  function ReadField(s: string): (r: Option<(string, string)>)
    ensures r.Some? ==> |r.value.1| <= |s|
    ensures r.Some? && s != [] && s[0] == '"' ==> |r.value.1| < |s|
  {
    if s != [] && s[0] == '"' then ReadQuoted(s[1..])
    else
      var n := TextPrefix(s);
      Some((s[..n], s[n..]))
  }

  /** One record: fields separated by ',' up to a '\n' (consumed) or the end
      of the text. None on a malformed field. */
  function ReadRecord(s: string): (r: Option<(seq<string>, string)>)
    ensures r.Some? ==> |r.value.0| >= 1
    ensures r.Some? && s != [] ==> |r.value.1| < |s|
    ensures r.Some? ==> |r.value.1| <= |s|
    decreases |s|
  {
    match ReadField(s)
    case None => None
    case Some((field, rest)) =>
      if rest == [] then Some(([field], []))
      else if rest[0] == '\n' then Some(([field], rest[1..]))
      else if rest[0] == ',' then
        match ReadRecord(rest[1..])
        case None => None
        case Some((fields, after)) => Some(([field] + fields, after))
      else None
  }

  /** Every record of the text; the final line break is optional. */
  function ReadTable(s: string): (r: Option<seq<seq<string>>>)
    decreases |s|
  {
    if s == [] then Some([])
    else
      match ReadRecord(s)
      case None => None
      case Some((fields, rest)) =>
        match ReadTable(rest)
        case None => None
        case Some(records) => Some([fields] + records)
  }

  // ---- Round trip ----

  /** The quoted body of a cell reads back as its text, up to the closing
      quote, when no quote follows it. */
  lemma {:induction false} ReadQuotedDoubled(text: string, rest: string)
    requires rest == [] || rest[0] != '"'
    ensures ReadQuoted(DoubleQuotes(text) + "\"" + rest) == Some((text, rest))
    decreases |text|
  {
    var s := DoubleQuotes(text) + "\"" + rest;
    if text == [] {
      assert s == "\"" + rest;
      assert s[1..] == rest;
    } else {
      ReadQuotedDoubled(text[1..], rest);
      var tail := DoubleQuotes(text[1..]) + "\"" + rest;
      if text[0] == '"' {
        assert s == "\"\"" + tail;
        assert s[2..] == tail;
      } else {
        assert s == [text[0]] + tail;
        assert s[1..] == tail;
      }
      assert text == [text[0]] + text[1..];
    }
  }

  /** One exported cell reads back as the trimmed text. */
  lemma ReadQuotedCell(text: string, rest: string)
    requires rest == [] || rest[0] != '"'
    ensures ReadField(QuoteCell(text) + rest) == Some((JsTrim(text), rest))
  {
    var t := JsTrim(text);
    assert QuoteCell(text) + rest == "\"" + (DoubleQuotes(t) + "\"" + rest);
    ReadQuotedText(t, rest);
  }

  lemma ReadQuotedText(t: string, rest: string)
    requires rest == [] || rest[0] != '"'
    ensures ReadField("\"" + (DoubleQuotes(t) + "\"" + rest)) == Some((t, rest))
  {
    var body := DoubleQuotes(t) + "\"" + rest;
    assert ("\"" + body)[1..] == body;
    ReadQuotedDoubled(t, rest);
  }

  /** A rendered row reads back as its trimmed cells, followed by either the
      end of the text or a line break and the next rows. */
  lemma {:induction false} ReadRenderedRow(cells: seq<string>, tail: string)
    requires cells != []
    requires tail == [] || tail[0] == '\n'
    ensures ReadRecord(RenderRow(cells) + tail) == Some((TrimAll(cells), if tail == [] then [] else tail[1..]))
    decreases |cells|
  {
    if |cells| == 1 {
      LastCell(cells, tail);
    } else {
      ReadRenderedRow(cells[1..], tail);
      NextCell(cells, tail, if tail == [] then [] else tail[1..]);
    }
  }

  lemma LastCell(cells: seq<string>, tail: string)
    requires |cells| == 1
    requires tail == [] || tail[0] == '\n'
    ensures ReadRecord(RenderRow(cells) + tail) == Some((TrimAll(cells), if tail == [] then [] else tail[1..]))
  {
    var cell := QuoteCell(cells[0]);
    ReadQuotedCell(cells[0], tail);
    assert RenderRow(cells) + tail == cell + tail;
    ReadRecordEnd(cell + tail, JsTrim(cells[0]), tail);
    assert TrimAll(cells) == [JsTrim(cells[0])];
  }

  lemma NextCell(cells: seq<string>, tail: string, after: string)
    requires |cells| >= 2
    requires ReadRecord(RenderRow(cells[1..]) + tail) == Some((TrimAll(cells[1..]), after))
    ensures ReadRecord(RenderRow(cells) + tail) == Some((TrimAll(cells), after))
  {
    var cell := QuoteCell(cells[0]);
    var more := RenderRow(cells[1..]) + tail;
    ReadQuotedCell(cells[0], "," + more);
    assert RenderRow(cells) == cell + "," + RenderRow(cells[1..]);
    Regroup(cell, ",", RenderRow(cells[1..]), tail);
    ReadRecordComma(cell + ("," + more), JsTrim(cells[0]), more);
    assert TrimAll(cells) == [JsTrim(cells[0])] + TrimAll(cells[1..]);
  }

  lemma Regroup(a: string, b: string, c: string, d: string)
    ensures a + b + c + d == a + (b + (c + d))
  {
  }

  /** A field at the end of the text or of its line is the last of its
      record. */
  lemma ReadRecordEnd(s: string, field: string, tail: string)
    requires ReadField(s) == Some((field, tail))
    requires tail == [] || tail[0] == '\n'
    ensures ReadRecord(s) == Some(([field], if tail == [] then [] else tail[1..]))
  {
  }

  /** A field followed by ',' starts a record that goes on with the next one. */
  lemma ReadRecordComma(s: string, field: string, more: string)
    requires ReadField(s) == Some((field, "," + more))
    ensures ReadRecord(s) == match ReadRecord(more)
      case None => None
      case Some((fields, after)) => Some(([field] + fields, after))
  {
    assert ("," + more)[0] == ',' && ("," + more)[1..] == more;
  }

  /** Reading an export gives back every row's trimmed cells, provided no
      row is empty (an empty row exports as nothing at all). */
  lemma {:induction false} ReadRenderedTable(rows: seq<seq<string>>)
    requires forall k :: 0 <= k < |rows| ==> rows[k] != []
    ensures ReadTable(RenderTable(rows)) == Some(TrimRows(rows))
    decreases |rows|
  {
    if rows != [] {
      var text := RenderTable(rows);
      var rest: string := if |rows| == 1 then [] else RenderTable(rows[1..]);
      FirstRecord(rows);
      assert ReadRecord(text) == Some((TrimAll(rows[0]), rest));
      RenderRowNonEmpty(rows[0]);
      assert text != [];
      assert ReadTable(text) == (match ReadTable(rest) case None => None case Some(rs) => Some([TrimAll(rows[0])] + rs));
      if |rows| == 1 {
        assert TrimRows(rows) == [TrimAll(rows[0])];
      } else {
        ReadRenderedTable(rows[1..]);
        assert TrimRows(rows) == [TrimAll(rows[0])] + TrimRows(rows[1..]);
      }
    }
  }

  /** The first record of an export is its first row. */
  lemma FirstRecord(rows: seq<seq<string>>)
    requires rows != [] && rows[0] != []
    ensures ReadRecord(RenderTable(rows)) == Some((TrimAll(rows[0]), if |rows| == 1 then [] else RenderTable(rows[1..])))
  {
    if |rows| == 1 {
      OnlyRecord(rows);
    } else {
      LeadingRecord(rows);
    }
  }

  lemma OnlyRecord(rows: seq<seq<string>>)
    requires |rows| == 1 && rows[0] != []
    ensures ReadRecord(RenderTable(rows)) == Some((TrimAll(rows[0]), []))
  {
    var row := RenderRow(rows[0]);
    ReadRenderedRow(rows[0], []);
    assert row + [] == row;
    assert RenderTable(rows) == row;
  }

  lemma LeadingRecord(rows: seq<seq<string>>)
    requires |rows| >= 2 && rows[0] != []
    ensures ReadRecord(RenderTable(rows)) == Some((TrimAll(rows[0]), RenderTable(rows[1..])))
  {
    SplitTable(rows);
    RowThenLine(rows[0], RenderTable(rows[1..]));
  }

  lemma SplitTable(rows: seq<seq<string>>)
    requires |rows| >= 2
    ensures RenderTable(rows) == RenderRow(rows[0]) + ("\n" + RenderTable(rows[1..]))
  {
    var row, rest := RenderRow(rows[0]), RenderTable(rows[1..]);
    assert RenderTable(rows) == row + "\n" + rest;
    Assoc(row, "\n", rest);
  }

  lemma Assoc(a: string, b: string, c: string)
    ensures a + b + c == a + (b + c)
  {
  }

  lemma RowThenLine(cells: seq<string>, rest: string)
    requires cells != []
    ensures ReadRecord(RenderRow(cells) + ("\n" + rest)) == Some((TrimAll(cells), rest))
  {
    var tail := "\n" + rest;
    ReadRenderedRow(cells, tail);
    assert tail[1..] == rest;
  }

  lemma RenderRowNonEmpty(cells: seq<string>)
    requires cells != []
    ensures RenderRow(cells) != []
  {
    assert |QuoteCell(cells[0])| >= 2;
  }

  /** Unquoting one exported cell recovers the trimmed text. */
  lemma UnquoteCell(text: string)
    ensures ReadTable(QuoteCell(text)) == Some([[JsTrim(text)]])
  {
    ReadRenderedTable([[text]]);
    OneCellTable(text);
  }

  /** A table of one cell renders as that cell, and trims to its text. */
  lemma OneCellTable(text: string)
    ensures RenderTable([[text]]) == QuoteCell(text)
    ensures TrimRows([[text]]) == [[JsTrim(text)]]
  {
    assert RenderTable([[text]]) == RenderRow([text]);
    assert TrimAll([text]) == [JsTrim(text)];
  }
}

=== FILE: dashboard.dfy ===
/**
 * dashboard.php: the six statistic cards, the five latest issues and the
 * five longest-overdue issues. `today` stands for CURDATE().
 */
module Dashboard {
  import opened Base
  import opened Ledger
  import Sorting
  import Lending
  import Attendance
  import Reports

  datatype Stats = Stats(
    totalBooks: nat,
    /** SUM(available_copies): NULL over an empty table. */
    availableBooks: Option<int>,
    totalStudents: nat,
    issuedBooks: nat,
    overdueBooks: nat,
    todayAttendance: nat)

  /** The sum of a column over the listed books. */
  function SumAvailable(lib: Library, ids: seq<BookId>): int
    requires forall k :: 0 <= k < |ids| ==> ids[k] in lib.books
    decreases |ids|
  {
    if ids == [] then 0 else lib.books[ids[0]].availableCopies + SumAvailable(lib, ids[1..])
  }

  function SumTotal(lib: Library, ids: seq<BookId>): int
    requires forall k :: 0 <= k < |ids| ==> ids[k] in lib.books
    decreases |ids|
  {
    if ids == [] then 0 else lib.books[ids[0]].totalCopies + SumTotal(lib, ids[1..])
  }

  /** The statistic cards. */
  function DashboardStats(lib: Library, today: Day): (r: Stats)
    ensures r.totalBooks == |lib.books|
    ensures r.availableBooks.None? <==> lib.books == map[]
    ensures r.availableBooks.Some? ==>
      r.availableBooks.value == SumAvailable(lib, Sorting.KeysDescending(lib.books.Keys))
    ensures r.totalStudents == |Attendance.ActiveIds(lib)|
    ensures r.issuedBooks == |Reports.IssuedIds(lib)| && r.overdueBooks == |Reports.OverdueIds(lib, today)|
    ensures r.overdueBooks <= r.issuedBooks
    ensures r.todayAttendance == |Attendance.DayKeys(lib.attendance, today)|
  {
    var ids := Sorting.KeysDescending(lib.books.Keys);
    var counts := Reports.OverviewCounts(lib, today);
    Stats(|lib.books|,
          if lib.books == map[] then None else Some(SumAvailable(lib, ids)),
          counts.activeStudents, counts.issuedBooks, counts.overdueBooks,
          |Attendance.DayKeys(lib.attendance, today)|)
  }

  /** The dashboard and the reports agree on the issued and overdue counts,
      and the attendance card counts what the day's summary totals. */
  lemma DashboardAgreesWithReports(lib: Library, today: Day)
    ensures DashboardStats(lib, today).issuedBooks == Reports.OverviewCounts(lib, today).issuedBooks
    ensures DashboardStats(lib, today).overdueBooks == Reports.OverviewCounts(lib, today).overdueBooks
    ensures DashboardStats(lib, today).todayAttendance == Attendance.Summarize(lib.attendance, today).totalMarked
  {
  }

  /** The open loans of the listed books. */
  function LoansOf(lib: Library, ids: seq<BookId>): (loans: set<IssueId>)
    ensures forall id :: id in loans <==> id in lib.issues && lib.issues[id].status == Issued && lib.issues[id].book in ids
  {
    set id | id in lib.issues && lib.issues[id].status == Issued && lib.issues[id].book in ids
  }

  /** Shelf accounting over a list of books: in a consistent ledger, the
      copies on their shelves plus their copies out make up their stock. */
  lemma {:induction false} ShelfAccounting(lib: Library, ids: seq<BookId>)
    requires Valid(lib)
    requires Sorting.Distinct(ids) && forall k :: 0 <= k < |ids| ==> ids[k] in lib.books
    ensures SumAvailable(lib, ids) + |LoansOf(lib, ids)| == SumTotal(lib, ids)
    decreases |ids|
  {
    if ids == [] {
      assert LoansOf(lib, ids) == {};
    } else {
      var rest := ids[1..];
      assert Sorting.Distinct(rest);
      ShelfAccounting(lib, rest);
      LoansOfFirst(lib, ids);
    }
  }

  /** The open loans of a repeat-free list split into those of its first
      book and those of the rest, with no loan in both. */
  lemma LoansOfFirst(lib: Library, ids: seq<BookId>)
    requires ids != [] && Sorting.Distinct(ids)
    ensures |LoansOf(lib, ids)| == |OpenLoans(lib.issues, ids[0])| + |LoansOf(lib, ids[1..])|
  {
    var b, rest := ids[0], ids[1..];
    assert b !in rest by {
      forall k | 0 <= k < |rest| ensures rest[k] != b {
        assert rest[k] == ids[k + 1];
      }
    }
    assert forall x :: x in ids <==> x == b || x in rest by {
      assert ids == [b] + rest;
    }
    assert LoansOf(lib, ids) == OpenLoans(lib.issues, b) + LoansOf(lib, rest);
    assert OpenLoans(lib.issues, b) * LoansOf(lib, rest) == {};
  }

  /** The available-books card: in a consistent ledger, the stock of all
      books less the copies out, so never more than the stock and never less
      than the stock minus the issued-books card. */
  lemma AvailableCardAccounting(lib: Library, today: Day, ids: seq<BookId>)
    requires Valid(lib) && lib.books != map[]
    requires ids == Sorting.KeysDescending(lib.books.Keys)
    ensures DashboardStats(lib, today).availableBooks == Some(SumTotal(lib, ids) - |LoansOf(lib, ids)|)
    ensures SumTotal(lib, ids) - DashboardStats(lib, today).issuedBooks
            <= DashboardStats(lib, today).availableBooks.value
            <= SumTotal(lib, ids)
  {
    StockAccounting(lib, ids);
    CardFromStock(lib, today, ids);
  }

  lemma CardFromStock(lib: Library, today: Day, ids: seq<BookId>)
    requires lib.books != map[] && ids == Sorting.KeysDescending(lib.books.Keys)
    requires forall k :: 0 <= k < |ids| ==> ids[k] in lib.books
    requires SumAvailable(lib, ids) == SumTotal(lib, ids) - |LoansOf(lib, ids)|
    requires SumTotal(lib, ids) - |Reports.IssuedIds(lib)| <= SumAvailable(lib, ids) <= SumTotal(lib, ids)
    ensures DashboardStats(lib, today).availableBooks == Some(SumTotal(lib, ids) - |LoansOf(lib, ids)|)
    ensures SumTotal(lib, ids) - DashboardStats(lib, today).issuedBooks
            <= DashboardStats(lib, today).availableBooks.value
            <= SumTotal(lib, ids)
  {
    AvailableCard(lib, today, ids);
    var st := DashboardStats(lib, today);
    assert st.issuedBooks == |Reports.IssuedIds(lib)|;
  }

  /** The available card is the sum over the books in key order. */
  lemma AvailableCard(lib: Library, today: Day, ids: seq<BookId>)
    requires lib.books != map[] && ids == Sorting.KeysDescending(lib.books.Keys)
    ensures DashboardStats(lib, today).availableBooks == Some(SumAvailable(lib, ids))
  {
  }

  /** Over all books of a consistent ledger: the copies on the shelves are
      the stock less the copies out, which the issued count bounds. */
  lemma StockAccounting(lib: Library, ids: seq<BookId>)
    requires Valid(lib) && ids == Sorting.KeysDescending(lib.books.Keys)
    ensures forall k :: 0 <= k < |ids| ==> ids[k] in lib.books
    ensures SumAvailable(lib, ids) == SumTotal(lib, ids) - |LoansOf(lib, ids)|
    ensures SumTotal(lib, ids) - |Reports.IssuedIds(lib)| <= SumAvailable(lib, ids) <= SumTotal(lib, ids)
  {
    assert Sorting.Distinct(ids) && forall k :: 0 <= k < |ids| ==> ids[k] in lib.books;
    ShelfAccounting(lib, ids);
    LoansWithinIssued(lib, ids);
  }

  lemma LoansWithinIssued(lib: Library, ids: seq<BookId>)
    ensures |LoansOf(lib, ids)| <= |Reports.IssuedIds(lib)|
  {
    assert LoansOf(lib, ids) <= Reports.IssuedIds(lib);
    SubsetCard(LoansOf(lib, ids), Reports.IssuedIds(lib));
  }

  /** The recent-issues panel shows five issues. */
  const PanelLimit: nat := 5

  /** The recent-issues panel: the latest five joined issues, returned ones
      included. */
  function RecentIssuesPanel(lib: Library): (ids: seq<IssueId>)
    ensures |ids| <= PanelLimit
    ensures |ids| == PanelLimit || |ids| == |Reports.JoinedIds(lib)|
    ensures forall k :: 0 <= k < |ids| ==> ids[k] in Reports.JoinedIds(lib)
    ensures Sorting.Distinct(ids)
    ensures Sorting.SortedDescBy(ids, Lending.IssueDateOf(lib))
    ensures forall id, k :: id in Reports.JoinedIds(lib) && id !in ids && 0 <= k < |ids| ==>
      lib.issues[ids[k]].issueDate >= lib.issues[id].issueDate
  {
    Reports.RecentIssuesAreLatest(lib, PanelLimit);
    Reports.RecentIssues(lib, PanelLimit)
  }

  /** With at most five joined issues the panel shows each of them, whatever
      its status: returned issues are not filtered out. */
  lemma RecentPanelShowsReturned(lib: Library, id: IssueId)
    requires |Reports.JoinedIds(lib)| <= PanelLimit
    requires id in Reports.JoinedIds(lib) && lib.issues[id].status == Returned
    ensures id in RecentIssuesPanel(lib)
  {
    var sorted := Sorting.OrderBy(Reports.JoinedIds(lib), Lending.IssueDateOf(lib));
    assert Sorting.Take(sorted, PanelLimit) == sorted;
  }

  /** ORDER BY due_date ASC. */
  function EarliestDueFirst(lib: Library): int -> int
  {
    id => if id in lib.issues then -lib.issues[id].dueDate else 0
  }

  /** The overdue panel: the five joined overdue issues with the earliest
      due dates. */
  function OverduePanel(lib: Library, today: Day): (ids: seq<IssueId>)
    ensures |ids| <= PanelLimit
    ensures |ids| == PanelLimit || |ids| == |Reports.OverdueJoined(lib, today)|
    ensures forall k :: 0 <= k < |ids| ==> ids[k] in Reports.OverdueJoined(lib, today)
    ensures Sorting.Distinct(ids)
    ensures Sorting.SortedDescBy(ids, EarliestDueFirst(lib))
  {
    Sorting.TopBy(Reports.OverdueJoined(lib, today), EarliestDueFirst(lib), PanelLimit)
  }

  /** Earliest due date first is most days overdue first: the panel lists
      its issues in the order the overdue report does. */
  lemma OverduePanelMostOverdueFirst(lib: Library, today: Day)
    ensures var ids := OverduePanel(lib, today);
      forall j, k :: 0 <= j < k < |ids| ==>
        && lib.issues[ids[j]].dueDate <= lib.issues[ids[k]].dueDate < today
        && Reports.DaysOverdueOf(lib, today)(ids[j]) >= Reports.DaysOverdueOf(lib, today)(ids[k]) > 0
  {
    var ids := OverduePanel(lib, today);
    forall j, k | 0 <= j < k < |ids|
      ensures lib.issues[ids[j]].dueDate <= lib.issues[ids[k]].dueDate < today
      ensures Reports.DaysOverdueOf(lib, today)(ids[j]) >= Reports.DaysOverdueOf(lib, today)(ids[k]) > 0
    {
      assert ids[j] in Reports.OverdueIds(lib, today) && ids[k] in Reports.OverdueIds(lib, today);
      assert EarliestDueFirst(lib)(ids[j]) >= EarliestDueFirst(lib)(ids[k]);
    }
  }

  /** The panel shows the earliest-due overdue issues: no overdue issue left
      out of it is due before one it shows. */
  lemma OverduePanelIsEarliestDue(lib: Library, today: Day)
    ensures var ids := OverduePanel(lib, today);
      forall id, k :: id in Reports.OverdueJoined(lib, today) && id !in ids && 0 <= k < |ids| ==>
        lib.issues[ids[k]].dueDate <= lib.issues[id].dueDate
  {
    var ids := OverduePanel(lib, today);
    forall id, k | id in Reports.OverdueJoined(lib, today) && id !in ids && 0 <= k < |ids|
      ensures lib.issues[ids[k]].dueDate <= lib.issues[id].dueDate
    {
      assert ids[k] in Reports.OverdueIds(lib, today) && id in Reports.OverdueIds(lib, today);
      assert EarliestDueFirst(lib)(ids[k]) >= EarliestDueFirst(lib)(id);
    }
  }
}

=== FILE: flash.dfy ===
/**
 * Flash messages (includes/config.php): each handler leaves at most one
 * pending success message and one pending error message in the session; the
 * next page shows them once and clears them.
 */
module Flash {
  import opened Base

  /** The two session slots `success_message` and `error_message`. */
  datatype Session = Session(success: Option<string>, error: Option<string>)

  const EmptySession: Session := Session(None, None)

  /** What a request handler asks to be shown on the next page. */
  datatype Notice = ShowSuccessNotice(message: string) | ShowErrorNotice(message: string)

  /** showSuccess(): the pending success message becomes `message`, replacing
      any earlier one; the error slot is untouched. */
  function ShowSuccess(s: Session, message: string): (r: Session)
    ensures r.success == Some(message) && r.error == s.error
  {
    s.(success := Some(message))
  }

  /** showError(): the pending error message becomes `message`, replacing any
      earlier one; the success slot is untouched. */
  function ShowError(s: Session, message: string): (r: Session)
    ensures r.error == Some(message) && r.success == s.success
  {
    s.(error := Some(message))
  }

  /** getSuccessMessage(): the pending success message, or '' when none, and
      the session with that slot cleared. */
  function GetSuccessMessage(s: Session): (r: (string, Session))
    ensures r.0 == s.success.GetOr("")
    ensures r.1.success == None && r.1.error == s.error
  {
    match s.success
    case Some(m) => (m, s.(success := None))
    case None => ("", s)
  }

  /** getErrorMessage(): the pending error message, or '' when none, and the
      session with that slot cleared. */
  function GetErrorMessage(s: Session): (r: (string, Session))
    ensures r.0 == s.error.GetOr("")
    ensures r.1.error == None && r.1.success == s.success
  {
    match s.error
    case Some(m) => (m, s.(error := None))
    case None => ("", s)
  }

  /** Records a handler's notices in order. */
  function Apply(s: Session, notices: seq<Notice>): (r: Session)
    ensures notices == [] ==> r == s
    decreases |notices|
  {
    if notices == [] then s
    else
      var s' := match notices[0]
        case ShowSuccessNotice(m) => ShowSuccess(s, m)
        case ShowErrorNotice(m) => ShowError(s, m);
      Apply(s', notices[1..])
  }

  /** A message is shown once: reading it clears it, so reading again right
      away gives ''. */
  lemma SuccessShownOnce(s: Session)
    ensures GetSuccessMessage(GetSuccessMessage(s).1).0 == ""
  {
  }

  lemma ErrorShownOnce(s: Session)
    ensures GetErrorMessage(GetErrorMessage(s).1).0 == ""
  {
  }

  /** Only the last of two success messages survives, and reading returns it. */
  lemma LastSuccessWins(s: Session, first: string, second: string)
    ensures ShowSuccess(ShowSuccess(s, first), second) == ShowSuccess(s, second)
    ensures GetSuccessMessage(ShowSuccess(ShowSuccess(s, first), second)).0 == second
  {
  }

  /** Only the last of two error messages survives, and reading returns it. */
  lemma LastErrorWins(s: Session, first: string, second: string)
    ensures ShowError(ShowError(s, first), second) == ShowError(s, second)
    ensures GetErrorMessage(ShowError(ShowError(s, first), second)).0 == second
  {
  }

  /** Applying a handler's notices leaves, in each slot, the message of the
      last notice of that kind, or the earlier content when there is none. */
  lemma {:induction false} ApplyKeepsLast(s: Session, notices: seq<Notice>)
    ensures Apply(s, notices).success == LastSuccess(notices, s.success)
    ensures Apply(s, notices).error == LastError(notices, s.error)
    decreases |notices|
  {
    if notices != [] {
      var s' := match notices[0]
        case ShowSuccessNotice(m) => ShowSuccess(s, m)
        case ShowErrorNotice(m) => ShowError(s, m);
      ApplyKeepsLast(s', notices[1..]);
      LastSuccessCons(notices, s.success);
      LastErrorCons(notices, s.error);
    }
  }

  /** The message of the last success notice, scanning from the end. */
  function LastSuccess(notices: seq<Notice>, before: Option<string>): Option<string>
    decreases |notices|
  {
    if notices == [] then before
    else if notices[|notices| - 1].ShowSuccessNotice? then Some(notices[|notices| - 1].message)
    else LastSuccess(notices[..|notices| - 1], before)
  }

  /** The message of the last error notice, scanning from the end. */
  function LastError(notices: seq<Notice>, before: Option<string>): Option<string>
    decreases |notices|
  {
    if notices == [] then before
    else if notices[|notices| - 1].ShowErrorNotice? then Some(notices[|notices| - 1].message)
    else LastError(notices[..|notices| - 1], before)
  }

  lemma {:induction false} LastSuccessCons(notices: seq<Notice>, before: Option<string>)
    requires notices != []
    ensures LastSuccess(notices, before)
         == LastSuccess(notices[1..], if notices[0].ShowSuccessNotice? then Some(notices[0].message) else before)
    decreases |notices|
  {
    if |notices| > 1 && !notices[|notices| - 1].ShowSuccessNotice? {
      var init := notices[..|notices| - 1];
      LastSuccessCons(init, before);
      assert init[1..] == notices[1..][..|notices[1..]| - 1];
    }
  }

  lemma {:induction false} LastErrorCons(notices: seq<Notice>, before: Option<string>)
    requires notices != []
    ensures LastError(notices, before)
         == LastError(notices[1..], if notices[0].ShowErrorNotice? then Some(notices[0].message) else before)
    decreases |notices|
  {
    if |notices| > 1 && !notices[|notices| - 1].ShowErrorNotice? {
      var init := notices[..|notices| - 1];
      LastErrorCons(init, before);
      assert init[1..] == notices[1..][..|notices[1..]| - 1];
    }
  }
}

=== FILE: ledger.dfy ===
/**
 * The relational state every handler reads and writes: the `books`,
 * `students`, `book_issues` and `attendance` tables, each a map from its
 * primary key to a row. AUTO_INCREMENT counters hand out fresh keys.
 *
 * The one cross-table invariant is copy conservation: a book's
 * available_copies equals its total_copies minus the issues of that book
 * still in state 'issued'. The store does not enforce it; the lending
 * handlers maintain it, and some other handlers break it (see Books).
 */
module Ledger {
  import opened Base
  import Flash
  import Sorting

  type BookId = int
  type StudentId = int
  type IssueId = int
  type AdminId = int
  /** A date as a whole day number. */
  type Day = int

  /** A `books` row. Text fields hold sanitized text. */
  datatype Book = Book(
    title: string,
    author: string,
    isbn: string,
    category: string,
    publisher: string,
    publicationYear: int,
    totalCopies: int,
    availableCopies: int)

  /** A `students` row. The status column holds whatever (sanitized) text the
      edit form posted; the form offers 'active' and 'inactive'. */
  datatype Student = Student(
    name: string,
    rollNumber: string,
    email: string,
    phone: string,
    department: string,
    yearOfStudy: int,
    address: string,
    status: string)

  const ActiveStatus: string := "active"

  predicate IsActive(s: Student)
  {
    s.status == ActiveStatus
  }

  /** `book_issues.status`: only the lending handlers write it. */
  datatype IssueStatus = Issued | Returned

  /** A `book_issues` row. Return date and returning admin are NULL until
      the return handler fills them in; the fine defaults to 0. */
  datatype Issue = Issue(
    book: BookId,
    student: StudentId,
    issueDate: Day,
    dueDate: Day,
    status: IssueStatus,
    returnDate: Option<Day>,
    fine: int,
    issuedBy: AdminId,
    returnedBy: Option<AdminId>)

  /** An `attendance` row; its key is the pair (student, date). */
  datatype AttendanceRecord = AttendanceRecord(
    status: string,
    remarks: string,
    markedBy: AdminId,
    markedAt: int)

  datatype Library = Library(
    books: map<BookId, Book>,
    students: map<StudentId, Student>,
    issues: map<IssueId, Issue>,
    attendance: map<(StudentId, Day), AttendanceRecord>,
    nextBookId: BookId,
    nextStudentId: StudentId,
    nextIssueId: IssueId)

  /** A freshly installed database: empty tables, counters at 1. */
  const EmptyLibrary: Library := Library(map[], map[], map[], map[], 1, 1, 1)

  /** The outcome of one POST handler: the new state and the flash messages
      it leaves for the next page. */
  datatype Step = Step(lib: Library, notices: seq<Flash.Notice>)

  /** The issues of book `b` that are still out. */
  function OpenLoans(issues: map<IssueId, Issue>, b: BookId): (ids: set<IssueId>)
    ensures forall id :: id in ids <==> id in issues && issues[id].book == b && issues[id].status == Issued
  {
    set id | id in issues && issues[id].book == b && issues[id].status == Issued
  }

  /** Every key, and every book an issue names, lies below its counter, so
      the next key handed out is fresh. */
  predicate KeysBelowCounters(lib: Library)
  {
    && (forall b :: b in lib.books ==> b < lib.nextBookId)
    && (forall s :: s in lib.students ==> s < lib.nextStudentId)
    && (forall id :: id in lib.issues ==> id < lib.nextIssueId && lib.issues[id].book < lib.nextBookId)
  }

  /** available_copies = total_copies - copies currently out. */
  predicate CopiesConserved(lib: Library)
  {
    forall b :: b in lib.books ==>
      lib.books[b].availableCopies + |OpenLoans(lib.issues, b)| == lib.books[b].totalCopies
  }

  predicate NoOverdraw(lib: Library)
  {
    forall b :: b in lib.books ==> lib.books[b].availableCopies >= 0
  }

  /** roll_number is taken to be a unique key of the students table. */
  predicate RollNumbersUnique(students: map<StudentId, Student>)
  {
    forall s, t :: s in students && t in students && s != t ==> students[s].rollNumber != students[t].rollNumber
  }

  /** The consistent states the lending workflow is meant to keep. */
  predicate Valid(lib: Library)
  {
    KeysBelowCounters(lib) && CopiesConserved(lib) && NoOverdraw(lib) && RollNumbersUnique(lib.students)
  }

  /** The book-level invariant: 0 <= available_copies <= total_copies. */
  predicate CopiesInRange(lib: Library)
  {
    forall b :: b in lib.books ==> 0 <= lib.books[b].availableCopies <= lib.books[b].totalCopies
  }

  lemma EmptyLibraryValid()
    ensures Valid(EmptyLibrary)
  {
  }

  /** Conservation together with no overdraw gives the range invariant. */
  lemma ValidCopiesInRange(lib: Library)
    requires Valid(lib)
    ensures CopiesInRange(lib)
  {
  }

  /** In a valid state the counters hand out keys not yet in use. */
  lemma ValidCountersFresh(lib: Library)
    requires Valid(lib)
    ensures lib.nextBookId !in lib.books
    ensures lib.nextStudentId !in lib.students
    ensures lib.nextIssueId !in lib.issues
    ensures OpenLoans(lib.issues, lib.nextBookId) == {}
  {
    assert forall id :: id in lib.issues ==> lib.issues[id].book != lib.nextBookId;
    var loans := OpenLoans(lib.issues, lib.nextBookId);
    if loans != {} {
      var id := Pick(loans);
      assert false;
    }
  }

  /** Shelving a new book under the next key, with all its copies on the
      shelf and none negative, keeps the ledger valid. */
  lemma NewBookPreservesValid(lib: Library, nb: Book)
    requires Valid(lib)
    requires nb.availableCopies == nb.totalCopies >= 0
    ensures Valid(lib.(books := lib.books[lib.nextBookId := nb], nextBookId := lib.nextBookId + 1))
  {
    ValidCountersFresh(lib);
    var r := lib.(books := lib.books[lib.nextBookId := nb], nextBookId := lib.nextBookId + 1);
    assert r.issues == lib.issues;
    forall b | b in r.books
      ensures r.books[b].availableCopies + |OpenLoans(r.issues, b)| == r.books[b].totalCopies
    {
      if b != lib.nextBookId {
        assert r.books[b] == lib.books[b];
      }
    }
  }

  /** Replacing a book's row by one with the same shelf count but another
      total breaks conservation for that book. */
  lemma ChangedTotalBreaksConservation(lib: Library, id: BookId, nb: Book)
    requires CopiesConserved(lib) && id in lib.books
    requires nb.availableCopies == lib.books[id].availableCopies
    requires nb.totalCopies != lib.books[id].totalCopies
    ensures !CopiesConserved(lib.(books := lib.books[id := nb]))
  {
    var r := lib.(books := lib.books[id := nb]);
    assert r.books[id].availableCopies + |OpenLoans(r.issues, id)| != r.books[id].totalCopies;
  }

  /** One copy of `issue.book` leaves the shelf under a new issue row keyed
      by the issue counter. */
  function Lend(lib: Library, issue: Issue): Library
    requires issue.book in lib.books
  {
    var b := lib.books[issue.book];
    lib.(issues := lib.issues[lib.nextIssueId := issue],
         nextIssueId := lib.nextIssueId + 1,
         books := lib.books[issue.book := b.(availableCopies := b.availableCopies - 1)])
  }

  /** Lending a copy that is on the shelf keeps the ledger valid. */
  lemma LendPreservesValid(lib: Library, issue: Issue)
    requires Valid(lib) && issue.book in lib.books && lib.books[issue.book].availableCopies > 0
    requires issue.status == Issued
    ensures Valid(Lend(lib, issue))
  {
    ValidCountersFresh(lib);
    LendConservesCopies(lib, issue);
    var r := Lend(lib, issue);
    assert KeysBelowCounters(r);
    assert NoOverdraw(r);
  }

  lemma LendConservesCopies(lib: Library, issue: Issue)
    requires CopiesConserved(lib) && issue.book in lib.books && lib.nextIssueId !in lib.issues
    requires issue.status == Issued
    ensures CopiesConserved(Lend(lib, issue))
  {
    var r := Lend(lib, issue);
    forall b | b in r.books
      ensures r.books[b].availableCopies + |OpenLoans(r.issues, b)| == r.books[b].totalCopies
    {
      OpenLoansAfterWrite(lib.issues, lib.nextIssueId, issue, b);
      assert lib.nextIssueId !in OpenLoans(lib.issues, b);
    }
  }

  /** Issue `id` is overwritten by `closed`, and its book, if it still
      exists, gets one copy back. */
  function CloseLoan(lib: Library, id: IssueId, closed: Issue): Library
    requires id in lib.issues
  {
    var bk := lib.issues[id].book;
    var books' :=
      if bk in lib.books
      then lib.books[bk := lib.books[bk].(availableCopies := lib.books[bk].availableCopies + 1)]
      else lib.books;
    lib.(issues := lib.issues[id := closed], books := books')
  }

  /** Closing a loan that is still out keeps the ledger valid. */
  lemma CloseLoanPreservesValid(lib: Library, id: IssueId, closed: Issue)
    requires Valid(lib) && id in lib.issues && lib.issues[id].status == Issued
    requires closed.book == lib.issues[id].book && closed.status != Issued
    ensures Valid(CloseLoan(lib, id, closed))
  {
    CloseLoanConservesCopies(lib, id, closed);
    var r := CloseLoan(lib, id, closed);
    assert KeysBelowCounters(r);
    assert NoOverdraw(r);
  }

  lemma CloseLoanConservesCopies(lib: Library, id: IssueId, closed: Issue)
    requires CopiesConserved(lib) && id in lib.issues && lib.issues[id].status == Issued
    requires closed.book == lib.issues[id].book && closed.status != Issued
    ensures CopiesConserved(CloseLoan(lib, id, closed))
  {
    var r := CloseLoan(lib, id, closed);
    var bk := lib.issues[id].book;
    forall b | b in r.books
      ensures r.books[b].availableCopies + |OpenLoans(r.issues, b)| == r.books[b].totalCopies
    {
      OpenLoansAfterWrite(lib.issues, id, closed, b);
      if b == bk {
        assert id in OpenLoans(lib.issues, b);
      } else {
        assert id !in OpenLoans(lib.issues, b);
      }
    }
  }

  /** Writing one issue row changes the open loans of a book only by that row. */
  lemma OpenLoansAfterWrite(issues: map<IssueId, Issue>, id: IssueId, issue: Issue, b: BookId)
    ensures OpenLoans(issues[id := issue], b)
         == (OpenLoans(issues, b) - {id}) + (if issue.book == b && issue.status == Issued then {id} else {})
  {
  }
}

=== FILE: lending.dfy ===
/**
 * The issue and return handlers of issue_book.php and the list of books
 * currently out that the same page shows.
 *
 * Each POST handler is one atomic transition. Rolled-back transactions are
 * "no state change plus an error message". The handlers check little: issue
 * checks only the book's available copies (not the student, not the dates),
 * and return checks nothing about the issue's status. `ReturnBookGuarded`
 * is the return handler with the missing status check added.
 */
module Lending {
  import opened Base
  import opened Text
  import opened Config
  import opened Ledger
  import opened Flash
  import Sorting

  const IssuedMessage: string := "Book issued successfully!"
  const NotAvailableMessage: string := "Book is not available for issue!"
  const ReturnedMessage: string := "Book returned successfully!"
  const FineAmountLabel: string := " Fine amount: \U{20B9}"
  /** The prefix of the message shown when the return transaction rolls back;
      the driver's own error text that follows it is not modelled. */
  const ReturnErrorMessage: string := "Error returning book: "
  /** The refusal of the corrected return handler. */
  const AlreadyReturnedMessage: string := "Book has already been returned!"

  // ------------------------------------------------------------------ issue

  /** The handler's only check. For an unknown book_id the SELECT finds no
      row, and PHP's NULL > 0 is false, so it counts as unavailable. */
  predicate Available(lib: Library, book: BookId)
  {
    book in lib.books && lib.books[book].availableCopies > 0
  }

  /** The row the issue handler inserts. The handler sets the book, the
      student, the two dates and issued_by (the acting admin); status
      'issued', fine 0 and the empty return date and returned_by are the
      table's column defaults. */
  function NewIssue(book: BookId, student: StudentId, issueDate: Day, dueDate: Day, admin: AdminId): Issue
  {
    Issue(book, student, issueDate, dueDate, Issued, None, 0, admin, None)
  }

  /** action=issue. When the book has a copy, inserts one issue row under a
      fresh key and takes one copy off that book; otherwise nothing changes.
      The student (existence, status) and the order of the dates are not
      checked. */
  function IssueBook(lib: Library, book: BookId, student: StudentId, issueDate: Day, dueDate: Day, admin: AdminId): (r: Step)
    ensures !Available(lib, book) ==> r == Step(lib, [ShowErrorNotice(NotAvailableMessage)])
    ensures Available(lib, book) ==>
      && r.notices == [ShowSuccessNotice(IssuedMessage)]
      && r.lib.issues == lib.issues[lib.nextIssueId := NewIssue(book, student, issueDate, dueDate, admin)]
      && r.lib.nextIssueId == lib.nextIssueId + 1
      && r.lib.books.Keys == lib.books.Keys
      && r.lib.books[book] == lib.books[book].(availableCopies := lib.books[book].availableCopies - 1)
      && (forall b :: b in lib.books && b != book ==> r.lib.books[b] == lib.books[b])
      && r.lib.students == lib.students && r.lib.attendance == lib.attendance
      && r.lib.nextBookId == lib.nextBookId && r.lib.nextStudentId == lib.nextStudentId
  {
    if Available(lib, book) then
      Step(Lend(lib, NewIssue(book, student, issueDate, dueDate, admin)), [ShowSuccessNotice(IssuedMessage)])
    else
      Step(lib, [ShowErrorNotice(NotAvailableMessage)])
  }

  /** From a valid state, a successful issue adds exactly one issue row. */
  lemma IssueAddsOneRecord(lib: Library, book: BookId, student: StudentId, issueDate: Day, dueDate: Day, admin: AdminId)
    requires Valid(lib) && Available(lib, book)
    ensures var r := IssueBook(lib, book, student, issueDate, dueDate, admin);
      && r.lib.issues.Keys == lib.issues.Keys + {lib.nextIssueId}
      && |r.lib.issues| == |lib.issues| + 1
  {
    ValidCountersFresh(lib);
  }

  /** Issuing keeps the ledger consistent: the copy taken off the shelf is
      the new open loan. */
  lemma IssuePreservesValid(lib: Library, book: BookId, student: StudentId, issueDate: Day, dueDate: Day, admin: AdminId)
    requires Valid(lib)
    ensures Valid(IssueBook(lib, book, student, issueDate, dueDate, admin).lib)
  {
    if Available(lib, book) {
      LendPreservesValid(lib, NewIssue(book, student, issueDate, dueDate, admin));
    }
  }

  /** The handler's outcome depends only on the book: any student id, active
      or not, present or not, and any pair of dates, even a due date before
      the issue date, get the same answer. */
  lemma IssueIgnoresStudentAndDates(lib: Library, book: BookId, admin: AdminId,
                                    s1: StudentId, issue1: Day, due1: Day,
                                    s2: StudentId, issue2: Day, due2: Day)
    ensures IssueBook(lib, book, s1, issue1, due1, admin).notices == IssueBook(lib, book, s2, issue2, due2, admin).notices
    ensures IssueBook(lib, book, s1, issue1, due1, admin).lib.books == IssueBook(lib, book, s2, issue2, due2, admin).lib.books
  {
  }

  // ----------------------------------------------------------------- return

  /** The update the return handler applies to the issue row. */
  function Closed(i: Issue, returnDate: Day, fine: int, admin: AdminId): Issue
  {
    i.(status := Returned, returnDate := Some(returnDate), fine := fine, returnedBy := Some(admin))
  }

  /** The success message, which mentions the fine when there is one. */
  function ReturnNotice(fine: int): Notice
  {
    if fine > 0 then ShowSuccessNotice(ReturnedMessage + FineAmountLabel + NatToString(fine))
    else ShowSuccessNotice(ReturnedMessage)
  }

  /** action=return, as written. For a known issue: marks it returned with
      the submitted return date, the acting admin and the fine
      calculateFine(due_date) as of `today` (not as of the return date), and
      puts one copy back on its book's shelf; the issue's status is not
      looked at. For an unknown issue the transaction fails and rolls back. */
  function ReturnBook(lib: Library, issueId: IssueId, returnDate: Day, admin: AdminId, today: Day): (r: Step)
    ensures issueId !in lib.issues ==> r == Step(lib, [ShowErrorNotice(ReturnErrorMessage)])
    ensures issueId in lib.issues ==>
      var i := lib.issues[issueId];
      var fine := CalculateFine(i.dueDate, today);
      && r.notices == [ReturnNotice(fine)]
      && r.lib.issues == lib.issues[issueId := Closed(i, returnDate, fine, admin)]
      && r.lib.books.Keys == lib.books.Keys
      && (i.book in lib.books ==>
            r.lib.books[i.book] == lib.books[i.book].(availableCopies := lib.books[i.book].availableCopies + 1))
      && (forall b :: b in lib.books && b != i.book ==> r.lib.books[b] == lib.books[b])
      && r.lib.students == lib.students && r.lib.attendance == lib.attendance
      && r.lib.nextBookId == lib.nextBookId && r.lib.nextStudentId == lib.nextStudentId
      && r.lib.nextIssueId == lib.nextIssueId
  {
    if issueId !in lib.issues then
      Step(lib, [ShowErrorNotice(ReturnErrorMessage)])
    else
      var i := lib.issues[issueId];
      var fine := CalculateFine(i.dueDate, today);
      Step(CloseLoan(lib, issueId, Closed(i, returnDate, fine, admin)), [ReturnNotice(fine)])
  }

  /** The charged fine depends on the day the form is processed, never on
      the return date typed into it. */
  lemma ReturnFineIgnoresReturnDate(lib: Library, issueId: IssueId, admin: AdminId, today: Day, date1: Day, date2: Day)
    requires issueId in lib.issues
    ensures ReturnBook(lib, issueId, date1, admin, today).lib.issues[issueId].fine
         == ReturnBook(lib, issueId, date2, admin, today).lib.issues[issueId].fine
         == CalculateFine(lib.issues[issueId].dueDate, today)
  {
  }

  /** Returning an issue that is still out keeps the ledger consistent. */
  lemma ReturnOpenPreservesValid(lib: Library, issueId: IssueId, returnDate: Day, admin: AdminId, today: Day)
    requires Valid(lib)
    requires issueId in lib.issues && lib.issues[issueId].status == Issued
    ensures Valid(ReturnBook(lib, issueId, returnDate, admin, today).lib)
  {
    var i := lib.issues[issueId];
    CloseLoanPreservesValid(lib, issueId, Closed(i, returnDate, CalculateFine(i.dueDate, today), admin));
  }

  /** A second return of the same issue puts a copy back that was never
      taken out: available_copies exceeds total_copies minus the copies out,
      so conservation fails. */
  lemma ReturnOfReturnedBreaksConservation(lib: Library, issueId: IssueId, returnDate: Day, admin: AdminId, today: Day)
    requires Valid(lib)
    requires issueId in lib.issues && lib.issues[issueId].status == Returned
    requires lib.issues[issueId].book in lib.books
    ensures !CopiesConserved(ReturnBook(lib, issueId, returnDate, admin, today).lib)
  {
    var r := ReturnBook(lib, issueId, returnDate, admin, today).lib;
    var i := lib.issues[issueId];
    var closed := Closed(i, returnDate, CalculateFine(i.dueDate, today), admin);
    OpenLoansAfterWrite(lib.issues, issueId, closed, i.book);
    assert issueId !in OpenLoans(lib.issues, i.book);
    assert OpenLoans(r.issues, i.book) == OpenLoans(lib.issues, i.book);
    assert r.books[i.book].availableCopies + |OpenLoans(r.issues, i.book)| == r.books[i.book].totalCopies + 1;
  }

  /** One book with one copy: issue it, return it, return it again. The
      shelf then shows two available copies of a one-copy book. */
  lemma DoubleReturnExample()
    ensures
      var lib0 := Library(map[1 := Book("Title", "Author", "1234567890", "Fiction", "Publisher", 2020, 1, 1)],
                          map[], map[], map[], 2, 1, 1);
      var lib1 := IssueBook(lib0, 1, 7, 100, 114, 1).lib;
      var lib2 := ReturnBook(lib1, 1, 110, 1, 110).lib;
      var lib3 := ReturnBook(lib2, 1, 111, 1, 111).lib;
      && Valid(lib0) && Valid(lib2)
      && lib3.books[1].availableCopies == 2 && lib3.books[1].totalCopies == 1
      && !CopiesInRange(lib3)
  {
    var lib0 := Library(map[1 := Book("Title", "Author", "1234567890", "Fiction", "Publisher", 2020, 1, 1)],
                        map[], map[], map[], 2, 1, 1);
    assert Available(lib0, 1);
    IssuePreservesValid(lib0, 1, 7, 100, 114, 1);
    var lib1 := IssueBook(lib0, 1, 7, 100, 114, 1).lib;
    ReturnOpenPreservesValid(lib1, 1, 110, 1, 110);
  }

  /** The corrected return handler: an issue already returned is refused
      and nothing changes; everything else is handled as before. */
  function ReturnBookGuarded(lib: Library, issueId: IssueId, returnDate: Day, admin: AdminId, today: Day): (r: Step)
    ensures issueId in lib.issues && lib.issues[issueId].status == Returned ==>
      r == Step(lib, [ShowErrorNotice(AlreadyReturnedMessage)])
    ensures issueId in lib.issues && lib.issues[issueId].status == Issued ==>
      && issueId in r.lib.issues
      && r.lib.issues[issueId].status == Returned
      && r.lib.issues[issueId].fine == CalculateFine(lib.issues[issueId].dueDate, today)
    ensures issueId !in lib.issues ==> r.lib == lib
  {
    if issueId in lib.issues && lib.issues[issueId].status == Returned
    then Step(lib, [ShowErrorNotice(AlreadyReturnedMessage)])
    else ReturnBook(lib, issueId, returnDate, admin, today)
  }

  /** With the status check in place, no sequence of returns can break the
      ledger: every return from a valid state leads to a valid state. */
  lemma GuardedReturnPreservesValid(lib: Library, issueId: IssueId, returnDate: Day, admin: AdminId, today: Day)
    requires Valid(lib)
    ensures Valid(ReturnBookGuarded(lib, issueId, returnDate, admin, today).lib)
  {
    if issueId in lib.issues && lib.issues[issueId].status == Issued {
      ReturnOpenPreservesValid(lib, issueId, returnDate, admin, today);
    }
  }

  /** Issue followed by the return of that same issue restores every book's
      shelf count and every book's set of open loans; returned on or before
      the due date, the loan costs nothing. */
  lemma IssueThenReturnRestores(lib: Library, book: BookId, student: StudentId, issueDate: Day, dueDate: Day,
                                admin: AdminId, returnDate: Day, returnAdmin: AdminId, today: Day)
    requires Valid(lib) && Available(lib, book)
    ensures
      var lib1 := IssueBook(lib, book, student, issueDate, dueDate, admin).lib;
      var lib2 := ReturnBook(lib1, lib.nextIssueId, returnDate, returnAdmin, today).lib;
      && lib2.books == lib.books
      && (forall b :: OpenLoans(lib2.issues, b) == OpenLoans(lib.issues, b))
      && lib2.issues[lib.nextIssueId].fine == CalculateFine(dueDate, today)
      && (today <= dueDate ==> lib2.issues[lib.nextIssueId].fine == 0)
  {
    var lib1 := IssueBook(lib, book, student, issueDate, dueDate, admin).lib;
    var lib2 := ReturnBook(lib1, lib.nextIssueId, returnDate, returnAdmin, today).lib;
    ValidCountersFresh(lib);
    var i := NewIssue(book, student, issueDate, dueDate, admin);
    var closed := Closed(i, returnDate, CalculateFine(dueDate, today), returnAdmin);
    assert lib2.issues == lib.issues[lib.nextIssueId := i][lib.nextIssueId := closed];
    assert lib2.issues == lib.issues[lib.nextIssueId := closed];
    forall b ensures OpenLoans(lib2.issues, b) == OpenLoans(lib.issues, b)
    {
      OpenLoansAfterWrite(lib.issues, lib.nextIssueId, closed, b);
    }
    assert lib2.books == lib.books;
  }

  // -------------------------------------------------- books currently issued

  /** An issue survives the page's inner JOINs only if its book and its
      student still exist. */
  predicate Joined(lib: Library, i: Issue)
  {
    i.book in lib.books && i.student in lib.students
  }

  /** The issues the page lists: status 'issued', book and student present. */
  function OpenIssueIds(lib: Library): (ids: set<IssueId>)
    ensures forall id :: id in ids <==> id in lib.issues && lib.issues[id].status == Issued && Joined(lib, lib.issues[id])
  {
    set id | id in lib.issues && lib.issues[id].status == Issued && Joined(lib, lib.issues[id])
  }

  /** One line of the list: the issue, DATEDIFF(today, due_date), the fine
      calculateFine shows, and the overdue flag days_overdue > 0. */
  datatype OpenIssueRow = OpenIssueRow(id: IssueId, issue: Issue, daysOverdue: int, fine: int, overdue: bool)

  function RowFor(lib: Library, id: IssueId, today: Day): (row: OpenIssueRow)
    requires id in lib.issues
    ensures row.id == id && row.issue == lib.issues[id]
    ensures row.daysOverdue == today - row.issue.dueDate
    ensures row.fine == CalculateFine(row.issue.dueDate, today)
    ensures row.overdue <==> row.fine > 0
  {
    var i := lib.issues[id];
    var days := today - i.dueDate;
    OpenIssueRow(id, i, days, CalculateFine(i.dueDate, today), days > 0)
  }

  /** ORDER BY issue_date. */
  function IssueDateOf(lib: Library): int -> int
  {
    id => if id in lib.issues then lib.issues[id].issueDate else 0
  }

  /** The "Currently Issued Books" list on day `today`, newest issue first.
      A row is flagged overdue exactly when it shows a positive fine. */
  function OpenIssueRows(lib: Library, today: Day): (rows: seq<OpenIssueRow>)
    ensures |rows| == |OpenIssueIds(lib)|
    ensures forall k :: 0 <= k < |rows| ==>
      && rows[k].id in OpenIssueIds(lib)
      && rows[k].issue == lib.issues[rows[k].id]
      && rows[k].daysOverdue == today - rows[k].issue.dueDate
      && rows[k].fine == CalculateFine(rows[k].issue.dueDate, today)
      && (rows[k].overdue <==> rows[k].fine > 0)
    ensures forall id :: id in OpenIssueIds(lib) ==> exists k :: 0 <= k < |rows| && rows[k].id == id
    ensures forall j, k :: 0 <= j < k < |rows| ==>
      rows[j].id != rows[k].id && rows[j].issue.issueDate >= rows[k].issue.issueDate
  {
    var ids := Sorting.OrderBy(OpenIssueIds(lib), IssueDateOf(lib));
    OpenIssueRowsShape(lib, today, ids);
    RowsFor(lib, ids, today)
  }

  /** The open issues, newest first, each turned into its row. */
  predicate IsOpenIssueList(lib: Library, today: Day, rows: seq<OpenIssueRow>)
  {
    && |rows| == |OpenIssueIds(lib)|
    && (forall k :: 0 <= k < |rows| ==>
      && rows[k].id in OpenIssueIds(lib)
      && rows[k].issue == lib.issues[rows[k].id]
      && rows[k].daysOverdue == today - rows[k].issue.dueDate
      && rows[k].fine == CalculateFine(rows[k].issue.dueDate, today)
      && (rows[k].overdue <==> rows[k].fine > 0))
    && (forall id :: id in OpenIssueIds(lib) ==> exists k :: 0 <= k < |rows| && rows[k].id == id)
    && (forall j, k :: 0 <= j < k < |rows| ==>
      rows[j].id != rows[k].id && rows[j].issue.issueDate >= rows[k].issue.issueDate)
  }

  lemma OpenIssueRowsShape(lib: Library, today: Day, ids: seq<IssueId>)
    requires |ids| == |OpenIssueIds(lib)| && forall id :: id in ids <==> id in OpenIssueIds(lib)
    requires Sorting.Distinct(ids) && Sorting.SortedDescBy(ids, IssueDateOf(lib))
    ensures forall k :: 0 <= k < |ids| ==> ids[k] in lib.issues
    ensures IsOpenIssueList(lib, today, RowsFor(lib, ids, today))
  {
    assert forall k :: 0 <= k < |ids| ==> ids[k] in OpenIssueIds(lib);
    var rows := RowsFor(lib, ids, today);
    RowsForCover(lib, today, ids, rows);
    RowsForOrder(lib, today, ids, rows);
    assert forall k :: 0 <= k < |rows| ==> rows[k] == RowFor(lib, ids[k], today);
  }

  /** Each open issue has its row. */
  lemma RowsForCover(lib: Library, today: Day, ids: seq<IssueId>, rows: seq<OpenIssueRow>)
    requires forall k :: 0 <= k < |ids| ==> ids[k] in lib.issues
    requires forall id :: id in ids <==> id in OpenIssueIds(lib)
    requires rows == RowsFor(lib, ids, today)
    ensures forall k :: 0 <= k < |rows| ==> rows[k].id in OpenIssueIds(lib)
    ensures forall id :: id in OpenIssueIds(lib) ==> exists k :: 0 <= k < |rows| && rows[k].id == id
  {
    forall id | id in OpenIssueIds(lib)
      ensures exists k :: 0 <= k < |rows| && rows[k].id == id
    {
      var k :| 0 <= k < |ids| && ids[k] == id;
      assert rows[k].id == id;
    }
  }

  /** The rows keep the keys' order: no issue twice, newest first. */
  lemma RowsForOrder(lib: Library, today: Day, ids: seq<IssueId>, rows: seq<OpenIssueRow>)
    requires forall k :: 0 <= k < |ids| ==> ids[k] in lib.issues
    requires Sorting.Distinct(ids) && Sorting.SortedDescBy(ids, IssueDateOf(lib))
    requires rows == RowsFor(lib, ids, today)
    ensures forall j, k :: 0 <= j < k < |rows| ==>
      rows[j].id != rows[k].id && rows[j].issue.issueDate >= rows[k].issue.issueDate
  {
    forall j, k | 0 <= j < k < |rows|
      ensures rows[j].id != rows[k].id && rows[j].issue.issueDate >= rows[k].issue.issueDate
    {
      assert IssueDateOf(lib)(ids[j]) >= IssueDateOf(lib)(ids[k]);
    }
  }

  /** One row per key, in the keys' order. */
  function RowsFor(lib: Library, ids: seq<IssueId>, today: Day): (rows: seq<OpenIssueRow>)
    requires forall k :: 0 <= k < |ids| ==> ids[k] in lib.issues
    ensures |rows| == |ids|
    ensures forall k :: 0 <= k < |ids| ==> rows[k] == RowFor(lib, ids[k], today)
    decreases |ids|
  {
    if ids == [] then [] else [RowFor(lib, ids[0], today)] + RowsFor(lib, ids[1..], today)
  }

  /** The fine previewed in the list is the fine the return handler charges
      when the book comes back the same day. */
  lemma PreviewFineIsCharged(lib: Library, today: Day, k: int, returnDate: Day, admin: AdminId)
    requires 0 <= k < |OpenIssueRows(lib, today)|
    ensures var row := OpenIssueRows(lib, today)[k];
      ReturnBook(lib, row.id, returnDate, admin, today).lib.issues[row.id].fine == row.fine
  {
  }
}

=== FILE: reports.dfy ===
/**
 * reports.php: the five read-only reports over the ledger.
 *
 * The plain COUNT queries read whole tables; the listings that JOIN issues
 * with books and students drop issues whose book or student is gone. `today`
 * stands for CURDATE().
 */
module Reports {
  import opened Base
  import opened Text
  import opened Sanitize
  import opened Config
  import opened Ledger
  import Sorting
  import Lending
  import Attendance

  /** ?type=..., sanitized, defaulting to the overview. A value naming no
      report shows the tabs and no report. */
  datatype ReportTab = OverviewTab | BooksTab | StudentsTab | AttendanceTab | OverdueTab | NoTab

  function ReportTabOf(param: Option<string>): (k: ReportTab)
    ensures param.None? ==> k == OverviewTab
    ensures param.Some? ==> (k == NoTab <==> SanitizeInput(param.value) !in {"overview", "books", "students", "attendance", "overdue"})
    ensures param.Some? && SanitizeInput(param.value) == "overdue" ==> k == OverdueTab
  {
    var t := if param.Some? then SanitizeInput(param.value) else "overview";
    if t == "overview" then OverviewTab
    else if t == "books" then BooksTab
    else if t == "students" then StudentsTab
    else if t == "attendance" then AttendanceTab
    else if t == "overdue" then OverdueTab
    else NoTab
  }

  // ---------------------------------------------------------------- overview

  /** Every issue with status 'issued', joined or not. */
  function IssuedIds(lib: Library): (ids: set<IssueId>)
    ensures forall id :: id in ids <==> id in lib.issues && lib.issues[id].status == Issued
  {
    set id | id in lib.issues && lib.issues[id].status == Issued
  }

  /** The issues still out whose due date has passed. */
  function OverdueIds(lib: Library, today: Day): (ids: set<IssueId>)
    ensures ids <= IssuedIds(lib)
    ensures forall id :: id in ids <==> id in lib.issues && lib.issues[id].status == Issued && lib.issues[id].dueDate < today
  {
    set id | id in lib.issues && lib.issues[id].status == Issued && lib.issues[id].dueDate < today
  }

  datatype OverviewStats = OverviewStats(totalBooks: nat, activeStudents: nat, issuedBooks: nat, overdueBooks: nat)

  /** The four statistic cards. Overdue issues are among the issued ones, so
      their count never exceeds the issued count. */
  function OverviewCounts(lib: Library, today: Day): (r: OverviewStats)
    ensures r.totalBooks == |lib.books|
    ensures r.activeStudents == |Attendance.ActiveIds(lib)|
    ensures r.issuedBooks == |IssuedIds(lib)| && r.overdueBooks == |OverdueIds(lib, today)|
    ensures r.overdueBooks <= r.issuedBooks
  {
    SubsetCard(OverdueIds(lib, today), IssuedIds(lib));
    OverviewStats(|lib.books|, |Attendance.ActiveIds(lib)|, |IssuedIds(lib)|, |OverdueIds(lib, today)|)
  }

  /** Under copy conservation the issued count is what the shelves are
      missing: the open loans of all existing books together. */
  lemma IssuedCountsOpenLoans(lib: Library, b: BookId)
    requires Valid(lib) && b in lib.books
    ensures OpenLoans(lib.issues, b) <= IssuedIds(lib)
    ensures |OpenLoans(lib.issues, b)| == lib.books[b].totalCopies - lib.books[b].availableCopies
  {
  }

  /** GROUP BY category: each category present, with its number of books. */
  function BooksByCategory(lib: Library): (m: map<string, nat>)
    ensures forall c :: c in m <==> exists b :: b in lib.books && lib.books[b].category == c
    ensures forall c :: c in m ==> m[c] == |set b | b in lib.books && lib.books[b].category == c| && m[c] >= 1
  {
    map c | c in (set b | b in lib.books :: lib.books[b].category) ::
      CategoryCount(lib, c)
  }

  function CategoryCount(lib: Library, c: string): (n: nat)
    requires exists b :: b in lib.books && lib.books[b].category == c
    ensures n == |set b | b in lib.books && lib.books[b].category == c| && n >= 1
  {
    var members := set b | b in lib.books && lib.books[b].category == c;
    var b :| b in lib.books && lib.books[b].category == c;
    assert b in members;
    |members|
  }

  /** GROUP BY department over the active students. */
  function StudentsByDepartment(lib: Library): (m: map<string, nat>)
    ensures forall d :: d in m <==> exists s :: s in Attendance.ActiveIds(lib) && lib.students[s].department == d
    ensures forall d :: d in m ==>
      m[d] == |set s | s in Attendance.ActiveIds(lib) && lib.students[s].department == d| && m[d] >= 1
  {
    map d | d in (set s | s in Attendance.ActiveIds(lib) :: lib.students[s].department) ::
      DepartmentCount(lib, d)
  }

  function DepartmentCount(lib: Library, d: string): (n: nat)
    requires exists s :: s in Attendance.ActiveIds(lib) && lib.students[s].department == d
    ensures n == |set s | s in Attendance.ActiveIds(lib) && lib.students[s].department == d| && n >= 1
  {
    var members := set s | s in Attendance.ActiveIds(lib) && lib.students[s].department == d;
    var s :| s in Attendance.ActiveIds(lib) && lib.students[s].department == d;
    assert s in members;
    |members|
  }

  /** The issues that survive the JOINs with books and students. */
  function JoinedIds(lib: Library): (ids: set<IssueId>)
    ensures forall id :: id in ids <==> id in lib.issues && Lending.Joined(lib, lib.issues[id])
  {
    set id | id in lib.issues && Lending.Joined(lib, lib.issues[id])
  }

  /** The latest issues, returned or not, newest issue date first, at most
      `limit` of them. */
  function RecentIssues(lib: Library, limit: nat): (ids: seq<IssueId>)
    ensures |ids| <= limit
    ensures |ids| == limit || |ids| == |JoinedIds(lib)|
    ensures forall k :: 0 <= k < |ids| ==> ids[k] in JoinedIds(lib)
    ensures Sorting.Distinct(ids)
    ensures Sorting.SortedDescBy(ids, Lending.IssueDateOf(lib))
  {
    Sorting.TopBy(JoinedIds(lib), Lending.IssueDateOf(lib), limit)
  }

  /** No joined issue left off the recent list is newer than one on it. */
  lemma RecentIssuesAreLatest(lib: Library, limit: nat)
    ensures var r := RecentIssues(lib, limit);
      forall id, k :: id in JoinedIds(lib) && id !in r && 0 <= k < |r| ==>
        lib.issues[r[k]].issueDate >= lib.issues[id].issueDate
  {
    var sorted := Sorting.OrderBy(JoinedIds(lib), Lending.IssueDateOf(lib));
    var r := RecentIssues(lib, limit);
    forall id, k | id in JoinedIds(lib) && id !in r && 0 <= k < |r|
      ensures lib.issues[r[k]].issueDate >= lib.issues[id].issueDate
    {
      var j :| 0 <= j < |sorted| && sorted[j] == id;
      assert j >= |r|;
      Sorting.TakeKeepsTop(sorted, Lending.IssueDateOf(lib), limit, k, j);
    }
  }

  /** The overview lists the ten latest issues. */
  const RecentIssueLimit: nat := 10

  // ------------------------------------------------------------ books report

  /** Every issue ever made of book `b`, returned or not. */
  function IssuesOfBook(issues: map<IssueId, Issue>, b: BookId): (ids: set<IssueId>)
    ensures forall id :: id in ids <==> id in issues && issues[id].book == b
    ensures OpenLoans(issues, b) <= ids
  {
    set id | id in issues && issues[id].book == b
  }

  datatype BookReportRow = BookReportRow(id: BookId, book: Book, totalIssues: nat, currentIssues: nat)

  function BookRow(lib: Library, b: BookId): (row: BookReportRow)
    requires b in lib.books
    ensures row.id == b && row.book == lib.books[b]
    ensures row.totalIssues == |IssuesOfBook(lib.issues, b)| && row.currentIssues == |OpenLoans(lib.issues, b)|
    ensures row.currentIssues <= row.totalIssues
  {
    SubsetCard(OpenLoans(lib.issues, b), IssuesOfBook(lib.issues, b));
    BookReportRow(b, lib.books[b], |IssuesOfBook(lib.issues, b)|, |OpenLoans(lib.issues, b)|)
  }

  function TotalIssuesOf(lib: Library): int -> int
  {
    b => |IssuesOfBook(lib.issues, b)|
  }

  function BookRows(lib: Library, ids: seq<BookId>): (rows: seq<BookReportRow>)
    requires forall k :: 0 <= k < |ids| ==> ids[k] in lib.books
    ensures |rows| == |ids|
    ensures forall k :: 0 <= k < |ids| ==> rows[k] == BookRow(lib, ids[k])
    decreases |ids|
  {
    if ids == [] then [] else [BookRow(lib, ids[0])] + BookRows(lib, ids[1..])
  }

  /** One row per book, most issued first; a book's current issues are
      among its issues. */
  function BooksReportRows(lib: Library): (rows: seq<BookReportRow>)
    ensures |rows| == |lib.books|
    ensures forall k :: 0 <= k < |rows| ==> rows[k].id in lib.books && rows[k] == BookRow(lib, rows[k].id)
    ensures forall b :: b in lib.books ==> exists k :: 0 <= k < |rows| && rows[k].id == b
    ensures forall j, k :: 0 <= j < k < |rows| ==> rows[j].id != rows[k].id && rows[j].totalIssues >= rows[k].totalIssues
  {
    BooksReportShape(lib);
    BookRows(lib, BooksByIssues(lib))
  }

  /** The books, most issued first. */
  function BooksByIssues(lib: Library): seq<BookId>
  {
    Sorting.OrderBy(lib.books.Keys, TotalIssuesOf(lib))
  }

  lemma BooksReportShape(lib: Library)
    ensures forall k :: 0 <= k < |BooksByIssues(lib)| ==> BooksByIssues(lib)[k] in lib.books
    ensures IsBooksReport(lib, BookRows(lib, BooksByIssues(lib)))
  {
    BookRowsFollowOrder(lib, BooksByIssues(lib));
  }

  /** The books report's shape: every book once, most issued first. */
  predicate IsBooksReport(lib: Library, rows: seq<BookReportRow>)
  {
    && |rows| == |lib.books|
    && (forall k :: 0 <= k < |rows| ==> rows[k].id in lib.books && rows[k] == BookRow(lib, rows[k].id))
    && (forall b :: b in lib.books ==> exists k :: 0 <= k < |rows| && rows[k].id == b)
    && (forall j, k :: 0 <= j < k < |rows| ==> rows[j].id != rows[k].id && rows[j].totalIssues >= rows[k].totalIssues)
  }

  lemma BookRowsFollowOrder(lib: Library, ids: seq<BookId>)
    requires forall b :: b in ids <==> b in lib.books
    requires |ids| == |lib.books.Keys|
    requires Sorting.Distinct(ids) && Sorting.SortedDescBy(ids, TotalIssuesOf(lib))
    ensures forall k :: 0 <= k < |ids| ==> ids[k] in lib.books
    ensures IsBooksReport(lib, BookRows(lib, ids))
  {
    assert forall k :: 0 <= k < |ids| ==> ids[k] in lib.books;
    assert |lib.books.Keys| == |lib.books|;
    BookRowsIds(lib, ids);
    BookRowsCover(lib, ids, BookRows(lib, ids));
    BookRowsSorted(lib, ids);
  }

  lemma BookRowsIds(lib: Library, ids: seq<BookId>)
    requires forall k :: 0 <= k < |ids| ==> ids[k] in lib.books
    ensures var rows := BookRows(lib, ids);
      forall k :: 0 <= k < |rows| ==> rows[k].id == ids[k] && rows[k].id in lib.books && rows[k] == BookRow(lib, rows[k].id)
  {
  }

  lemma BookRowsCover(lib: Library, ids: seq<BookId>, rows: seq<BookReportRow>)
    requires forall b :: b in ids <==> b in lib.books
    requires forall k :: 0 <= k < |ids| ==> ids[k] in lib.books
    requires rows == BookRows(lib, ids)
    ensures forall b :: b in lib.books ==> exists k :: 0 <= k < |rows| && rows[k].id == b
  {
    forall b | b in lib.books ensures exists k :: 0 <= k < |rows| && rows[k].id == b {
      var k :| 0 <= k < |ids| && ids[k] == b;
      assert rows[k].id == b;
    }
  }

  lemma BookRowsSorted(lib: Library, ids: seq<BookId>)
    requires forall k :: 0 <= k < |ids| ==> ids[k] in lib.books
    requires Sorting.Distinct(ids) && Sorting.SortedDescBy(ids, TotalIssuesOf(lib))
    ensures var rows := BookRows(lib, ids);
      forall j, k :: 0 <= j < k < |rows| ==> rows[j].id != rows[k].id && rows[j].totalIssues >= rows[k].totalIssues
  {
    var rows := BookRows(lib, ids);
    forall j, k | 0 <= j < k < |rows|
      ensures rows[j].id != rows[k].id && rows[j].totalIssues >= rows[k].totalIssues
    {
      assert TotalIssuesOf(lib)(ids[j]) >= TotalIssuesOf(lib)(ids[k]);
    }
  }

  /** In a consistent ledger the report's current issues are the copies
      missing from the shelf. */
  lemma BookReportMatchesShelf(lib: Library, b: BookId)
    requires Valid(lib) && b in lib.books
    ensures BookRow(lib, b).currentIssues == lib.books[b].totalCopies - lib.books[b].availableCopies
  {
  }

  // --------------------------------------------------------- students report

  datatype StudentReportRow = StudentReportRow(
    totalBooksIssued: nat, currentBooks: nat, presentDays: nat, absentDays: nat)

  function IssuesOfStudent(issues: map<IssueId, Issue>, s: StudentId): (ids: set<IssueId>)
    ensures forall id :: id in ids <==> id in issues && issues[id].student == s
  {
    set id | id in issues && issues[id].student == s
  }

  function OpenIssuesOfStudent(issues: map<IssueId, Issue>, s: StudentId): (ids: set<IssueId>)
    ensures ids <= IssuesOfStudent(issues, s)
    ensures forall id :: id in ids <==> id in issues && issues[id].student == s && issues[id].status == Issued
  {
    set id | id in issues && issues[id].student == s && issues[id].status == Issued
  }

  /** A student's attendance records with the given status, over all dates. */
  function DaysWithStatus(att: map<(StudentId, Day), AttendanceRecord>, s: StudentId, status: string): (ks: set<(StudentId, Day)>)
    ensures forall k :: k in ks <==> k in att && k.0 == s && att[k].status == status
  {
    set k | k in att && k.0 == s && att[k].status == status
  }

  function StudentRow(lib: Library, s: StudentId): (row: StudentReportRow)
    ensures row.totalBooksIssued == |IssuesOfStudent(lib.issues, s)|
    ensures row.currentBooks == |OpenIssuesOfStudent(lib.issues, s)|
    ensures row.currentBooks <= row.totalBooksIssued
    ensures row.presentDays == |DaysWithStatus(lib.attendance, s, Attendance.Present)|
    ensures row.absentDays == |DaysWithStatus(lib.attendance, s, Attendance.Absent)|
  {
    SubsetCard(OpenIssuesOfStudent(lib.issues, s), IssuesOfStudent(lib.issues, s));
    StudentReportRow(|IssuesOfStudent(lib.issues, s)|, |OpenIssuesOfStudent(lib.issues, s)|,
                     |DaysWithStatus(lib.attendance, s, Attendance.Present)|,
                     |DaysWithStatus(lib.attendance, s, Attendance.Absent)|)
  }

  /** One row per active student. */
  function StudentsReport(lib: Library): (m: map<StudentId, StudentReportRow>)
    ensures m.Keys == Attendance.ActiveIds(lib)
    ensures forall s :: s in m ==> m[s] == StudentRow(lib, s)
  {
    map s | s in Attendance.ActiveIds(lib) :: StudentRow(lib, s)
  }

  // ------------------------------------------------------ attendance report

  datatype AttendanceReportRow = AttendanceReportRow(present: nat, absent: nat, late: nat, totalDays: nat)

  /** A student's records dated within [start, end]. */
  function RecordsInRange(att: map<(StudentId, Day), AttendanceRecord>, s: StudentId, start: Day, end: Day): (ks: set<(StudentId, Day)>)
    ensures forall k :: k in ks <==> k in att && k.0 == s && start <= k.1 <= end
  {
    set k | k in att && k.0 == s && start <= k.1 <= end
  }

  function InRangeWithStatus(att: map<(StudentId, Day), AttendanceRecord>, s: StudentId, start: Day, end: Day, status: string): (ks: set<(StudentId, Day)>)
    ensures ks <= RecordsInRange(att, s, start, end)
    ensures forall k :: k in ks <==> k in att && k.0 == s && start <= k.1 <= end && att[k].status == status
  {
    set k | k in att && k.0 == s && start <= k.1 <= end && att[k].status == status
  }

  /** The LEFT JOIN ... GROUP BY row of one active student. COUNT(*) counts
      the NULL row a student without records gets, so total_days is never 0:
      it is the number of records in range, or 1 when there are none. */
  function AttendanceRow(att: map<(StudentId, Day), AttendanceRecord>, s: StudentId, start: Day, end: Day): (row: AttendanceReportRow)
    ensures row.present == |InRangeWithStatus(att, s, start, end, Attendance.Present)|
    ensures row.absent == |InRangeWithStatus(att, s, start, end, Attendance.Absent)|
    ensures row.late == |InRangeWithStatus(att, s, start, end, Attendance.Late)|
    ensures row.totalDays >= 1
    ensures row.totalDays == if RecordsInRange(att, s, start, end) == {} then 1 else |RecordsInRange(att, s, start, end)|
    ensures row.present + row.absent + row.late <= row.totalDays
  {
    var all := RecordsInRange(att, s, start, end);
    var p := InRangeWithStatus(att, s, start, end, Attendance.Present);
    var a := InRangeWithStatus(att, s, start, end, Attendance.Absent);
    var l := InRangeWithStatus(att, s, start, end, Attendance.Late);
    assert p * a == {} && (p + a) * l == {};
    assert |p + a| == |p| + |a|;
    assert |p + a + l| == |p + a| + |l|;
    SubsetCard(p + a + l, all);
    AttendanceReportRow(|p|, |a|, |l|, if all == {} then 1 else |all|)
  }

  /** round(present / total_days * 100, 2), in hundredths of a percent,
      rounding halves up. */
  function PercentHundredths(present: nat, totalDays: nat): (h: nat)
    requires totalDays >= 1
    ensures h * 2 * totalDays <= 20000 * present + totalDays < (h + 1) * 2 * totalDays
  {
    (20000 * present + totalDays) / (2 * totalDays)
  }

  /** The badge is green when the rounded percentage reaches 75.00. */
  predicate BadgeSuccess(row: AttendanceReportRow)
    requires row.totalDays >= 1
  {
    PercentHundredths(row.present, row.totalDays) >= 7500
  }

  /** The green badge, exactly: the unrounded share is at least 74.995%. */
  lemma BadgeSuccessIff(row: AttendanceReportRow)
    requires row.totalDays >= 1
    ensures BadgeSuccess(row) <==> 20000 * row.present >= 14999 * row.totalDays
  {
    var t := row.totalDays;
    var h := PercentHundredths(row.present, t);
    if h >= 7500 {
      MulMono(7500, h, 2 * t);
    } else {
      MulMono(h + 1, 7500, 2 * t);
    }
  }

  lemma MulMono(a: int, b: int, c: nat)
    requires a <= b
    ensures a * c <= b * c
  {
  }

  /** A student with no records in range shows one day and 0%, red. */
  lemma NoRecordsShowsZero(att: map<(StudentId, Day), AttendanceRecord>, s: StudentId, start: Day, end: Day)
    requires forall d :: (s, d) in att ==> d < start || d > end
    ensures var row := AttendanceRow(att, s, start, end);
      row.totalDays == 1 && row.present == 0 && PercentHundredths(row.present, row.totalDays) == 0 && !BadgeSuccess(row)
  {
    var all := RecordsInRange(att, s, start, end);
    if all != {} {
      var k := Pick(all);
      assert false;
    }
  }

  /** One row per active student. */
  function AttendanceReport(lib: Library, start: Day, end: Day): (m: map<StudentId, AttendanceReportRow>)
    ensures m.Keys == Attendance.ActiveIds(lib)
    ensures forall s :: s in m ==> m[s] == AttendanceRow(lib.attendance, s, start, end)
  {
    map s | s in Attendance.ActiveIds(lib) :: AttendanceRow(lib.attendance, s, start, end)
  }

  // --------------------------------------------------------- overdue report

  /** The overdue issues that survive the JOINs. */
  function OverdueJoined(lib: Library, today: Day): (ids: set<IssueId>)
    ensures ids <= OverdueIds(lib, today)
    ensures forall id :: id in ids <==> id in OverdueIds(lib, today) && Lending.Joined(lib, lib.issues[id])
  {
    set id | id in OverdueIds(lib, today) && Lending.Joined(lib, lib.issues[id])
  }

  datatype OverdueRow = OverdueRow(id: IssueId, issue: Issue, daysOverdue: int, fine: int)

  function DaysOverdueOf(lib: Library, today: Day): int -> int
  {
    id => if id in lib.issues then today - lib.issues[id].dueDate else 0
  }

  function OverdueRowFor(lib: Library, id: IssueId, today: Day): (row: OverdueRow)
    requires id in lib.issues
    ensures row.id == id && row.issue == lib.issues[id]
    ensures row.daysOverdue == today - row.issue.dueDate
    ensures row.fine == row.daysOverdue * FinePerDay
  {
    var days := today - lib.issues[id].dueDate;
    OverdueRow(id, lib.issues[id], days, days * FinePerDay)
  }

  function OverdueRows(lib: Library, ids: seq<IssueId>, today: Day): (rows: seq<OverdueRow>)
    requires forall k :: 0 <= k < |ids| ==> ids[k] in lib.issues
    ensures |rows| == |ids|
    ensures forall k :: 0 <= k < |ids| ==> rows[k] == OverdueRowFor(lib, ids[k], today)
    decreases |ids|
  {
    if ids == [] then [] else [OverdueRowFor(lib, ids[0], today)] + OverdueRows(lib, ids[1..], today)
  }

  /** The overdue report: exactly the joined issues still out past their due
      date, most overdue first. Its fine column is what the return handler
      would charge today. */
  function OverdueReport(lib: Library, today: Day): (rows: seq<OverdueRow>)
    ensures |rows| == |OverdueJoined(lib, today)|
    ensures forall k :: 0 <= k < |rows| ==>
      && rows[k].id in OverdueJoined(lib, today)
      && rows[k].issue == lib.issues[rows[k].id]
      && rows[k].daysOverdue > 0
      && rows[k].fine == CalculateFine(rows[k].issue.dueDate, today)
    ensures forall id :: id in OverdueJoined(lib, today) ==> exists k :: 0 <= k < |rows| && rows[k].id == id
    ensures forall j, k :: 0 <= j < k < |rows| ==> rows[j].id != rows[k].id && rows[j].daysOverdue >= rows[k].daysOverdue
  {
    var ids := Sorting.OrderBy(OverdueJoined(lib, today), DaysOverdueOf(lib, today));
    OverdueRowsFollowOrder(lib, ids, today);
    OverdueRows(lib, ids, today)
  }

  lemma OverdueRowsFollowOrder(lib: Library, ids: seq<IssueId>, today: Day)
    requires forall id :: id in ids <==> id in OverdueJoined(lib, today)
    requires |ids| == |OverdueJoined(lib, today)|
    requires Sorting.Distinct(ids) && Sorting.SortedDescBy(ids, DaysOverdueOf(lib, today))
    ensures forall k :: 0 <= k < |ids| ==> ids[k] in lib.issues
    ensures var rows := OverdueRows(lib, ids, today);
      && |rows| == |OverdueJoined(lib, today)|
      && (forall k :: 0 <= k < |rows| ==>
            && rows[k].id in OverdueJoined(lib, today)
            && rows[k].issue == lib.issues[rows[k].id]
            && rows[k].daysOverdue > 0
            && rows[k].fine == CalculateFine(rows[k].issue.dueDate, today))
      && (forall id :: id in OverdueJoined(lib, today) ==> exists k :: 0 <= k < |rows| && rows[k].id == id)
      && (forall j, k :: 0 <= j < k < |rows| ==> rows[j].id != rows[k].id && rows[j].daysOverdue >= rows[k].daysOverdue)
  {
    assert forall k :: 0 <= k < |ids| ==> ids[k] in OverdueJoined(lib, today);
    OverdueRowsContent(lib, ids, today);
    OverdueRowsCover(lib, ids, today, OverdueRows(lib, ids, today));
    OverdueRowsOrdered(lib, ids, today);
  }

  lemma OverdueRowsContent(lib: Library, ids: seq<IssueId>, today: Day)
    requires forall k :: 0 <= k < |ids| ==> ids[k] in OverdueJoined(lib, today)
    ensures forall k :: 0 <= k < |ids| ==> ids[k] in lib.issues
    ensures var rows := OverdueRows(lib, ids, today);
      forall k :: 0 <= k < |rows| ==>
        && rows[k].id == ids[k]
        && rows[k].issue == lib.issues[rows[k].id]
        && rows[k].daysOverdue > 0
        && rows[k].fine == CalculateFine(rows[k].issue.dueDate, today)
  {
    var rows := OverdueRows(lib, ids, today);
    forall k | 0 <= k < |rows|
      ensures rows[k].id == ids[k] && rows[k].daysOverdue > 0
      ensures rows[k].fine == CalculateFine(rows[k].issue.dueDate, today)
    {
      assert ids[k] in OverdueIds(lib, today);
    }
  }

  lemma OverdueRowsCover(lib: Library, ids: seq<IssueId>, today: Day, rows: seq<OverdueRow>)
    requires forall k :: 0 <= k < |ids| ==> ids[k] in lib.issues
    requires forall id :: id in OverdueJoined(lib, today) ==> id in ids
    requires rows == OverdueRows(lib, ids, today)
    ensures forall id :: id in OverdueJoined(lib, today) ==> exists k :: 0 <= k < |rows| && rows[k].id == id
  {
    forall id | id in OverdueJoined(lib, today) ensures exists k :: 0 <= k < |rows| && rows[k].id == id {
      var k :| 0 <= k < |ids| && ids[k] == id;
      assert rows[k].id == id;
    }
  }

  lemma OverdueRowsOrdered(lib: Library, ids: seq<IssueId>, today: Day)
    requires forall k :: 0 <= k < |ids| ==> ids[k] in lib.issues
    requires Sorting.Distinct(ids) && Sorting.SortedDescBy(ids, DaysOverdueOf(lib, today))
    ensures var rows := OverdueRows(lib, ids, today);
      forall j, k :: 0 <= j < k < |rows| ==> rows[j].id != rows[k].id && rows[j].daysOverdue >= rows[k].daysOverdue
  {
    var rows := OverdueRows(lib, ids, today);
    forall j, k | 0 <= j < k < |rows|
      ensures rows[j].id != rows[k].id && rows[j].daysOverdue >= rows[k].daysOverdue
    {
      assert DaysOverdueOf(lib, today)(ids[j]) >= DaysOverdueOf(lib, today)(ids[k]);
    }
  }

  /** The report lists no more issues than the overview counts as overdue,
      and fewer exactly when some overdue issue lost its book or student. */
  lemma OverdueReportWithinCount(lib: Library, today: Day)
    ensures |OverdueReport(lib, today)| <= OverviewCounts(lib, today).overdueBooks
    ensures |OverdueReport(lib, today)| == OverviewCounts(lib, today).overdueBooks <==>
      forall id :: id in OverdueIds(lib, today) ==> Lending.Joined(lib, lib.issues[id])
  {
    SubsetCard(OverdueJoined(lib, today), OverdueIds(lib, today));
    if forall id :: id in OverdueIds(lib, today) ==> Lending.Joined(lib, lib.issues[id]) {
      assert OverdueJoined(lib, today) == OverdueIds(lib, today);
    } else {
      var id :| id in OverdueIds(lib, today) && !Lending.Joined(lib, lib.issues[id]);
      ProperSubsetCard(OverdueJoined(lib, today), OverdueIds(lib, today), id);
    }
  }

  lemma ProperSubsetCard(a: set<IssueId>, b: set<IssueId>, x: IssueId)
    requires a <= b && x in b && x !in a
    ensures |a| < |b|
  {
    SubsetCard(a, b - {x});
  }
}

=== FILE: sanitize.dfy ===
/**
 * `sanitizeInput` (includes/config.php): trim, then stripslashes, then
 * htmlspecialchars. Every text field a handler stores, and every search term
 * it matches, passes through it. Each stage is modelled as its own function,
 * each characterised independently: trim by what it removes, stripslashes as
 * the inverse of addslashes (which the views use when they embed titles in
 * JavaScript), and htmlspecialchars by the entity decoding that inverts it.
 */
module Sanitize {

  // ---------------------------------------------------------------- trim

  /** The characters PHP's trim() strips by default: " \t\n\r\0\x0B". */
  predicate IsTrimChar(c: char)
  {
    c == ' ' || c == '\t' || c == '\n' || c == '\r' || c == '\0' || c == '\U{000B}'
  }

  /** Drops leading trim characters: the result is a suffix of `s` and what
      was dropped is all whitespace. */
  function TrimStart(s: string): (r: string)
    ensures |r| <= |s| && r == s[|s| - |r|..]
    ensures |r| > 0 ==> !IsTrimChar(r[0])
    ensures forall i :: 0 <= i < |s| - |r| ==> IsTrimChar(s[i])
    decreases |s|
  {
    if |s| > 0 && IsTrimChar(s[0]) then TrimStart(s[1..]) else s
  }

  /** Drops trailing trim characters: the result is a prefix of `s` and what
      was dropped is all whitespace. */
  function TrimEnd(s: string): (r: string)
    ensures |r| <= |s| && r == s[..|r|]
    ensures |r| > 0 ==> !IsTrimChar(r[|r| - 1])
    ensures forall i :: |r| <= i < |s| ==> IsTrimChar(s[i])
    decreases |s|
  {
    if |s| > 0 && IsTrimChar(s[|s| - 1]) then TrimEnd(s[..|s| - 1]) else s
  }

  /** PHP trim(): the result is the slice of `s` left after removing a
      whitespace-only prefix and suffix, and it neither starts nor ends with
      whitespace, so it is the longest such slice. */
  function PhpTrim(s: string): (r: string)
    ensures exists lo, hi ::
              && 0 <= lo <= hi <= |s| && r == s[lo..hi]
              && (forall i :: 0 <= i < lo ==> IsTrimChar(s[i]))
              && (forall i :: hi <= i < |s| ==> IsTrimChar(s[i]))
    ensures |r| > 0 ==> !IsTrimChar(r[0]) && !IsTrimChar(r[|r| - 1])
  {
    var t := TrimStart(s);
    var r := TrimEnd(t);
    var lo := |s| - |t|;
    assert r == s[lo..lo + |r|];
    r
  }

  // ------------------------------------------------- addslashes / stripslashes

  /** PHP addslashes() for one character: a backslash before ' " \ and NUL
      (NUL is written as the two characters \0). */
  function SlashChar(c: char): string
  {
    if c == '\'' || c == '"' || c == '\\' then ['\\', c]
    else if c == '\0' then ['\\', '0']
    else [c]
  }

  /** PHP addslashes(). */
  function AddSlashes(s: string): (r: string)
    ensures |s| <= |r| <= 2 * |s|
    decreases |s|
  {
    if |s| == 0 then [] else SlashChar(s[0]) + AddSlashes(s[1..])
  }

  /** PHP stripslashes(): a backslash is dropped and the character after it
      kept literally, except that \0 becomes NUL; a lone trailing backslash
      disappears. */
  function StripSlashes(s: string): (r: string)
    ensures |r| <= |s|
    decreases |s|
  {
    if |s| == 0 then []
    else if s[0] == '\\' then
      if |s| == 1 then []
      else (if s[1] == '0' then ['\0'] else [s[1]]) + StripSlashes(s[2..])
    else [s[0]] + StripSlashes(s[1..])
  }

  /** stripslashes undoes addslashes. */
  lemma {:induction false} StripAddSlashes(s: string)
    ensures StripSlashes(AddSlashes(s)) == s
    decreases |s|
  {
    if |s| > 0 {
      var rest := AddSlashes(s[1..]);
      var a := AddSlashes(s);
      assert a == SlashChar(s[0]) + rest;
      StripAddSlashes(s[1..]);
      if |SlashChar(s[0])| == 2 {
        assert a[2..] == rest;
      } else {
        assert a[1..] == rest;
      }
      assert s == [s[0]] + s[1..];
    }
  }

  /** Text without backslashes passes through stripslashes unchanged. */
  lemma {:induction false} StripSlashesNoBackslash(s: string)
    requires forall i :: 0 <= i < |s| ==> s[i] != '\\'
    ensures StripSlashes(s) == s
    decreases |s|
  {
    if |s| > 0 {
      StripSlashesNoBackslash(s[1..]);
      assert s == [s[0]] + s[1..];
    }
  }

  // ---------------------------------------------------------- htmlspecialchars

  /** The characters htmlspecialchars() rewrites (default flags since PHP 8.1:
      ENT_QUOTES, so the single quote as well). */
  predicate IsMarkupChar(c: char)
  {
    c == '&' || c == '"' || c == '\'' || c == '<' || c == '>'
  }

  function EscapeChar(c: char): (r: string)
    ensures |r| >= 1
    ensures forall i :: 0 <= i < |r| ==> r[i] != '<' && r[i] != '>' && r[i] != '"' && r[i] != '\''
    ensures IsMarkupChar(c) <==> r != [c]
  {
    if c == '&' then "&amp;"
    else if c == '"' then "&quot;"
    else if c == '\'' then "&#039;"
    else if c == '<' then "&lt;"
    else if c == '>' then "&gt;"
    else [c]
  }

  /** PHP htmlspecialchars() with double_encode on: no raw < > " or ' survives. */
  function HtmlEscape(s: string): (r: string)
    ensures |r| >= |s|
    ensures forall i :: 0 <= i < |r| ==> r[i] != '<' && r[i] != '>' && r[i] != '"' && r[i] != '\''
    decreases |s|
  {
    if |s| == 0 then [] else EscapeChar(s[0]) + HtmlEscape(s[1..])
  }

  predicate StartsWith(s: string, prefix: string)
  {
    |prefix| <= |s| && s[..|prefix|] == prefix
  }

  /** Decodes the five entities htmlspecialchars() produces; every other
      character is copied. */
  function HtmlUnescape(s: string): string
    decreases |s|
  {
    if |s| == 0 then []
    else if s[0] != '&' then [s[0]] + HtmlUnescape(s[1..])
    else if StartsWith(s, "&amp;") then "&" + HtmlUnescape(s[5..])
    else if StartsWith(s, "&quot;") then "\"" + HtmlUnescape(s[6..])
    else if StartsWith(s, "&#039;") then "'" + HtmlUnescape(s[6..])
    else if StartsWith(s, "&lt;") then "<" + HtmlUnescape(s[4..])
    else if StartsWith(s, "&gt;") then ">" + HtmlUnescape(s[4..])
    else [s[0]] + HtmlUnescape(s[1..])
  }

  /** Decoding the escape of one character, followed by anything, yields
      that character followed by the decoding of the rest. */
  lemma UnescapeEscapeChar(c: char, rest: string)
    ensures HtmlUnescape(EscapeChar(c) + rest) == [c] + HtmlUnescape(rest)
  {
    var t := EscapeChar(c) + rest;
    if c == '&' {
      assert StartsWith(t, "&amp;") && t[5..] == rest;
    } else if c == '"' {
      assert !StartsWith(t, "&amp;") by { assert t[1] != "&amp;"[1]; }
      assert StartsWith(t, "&quot;") && t[6..] == rest;
    } else if c == '\'' {
      assert !StartsWith(t, "&amp;") by { assert t[1] != "&amp;"[1]; }
      assert !StartsWith(t, "&quot;") by { assert t[1] != "&quot;"[1]; }
      assert StartsWith(t, "&#039;") && t[6..] == rest;
    } else if c == '<' {
      assert !StartsWith(t, "&amp;") by { assert t[1] != "&amp;"[1]; }
      assert !StartsWith(t, "&quot;") by { assert t[1] != "&quot;"[1]; }
      assert !StartsWith(t, "&#039;") by { assert t[1] != "&#039;"[1]; }
      assert StartsWith(t, "&lt;") && t[4..] == rest;
    } else if c == '>' {
      assert !StartsWith(t, "&amp;") by { assert t[1] != "&amp;"[1]; }
      assert !StartsWith(t, "&quot;") by { assert t[1] != "&quot;"[1]; }
      assert !StartsWith(t, "&#039;") by { assert t[1] != "&#039;"[1]; }
      assert !StartsWith(t, "&lt;") by { assert t[1] != "&lt;"[1]; }
      assert StartsWith(t, "&gt;") && t[4..] == rest;
    } else {
      assert t[0] == c && t[1..] == rest;
    }
  }

  /** htmlspecialchars loses nothing: decoding its output gives the input. */
  lemma {:induction false} UnescapeEscape(s: string)
    ensures HtmlUnescape(HtmlEscape(s)) == s
    decreases |s|
  {
    if |s| > 0 {
      assert HtmlEscape(s) == EscapeChar(s[0]) + HtmlEscape(s[1..]);
      UnescapeEscapeChar(s[0], HtmlEscape(s[1..]));
      UnescapeEscape(s[1..]);
      assert s == [s[0]] + s[1..];
    }
  }

  /** Text without markup characters passes through htmlspecialchars unchanged. */
  lemma {:induction false} HtmlEscapePlain(s: string)
    requires forall i :: 0 <= i < |s| ==> !IsMarkupChar(s[i])
    ensures HtmlEscape(s) == s
    decreases |s|
  {
    if |s| > 0 {
      HtmlEscapePlain(s[1..]);
      assert s == [s[0]] + s[1..];
    }
  }

  // ------------------------------------------------------------ sanitizeInput

  /** sanitizeInput(): the stored text never contains a raw < > " or '. */
  function SanitizeInput(s: string): (r: string)
    ensures forall i :: 0 <= i < |r| ==> r[i] != '<' && r[i] != '>' && r[i] != '"' && r[i] != '\''
  {
    HtmlEscape(StripSlashes(PhpTrim(s)))
  }

  /** sanitizeInput is not idempotent: an ampersand is escaped again on every
      pass, so a value that goes through it twice is double-encoded ("&x"
      is stored as "&amp;x", and sanitizing that gives "&amp;amp;x"). */
  lemma SanitizeNotIdempotent(tail: string)
    requires |tail| > 0 ==> !IsTrimChar(tail[|tail| - 1])
    requires forall i :: 0 <= i < |tail| ==> tail[i] != '\\' && !IsMarkupChar(tail[i])
    ensures SanitizeInput("&" + tail) == "&amp;" + tail
    ensures SanitizeInput(SanitizeInput("&" + tail)) == "&amp;amp;" + tail
  {
    EntityConcat(tail);
    SanitizeAmpersandPrefixed(tail);
    EntityTailPlain(tail);
    SanitizeAmpersandPrefixed("amp;" + tail);
  }

  lemma EntityConcat(tail: string)
    ensures "&amp;" + tail == "&" + ("amp;" + tail)
    ensures "&amp;" + ("amp;" + tail) == "&amp;amp;" + tail
  {
  }

  /** The rest of an escaped ampersand, followed by plain text, is plain. */
  lemma EntityTailPlain(tail: string)
    requires |tail| > 0 ==> !IsTrimChar(tail[|tail| - 1])
    requires forall i :: 0 <= i < |tail| ==> tail[i] != '\\' && !IsMarkupChar(tail[i])
    ensures var t2 := "amp;" + tail;
      && !IsTrimChar(t2[|t2| - 1])
      && forall i :: 0 <= i < |t2| ==> t2[i] != '\\' && !IsMarkupChar(t2[i])
  {
    var amp := "amp;";
    var t2 := amp + tail;
    forall i | 0 <= i < |t2|
      ensures t2[i] != '\\' && !IsMarkupChar(t2[i])
    {
      if i < |amp| {
        assert t2[i] == amp[i] && amp[i] in "amp;";
      } else {
        assert t2[i] == tail[i - |amp|];
      }
    }
    if tail == [] {
      assert t2[|t2| - 1] == ';';
    } else {
      assert t2[|t2| - 1] == tail[|tail| - 1];
    }
  }

  /** An ampersand followed by plain text is stored with the ampersand escaped. */
  lemma SanitizeAmpersandPrefixed(tail: string)
    requires |tail| > 0 ==> !IsTrimChar(tail[|tail| - 1])
    requires forall i :: 0 <= i < |tail| ==> tail[i] != '\\' && !IsMarkupChar(tail[i])
    ensures SanitizeInput("&" + tail) == "&amp;" + tail
  {
    var s := "&" + tail;
    assert s[1..] == tail;
    assert forall i :: 0 <= i < |s| ==> s[i] != '\\';
    SanitizeTrimmedNoSlash(s);
    assert HtmlEscape(s) == EscapeChar('&') + HtmlEscape(tail);
    HtmlEscapePlain(tail);
  }

  /** Text with no whitespace at either end and no backslash reaches
      htmlspecialchars unchanged. */
  lemma SanitizeTrimmedNoSlash(s: string)
    requires |s| > 0 ==> !IsTrimChar(s[0]) && !IsTrimChar(s[|s| - 1])
    requires forall i :: 0 <= i < |s| ==> s[i] != '\\'
    ensures SanitizeInput(s) == HtmlEscape(s)
  {
    assert TrimStart(s) == s;
    assert TrimEnd(s) == s;
    StripSlashesNoBackslash(s);
  }

  /** Text that has no whitespace at either end, no backslash and no markup
      character is stored exactly as typed. */
  lemma SanitizePlain(s: string)
    requires |s| > 0 ==> !IsTrimChar(s[0]) && !IsTrimChar(s[|s| - 1])
    requires forall i :: 0 <= i < |s| ==> s[i] != '\\' && !IsMarkupChar(s[i])
    ensures SanitizeInput(s) == s
  {
    SanitizeTrimmedNoSlash(s);
    HtmlEscapePlain(s);
  }
}

=== FILE: sorting.dfy ===
/**
 * The ORDER BY and LIMIT clauses of the listing queries. A listing is a
 * sequence of primary keys; ORDER BY <column> sorts it by an integer key
 * read from the row;
 * LIMIT n keeps a prefix. SQL leaves the order of ties unspecified, so the
 * contracts below say only that the result is ordered and is a permutation of
 * its input.
 */
module Sorting {
  import opened Base

  lemma MaxExists(s: set<int>)
    requires s != {}
    ensures exists m :: m in s && forall x :: x in s ==> x <= m
  {
    var x := Pick(s);
    var rest := s - {x};
    if rest == {} {
      forall y | y in s ensures y <= x { assert y == x || y in rest; }
    } else {
      MaxExists(rest);
      var m :| m in rest && forall y :: y in rest ==> y <= m;
      var top := if x > m then x else m;
      forall y | y in s ensures y <= top { if y != x { assert y in rest; } }
    }
  }

  /** The largest key of a non-empty table. */
  function MaxOf(s: set<int>): (m: int)
    requires s != {}
    ensures m in s && forall x :: x in s ==> x <= m
  {
    MaxExists(s);
    var m :| m in s && forall x :: x in s ==> x <= m; m
  }

  /** `ORDER BY id DESC` over a set of keys: every key exactly once, strictly
      decreasing. */
  function KeysDescending(s: set<int>): (r: seq<int>)
    ensures |r| == |s|
    ensures forall i :: 0 <= i < |r| ==> r[i] in s
    ensures forall x :: x in s ==> x in r
    ensures forall i, j :: 0 <= i < j < |r| ==> r[i] > r[j]
    decreases |s|
  {
    if s == {} then []
    else
      var m := MaxOf(s);
      var rest := KeysDescending(s - {m});
      MaxThenRest(s, m, rest);
      [m] + rest
  }

  /** Putting the largest key in front of the rest in descending order
      gives all keys in descending order. */
  lemma MaxThenRest(s: set<int>, m: int, rest: seq<int>)
    requires m in s && forall x :: x in s ==> x <= m
    requires |rest| == |s - {m}|
    requires forall i :: 0 <= i < |rest| ==> rest[i] in s - {m}
    requires forall x :: x in s - {m} ==> x in rest
    requires forall i, j :: 0 <= i < j < |rest| ==> rest[i] > rest[j]
    ensures var r := [m] + rest;
      && |r| == |s|
      && (forall i :: 0 <= i < |r| ==> r[i] in s)
      && (forall x :: x in s ==> x in r)
      && (forall i, j :: 0 <= i < j < |r| ==> r[i] > r[j])
  {
    var r := [m] + rest;
    assert |s - {m}| == |s| - 1;
    forall i | 0 <= i < |r| ensures r[i] in s && (i > 0 ==> r[i] < m) {
      if i > 0 {
        assert r[i] == rest[i - 1];
      }
    }
    forall x | x in s ensures x in r {
      if x != m {
        assert x in rest;
      }
    }
  }

  predicate SortedDescBy(xs: seq<int>, key: int -> int)
  {
    forall i, j :: 0 <= i < j < |xs| ==> key(xs[i]) >= key(xs[j])
  }

  /** Inserts `x` before the first element whose key is smaller. */
  function InsertDescBy(x: int, xs: seq<int>, key: int -> int): (r: seq<int>)
    requires SortedDescBy(xs, key)
    ensures SortedDescBy(r, key)
    ensures multiset(r) == multiset(xs) + multiset{x}
    ensures forall k :: 0 <= k < |r| ==> r[k] == x || r[k] in xs
    decreases |xs|
  {
    if |xs| == 0 then [x]
    else if key(x) >= key(xs[0]) then [x] + xs
    else
      var tail := InsertDescBy(x, xs[1..], key);
      HeadThenInserted(x, xs, tail, key);
      [xs[0]] + tail
  }

  /** The head of a sorted list, followed by `x` inserted into its tail, is
      `x` inserted into the whole list when `x` ranks below the head. */
  lemma HeadThenInserted(x: int, xs: seq<int>, tail: seq<int>, key: int -> int)
    requires |xs| > 0 && SortedDescBy(xs, key) && key(x) < key(xs[0])
    requires SortedDescBy(tail, key) && multiset(tail) == multiset(xs[1..]) + multiset{x}
    requires forall k :: 0 <= k < |tail| ==> tail[k] == x || tail[k] in xs[1..]
    ensures SortedDescBy([xs[0]] + tail, key)
    ensures multiset([xs[0]] + tail) == multiset(xs) + multiset{x}
    ensures forall k :: 0 <= k < |tail| + 1 ==> ([xs[0]] + tail)[k] == x || ([xs[0]] + tail)[k] in xs
  {
    assert xs == [xs[0]] + xs[1..];
    forall k | 0 <= k < |tail| ensures key(xs[0]) >= key(tail[k]) {
      if tail[k] != x {
        var j :| 0 <= j < |xs[1..]| && xs[1..][j] == tail[k];
        assert tail[k] == xs[j + 1];
      }
    }
    var r := [xs[0]] + tail;
    forall i, j | 0 <= i < j < |r| ensures key(r[i]) >= key(r[j]) {
      if i > 0 {
        assert r[i] == tail[i - 1] && r[j] == tail[j - 1];
      } else {
        assert r[j] == tail[j - 1];
      }
    }
  }

  lemma {:induction false} InsertDescByDistinct(x: int, xs: seq<int>, key: int -> int)
    requires SortedDescBy(xs, key)
    requires Distinct(xs) && x !in xs
    ensures Distinct(InsertDescBy(x, xs, key))
    decreases |xs|
  {
    if |xs| > 0 && key(x) < key(xs[0]) {
      InsertDescByDistinct(x, xs[1..], key);
      var tail := InsertDescBy(x, xs[1..], key);
      assert xs[0] !in tail;
    }
  }

  /** `ORDER BY key DESC`: a permutation of `xs`, ordered by non-increasing key. */
  function SortDescBy(xs: seq<int>, key: int -> int): (r: seq<int>)
    ensures SortedDescBy(r, key)
    ensures multiset(r) == multiset(xs)
    ensures |r| == |xs|
    decreases |xs|
  {
    if |xs| == 0 then []
    else
      assert xs == [xs[0]] + xs[1..];
      InsertDescBy(xs[0], SortDescBy(xs[1..], key), key)
  }

  /** Sorting keeps exactly the rows it was given. */
  lemma SortDescByMembers(xs: seq<int>, key: int -> int)
    ensures forall x :: x in SortDescBy(xs, key) <==> x in xs
  {
    var r := SortDescBy(xs, key);
    forall x ensures x in r <==> x in xs {
      assert x in r <==> x in multiset(r);
      assert x in xs <==> x in multiset(xs);
    }
  }

  /** Sorting distinct rows yields distinct rows. */
  lemma {:induction false} SortDescByDistinct(xs: seq<int>, key: int -> int)
    requires Distinct(xs)
    ensures Distinct(SortDescBy(xs, key))
    decreases |xs|
  {
    if |xs| > 0 {
      assert xs == [xs[0]] + xs[1..];
      assert Distinct(xs[1..]);
      SortDescByDistinct(xs[1..], key);
      var rest := SortDescBy(xs[1..], key);
      SortDescByMembers(xs[1..], key);
      assert xs[0] !in xs[1..];
      InsertDescByDistinct(xs[0], rest, key);
    }
  }

  /** `ORDER BY key DESC` over the rows `s` selects: each row exactly once,
      by non-increasing key. */
  function OrderBy(s: set<int>, key: int -> int): (r: seq<int>)
    ensures |r| == |s|
    ensures forall x :: x in r <==> x in s
    ensures Distinct(r)
    ensures SortedDescBy(r, key)
  {
    var keys := KeysDescending(s);
    SortDescByMembers(keys, key);
    SortDescByDistinct(keys, key);
    SortDescBy(keys, key)
  }

  /** No row appears twice. */
  predicate Distinct(xs: seq<int>)
  {
    forall i, j :: 0 <= i < j < |xs| ==> xs[i] != xs[j]
  }

  /** `LIMIT n`: the first n rows, or all of them when there are fewer. */
  function Take(xs: seq<int>, n: nat): (r: seq<int>)
    ensures |r| <= n && |r| <= |xs|
    ensures |xs| <= n ==> r == xs
    ensures r == xs[..|r|]
  {
    if |xs| <= n then xs else xs[..n]
  }

  /** `ORDER BY key DESC LIMIT n` over the rows `s` selects. */
  function TopBy(s: set<int>, key: int -> int, n: nat): (r: seq<int>)
    ensures |r| <= n
    ensures |r| == n || |r| == |s|
    ensures forall k :: 0 <= k < |r| ==> r[k] in s
    ensures Distinct(r)
    ensures SortedDescBy(r, key)
    ensures forall x, k :: x in s && x !in r && 0 <= k < |r| ==> key(r[k]) >= key(x)
  {
    var all := OrderBy(s, key);
    var r := Take(all, n);
    PrefixKeepsOrder(all, r, key);
    TakeKeepsTopAll(all, key, n);
    r
  }

  /** A prefix of a list of distinct rows sorted by `key` is one too. */
  lemma PrefixKeepsOrder(xs: seq<int>, r: seq<int>, key: int -> int)
    requires Distinct(xs) && SortedDescBy(xs, key)
    requires |r| <= |xs| && r == xs[..|r|]
    ensures Distinct(r) && SortedDescBy(r, key)
    ensures forall k :: 0 <= k < |r| ==> r[k] in xs
  {
    assert forall k :: 0 <= k < |r| ==> r[k] == xs[k];
  }

  /** A LIMIT over a sorted list keeps the top rows: everything left out
      ranks no higher than everything kept. */
  lemma TakeKeepsTop(xs: seq<int>, key: int -> int, n: nat, i: int, j: int)
    requires SortedDescBy(xs, key)
    requires 0 <= i < |Take(xs, n)| <= j < |xs|
    ensures key(Take(xs, n)[i]) >= key(xs[j])
  {
  }

  /** The same for every row left out and every row kept. */
  lemma TakeKeepsTopAll(xs: seq<int>, key: int -> int, n: nat)
    requires SortedDescBy(xs, key)
    ensures var r := Take(xs, n);
      forall x, k :: x in xs && x !in r && 0 <= k < |r| ==> key(r[k]) >= key(x)
  {
    var r := Take(xs, n);
    forall x, k | x in xs && x !in r && 0 <= k < |r|
      ensures key(r[k]) >= key(x)
    {
      var j :| 0 <= j < |xs| && xs[j] == x;
      assert j >= |r|;
      TakeKeepsTop(xs, key, n, k, j);
    }
  }
}

=== FILE: students.dfy ===
/**
 * students.php: add, edit and delete a student, and the student listing.
 *
 * roll_number is taken to be a unique key, so an add or an edit that would
 * duplicate one fails and changes nothing. New students start 'active'.
 * An edit overwrites every field, status included, with the posted
 * (sanitized) values. The default listing shows active students only; a
 * search drops that filter.
 */
module Students {
  import opened Base
  import opened Text
  import opened Sanitize
  import opened Ledger
  import opened Flash
  import Sorting
  import Lending
  import Books

  const AddedMessage: string := "Student added successfully!"
  const UpdatedMessage: string := "Student updated successfully!"
  const DeletedMessage: string := "Student deleted successfully!"
  /** Prefixes of the failure messages; the driver's text after them is not modelled. */
  const AddErrorMessage: string := "Error adding student: "
  const UpdateErrorMessage: string := "Error updating student: "

  /** The posted add/edit form, as raw request strings. The add form has no
      status field; `status` is read by edit only. */
  datatype StudentForm = StudentForm(
    name: string,
    rollNumber: string,
    email: string,
    phone: string,
    department: string,
    yearOfStudy: string,
    address: string,
    status: string)

  /** The row the form describes, with the given status. */
  function FormStudent(f: StudentForm, status: string): (s: Student)
    ensures s.rollNumber == SanitizeInput(f.rollNumber) && s.status == status
    ensures s.name == SanitizeInput(f.name) && s.email == SanitizeInput(f.email)
    ensures s.phone == SanitizeInput(f.phone) && s.department == SanitizeInput(f.department)
    ensures s.yearOfStudy == IntVal(f.yearOfStudy) && s.address == SanitizeInput(f.address)
  {
    Student(SanitizeInput(f.name), SanitizeInput(f.rollNumber), SanitizeInput(f.email), SanitizeInput(f.phone),
            SanitizeInput(f.department), IntVal(f.yearOfStudy), SanitizeInput(f.address), status)
  }

  /** Some student other than `except` already has this roll number. */
  predicate RollTaken(students: map<StudentId, Student>, roll: string, except: Option<StudentId>)
  {
    exists s :: s in students && (except.None? || s != except.value) && students[s].rollNumber == roll
  }

  /** action=add: a new row under a fresh key, 'active' by the column
      default since the INSERT does not set status, unless the roll number
      is taken, in which case the INSERT fails and nothing changes. */
  function AddStudent(lib: Library, f: StudentForm): (r: Step)
    ensures RollTaken(lib.students, SanitizeInput(f.rollNumber), None) ==>
      r == Step(lib, [ShowErrorNotice(AddErrorMessage)])
    ensures !RollTaken(lib.students, SanitizeInput(f.rollNumber), None) ==>
      && r.lib == lib.(students := lib.students[lib.nextStudentId := FormStudent(f, ActiveStatus)],
                       nextStudentId := lib.nextStudentId + 1)
      && r.notices == [ShowSuccessNotice(AddedMessage)]
  {
    if RollTaken(lib.students, SanitizeInput(f.rollNumber), None) then
      Step(lib, [ShowErrorNotice(AddErrorMessage)])
    else
      Step(lib.(students := lib.students[lib.nextStudentId := FormStudent(f, ActiveStatus)],
                nextStudentId := lib.nextStudentId + 1),
           [ShowSuccessNotice(AddedMessage)])
  }

  /** Adding a student keeps roll numbers unique and the ledger valid. */
  lemma AddStudentPreservesValid(lib: Library, f: StudentForm)
    requires Valid(lib)
    ensures Valid(AddStudent(lib, f).lib)
  {
    var st := FormStudent(f, ActiveStatus);
    if !RollTaken(lib.students, st.rollNumber, None) {
      PutStudentPreservesValid(lib, lib.nextStudentId, st, lib.nextStudentId + 1);
    }
  }

  /** Writing one student row whose roll number no other row holds keeps
      the ledger valid. */
  lemma PutStudentPreservesValid(lib: Library, id: StudentId, st: Student, next: StudentId)
    requires Valid(lib)
    requires forall s :: s in lib.students && s != id ==> lib.students[s].rollNumber != st.rollNumber
    requires id < next && lib.nextStudentId <= next
    ensures Valid(lib.(students := lib.students[id := st], nextStudentId := next))
  {
    var students' := lib.students[id := st];
    forall s, t | s in students' && t in students' && s != t
      ensures students'[s].rollNumber != students'[t].rollNumber
    {
      if s != id && t != id {
        assert students'[s] == lib.students[s] && students'[t] == lib.students[t];
      }
    }
  }

  /** action=edit: overwrites every field of the row keyed
      intval(student_id), status included. The UPDATE fails on a roll number
      another student holds; an unknown key matches no row, and the success
      message is shown all the same. */
  function EditStudent(lib: Library, studentId: string, f: StudentForm): (r: Step)
    ensures var id := IntVal(studentId);
      RollTaken(lib.students, SanitizeInput(f.rollNumber), Some(id)) && id in lib.students ==>
        r == Step(lib, [ShowErrorNotice(UpdateErrorMessage)])
    ensures IntVal(studentId) !in lib.students ==> r == Step(lib, [ShowSuccessNotice(UpdatedMessage)])
    ensures var id := IntVal(studentId);
      id in lib.students && !RollTaken(lib.students, SanitizeInput(f.rollNumber), Some(id)) ==>
        && r.lib == lib.(students := lib.students[id := FormStudent(f, SanitizeInput(f.status))])
        && r.notices == [ShowSuccessNotice(UpdatedMessage)]
  {
    var id := IntVal(studentId);
    if id !in lib.students then
      Step(lib, [ShowSuccessNotice(UpdatedMessage)])
    else if RollTaken(lib.students, SanitizeInput(f.rollNumber), Some(id)) then
      Step(lib, [ShowErrorNotice(UpdateErrorMessage)])
    else
      Step(lib.(students := lib.students[id := FormStudent(f, SanitizeInput(f.status))]),
           [ShowSuccessNotice(UpdatedMessage)])
  }

  /** Editing a student keeps roll numbers unique and the ledger valid. */
  lemma EditStudentPreservesValid(lib: Library, studentId: string, f: StudentForm)
    requires Valid(lib)
    ensures Valid(EditStudent(lib, studentId, f).lib)
  {
    var id := IntVal(studentId);
    var st := FormStudent(f, SanitizeInput(f.status));
    if id in lib.students && !RollTaken(lib.students, st.rollNumber, Some(id)) {
      PutStudentPreservesValid(lib, id, st, lib.nextStudentId);
      assert lib.(students := lib.students[id := st], nextStudentId := lib.nextStudentId)
          == lib.(students := lib.students[id := st]);
    }
  }

  /** A student may keep their own roll number through an edit. */
  lemma EditKeepingRollSucceeds(lib: Library, studentId: string, f: StudentForm)
    requires Valid(lib)
    requires IntVal(studentId) in lib.students
    requires SanitizeInput(f.rollNumber) == lib.students[IntVal(studentId)].rollNumber
    ensures EditStudent(lib, studentId, f).notices == [ShowSuccessNotice(UpdatedMessage)]
    ensures EditStudent(lib, studentId, f).lib.students[IntVal(studentId)].status == SanitizeInput(f.status)
  {
  }

  /** action=delete: removes the row whatever issues and attendance records
      still name the student; those stay behind. */
  function DeleteStudent(lib: Library, studentId: string): (r: Step)
    ensures r.lib == lib.(students := lib.students - {IntVal(studentId)})
    ensures r.notices == [ShowSuccessNotice(DeletedMessage)]
  {
    Step(lib.(students := lib.students - {IntVal(studentId)}), [ShowSuccessNotice(DeletedMessage)])
  }

  lemma DeleteStudentPreservesValid(lib: Library, studentId: string)
    requires Valid(lib)
    ensures Valid(DeleteStudent(lib, studentId).lib)
  {
    var r := DeleteStudent(lib, studentId).lib;
    assert forall s :: s in r.students ==> s in lib.students && r.students[s] == lib.students[s];
  }

  /** The loans of a deleted student stay stored and keep their copies out,
      but vanish from the list of books currently issued. */
  lemma DeleteStudentOrphansIssues(lib: Library, studentId: string, issueId: IssueId)
    requires issueId in lib.issues && lib.issues[issueId].student == IntVal(studentId)
    ensures var r := DeleteStudent(lib, studentId).lib;
      && issueId in r.issues && r.issues[issueId] == lib.issues[issueId]
      && issueId !in Lending.OpenIssueIds(r)
  {
  }

  /** The search's WHERE clause: the term occurs in the name, the roll
      number, the e-mail address or the department. */
  predicate StudentMatches(s: Student, term: string)
  {
    Contains(s.name, term) || Contains(s.rollNumber, term) || Contains(s.email, term) || Contains(s.department, term)
  }

  /** Without a search, the active students; with one, the matching students
      whatever their status. */
  predicate Listed(s: Student, term: Option<string>)
  {
    if term.None? then IsActive(s) else StudentMatches(s, term.value)
  }

  function ListedStudents(lib: Library, term: Option<string>): (ids: set<StudentId>)
    ensures forall id :: id in ids <==> id in lib.students && Listed(lib.students[id], term)
  {
    set id | id in lib.students && Listed(lib.students[id], term)
  }

  /** The student listing, newest key first. */
  function ListStudents(lib: Library, search: Option<string>): (ids: seq<StudentId>)
    ensures forall id :: id in ids <==> id in lib.students && Listed(lib.students[id], Books.SearchTerm(search))
    ensures forall i, j :: 0 <= i < j < |ids| ==> ids[i] > ids[j]
  {
    Sorting.KeysDescending(ListedStudents(lib, Books.SearchTerm(search)))
  }

  /** Without a search only active students are listed, all of them. */
  lemma DefaultListingIsActiveStudents(lib: Library)
    ensures forall id :: id in ListStudents(lib, None) <==> id in lib.students && IsActive(lib.students[id])
  {
  }

  /** A search finds inactive students too: a deactivated student whose name
      contains the term is listed, though the default listing hides them. */
  lemma SearchFindsInactive(lib: Library, search: string, id: StudentId)
    requires !PhpEmpty(search)
    requires id in lib.students && !IsActive(lib.students[id])
    requires Contains(lib.students[id].name, SanitizeInput(search))
    ensures id in ListStudents(lib, Some(search))
    ensures id !in ListStudents(lib, None)
  {
  }
}

=== FILE: text.dfy ===
/**
 * String vocabulary shared by the request handlers: PHP's notion of an
 * "empty" request value, substring search (the model of `LIKE '%term%'`),
 * and the decimal rendering PHP uses when it interpolates a count or a fine
 * into a flash message.
 */
module Text {

  /** PHP `empty()` on a string: true for "" and, notoriously, for "0". */
  predicate PhpEmpty(s: string)
  {
    s == "" || s == "0"
  }

  /** `needle` occurs in `hay` starting at position `i`. */
  predicate OccursAt(hay: string, needle: string, i: int)
  {
    0 <= i <= |hay| - |needle| && hay[i..i + |needle|] == needle
  }

  /** `needle` occurs contiguously in `hay`. */
  predicate Contains(hay: string, needle: string)
  {
    exists i :: 0 <= i <= |hay| - |needle| && OccursAt(hay, needle, i)
  }

  /** Every string contains the empty string, so `LIKE '%%'` keeps every row. */
  lemma ContainsEmpty(hay: string)
    ensures Contains(hay, "")
  {
    assert OccursAt(hay, "", 0);
  }

  predicate IsDigit(c: char)
  {
    '0' <= c <= '9'
  }

  predicate AllDigits(s: string)
  {
    forall i :: 0 <= i < |s| ==> IsDigit(s[i])
  }

  function DigitChar(d: nat): (c: char)
    requires d < 10
    ensures IsDigit(c) && c as int - '0' as int == d
  {
    (d + '0' as int) as char
  }

  function DigitValue(c: char): (d: nat)
    requires IsDigit(c)
    ensures d < 10 && DigitChar(d) == c
  {
    c as int - '0' as int
  }

  /** Decimal rendering of a natural number, as PHP's string interpolation prints it. */
  function NatToString(n: nat): (r: string)
    ensures |r| >= 1 && AllDigits(r)
    ensures n >= 10 ==> r[0] != '0'
    decreases n
  {
    if n < 10 then [DigitChar(n)] else NatToString(n / 10) + [DigitChar(n % 10)]
  }

  /** Reads a string of decimal digits back as a number. */
  function ParseNat(s: string): nat
    requires AllDigits(s)
    decreases |s|
  {
    if |s| == 0 then 0 else ParseNat(s[..|s| - 1]) * 10 + DigitValue(s[|s| - 1])
  }

  /** The rendering loses nothing: reading it back gives the number. */
  lemma {:induction false} ParseNatToString(n: nat)
    ensures ParseNat(NatToString(n)) == n
    decreases n
  {
    var r := NatToString(n);
    if n >= 10 {
      ParseNatToString(n / 10);
      assert r[..|r| - 1] == NatToString(n / 10);
      assert DigitValue(r[|r| - 1]) == n % 10;
    }
  }

  /** The characters PHP skips before the digits of a number. */
  predicate IsNumericSpace(c: char)
  {
    c == ' ' || c == '\t' || c == '\n' || c == '\r' || c == '\U{000B}' || c == '\U{000C}'
  }

  /** JavaScript's white space: what `\s` matches and what
      String.prototype.trim removes (the WhiteSpace and LineTerminator
      characters of ECMAScript). */
  predicate IsJsSpace(c: char)
  {
    || c == '\t' || c == '\n' || c == '\U{000B}' || c == '\U{000C}' || c == '\r' || c == ' '
    || c == '\U{00A0}' || c == '\U{1680}' || ('\U{2000}' <= c <= '\U{200A}')
    || c == '\U{2028}' || c == '\U{2029}' || c == '\U{202F}' || c == '\U{205F}'
    || c == '\U{3000}' || c == '\U{FEFF}'
  }

  /** A character outside the Basic Multilingual Plane, which JavaScript
      stores as a surrogate pair of two UTF-16 code units. */
  predicate IsAstral(c: char)
  {
    c > '\U{FFFF}'
  }

  /** JavaScript's `length`: the number of UTF-16 code units, one per
      character of the Basic Multilingual Plane and two for any other. */
  function JsLength(s: string): (n: nat)
    ensures |s| <= n <= 2 * |s|
    ensures n == |s| <==> forall k :: 0 <= k < |s| ==> !IsAstral(s[k])
  {
    if s == [] then 0 else (if IsAstral(s[0]) then 2 else 1) + JsLength(s[1..])
  }

  /** Code units add up over concatenation. */
  lemma {:induction false} JsLengthAppend(a: string, b: string)
    ensures JsLength(a + b) == JsLength(a) + JsLength(b)
  {
    if a == [] {
      assert a + b == b;
    } else {
      assert (a + b)[0] == a[0] && (a + b)[1..] == a[1..] + b;
      JsLengthAppend(a[1..], b);
    }
  }

  function SkipNumericSpace(s: string): (r: string)
    ensures |r| <= |s| && r == s[|s| - |r|..]
    ensures |r| > 0 ==> !IsNumericSpace(r[0])
    ensures forall i :: 0 <= i < |s| - |r| ==> IsNumericSpace(s[i])
    decreases |s|
  {
    if |s| > 0 && IsNumericSpace(s[0]) then SkipNumericSpace(s[1..]) else s
  }

  /** The longest run of decimal digits at the start of `s`. */
  function DigitPrefix(s: string): (r: string)
    ensures AllDigits(r) && |r| <= |s| && r == s[..|r|]
    ensures |r| < |s| ==> !IsDigit(s[|r|])
    decreases |s|
  {
    if |s| > 0 && IsDigit(s[0]) then [s[0]] + DigitPrefix(s[1..]) else ""
  }

  lemma {:induction false} DigitPrefixOfDigits(s: string)
    requires AllDigits(s)
    ensures DigitPrefix(s) == s
    decreases |s|
  {
    if |s| > 0 {
      DigitPrefixOfDigits(s[1..]);
    }
  }

  /** intval() of a request string: leading blanks, an optional sign, then
      the longest run of digits; 0 when no digit follows. */
  function IntVal(s: string): (n: int)
    ensures SkipNumericSpace(s) == "" ==> n == 0
  {
    var t := SkipNumericSpace(s);
    if |t| > 0 && t[0] == '-' then -(ParseNat(DigitPrefix(t[1..])) as int)
    else if |t| > 0 && t[0] == '+' then ParseNat(DigitPrefix(t[1..]))
    else ParseNat(DigitPrefix(t))
  }

  /** Text starting with a digit reads as its leading run of digits. */
  lemma IntValFromDigit(s: string)
    requires |s| > 0 && IsDigit(s[0])
    ensures IntVal(s) == ParseNat(DigitPrefix(s))
  {
    assert !IsNumericSpace(s[0]) && s[0] != '-' && s[0] != '+';
    assert SkipNumericSpace(s) == s;
  }

  /** Text starting with '-' reads as the negated run of digits after it. */
  lemma IntValFromMinus(s: string)
    requires |s| > 0 && s[0] == '-'
    ensures IntVal(s) == -(ParseNat(DigitPrefix(s[1..])) as int)
  {
    assert !IsNumericSpace(s[0]);
    assert SkipNumericSpace(s) == s;
  }

  /** A run of digits reads as its value. */
  lemma IntValOfDigits(d: string)
    requires AllDigits(d) && |d| > 0
    ensures IntVal(d) == ParseNat(d)
  {
    assert IsDigit(d[0]);
    IntValFromDigit(d);
    DigitPrefixOfDigits(d);
  }

  /** A minus sign followed by a run of digits reads as the negated value. */
  lemma IntValOfNegatedDigits(d: string)
    requires AllDigits(d) && |d| > 0
    ensures IntVal("-" + d) == -(ParseNat(d) as int)
  {
    var m := "-" + d;
    assert m[0] == '-' && m[1..] == d;
    IntValFromMinus(m);
    DigitPrefixOfDigits(d);
  }

  /** PHP_INT_MAX on a 64-bit build: intval saturates beyond it. */
  const PhpIntMax: int := 0x7FFF_FFFF_FFFF_FFFF

  /** A posted number within PHP's integer range, with or without a minus
      sign, reads back as itself. */
  lemma IntValOfNumeral(n: nat)
    requires n <= PhpIntMax
    ensures IntVal(NatToString(n)) == n
    ensures IntVal("-" + NatToString(n)) == -(n as int)
  {
    IntValOfDigits(NatToString(n));
    IntValOfNegatedDigits(NatToString(n));
    ParseNatToString(n);
  }

  /** Text without leading digits reads as 0, and what follows the digits
      is ignored. */
  lemma IntValOfText()
    ensures IntVal("abc") == 0
    ensures IntVal("7abc") == 7
  {
    NoDigitsReadAsZero("abc");
    SevenThenText("abc");
  }

  lemma SevenThenText(rest: string)
    requires |rest| > 0 && !IsDigit(rest[0]) && !ContinuesNumber(rest[0])
    ensures IntVal("7" + rest) == 7
  {
    DigitsThenText("7", rest);
    assert ParseNat("7") == ParseNat("") * 10 + DigitValue('7');
  }

  lemma NoDigitsReadAsZero(s: string)
    requires |s| > 0 && !IsNumericSpace(s[0]) && !IsDigit(s[0]) && s[0] != '-' && s[0] != '+'
    ensures IntVal(s) == 0
  {
    assert SkipNumericSpace(s) == s;
  }

  /** The characters that would continue a number in PHP's numeric-string
      syntax after its digits: a decimal point or an exponent. */
  predicate ContinuesNumber(c: char)
  {
    c == '.' || c == 'e' || c == 'E'
  }

  lemma DigitsThenText(d: string, rest: string)
    requires AllDigits(d) && |d| > 0
    requires |rest| > 0 && !IsDigit(rest[0]) && !ContinuesNumber(rest[0])
    ensures IntVal(d + rest) == ParseNat(d)
  {
    var s := d + rest;
    assert s[0] == d[0];
    IntValFromDigit(s);
    DigitPrefixOfDigitsThen(d, rest);
  }

  lemma {:induction false} DigitPrefixOfDigitsThen(d: string, rest: string)
    requires AllDigits(d)
    requires |rest| > 0 && !IsDigit(rest[0])
    ensures DigitPrefix(d + rest) == d
    decreases |d|
  {
    if |d| == 0 {
      assert d + rest == rest;
    } else {
      DigitPrefixOfDigitsThen(d[1..], rest);
      assert (d + rest)[1..] == d[1..] + rest;
    }
  }
}

=== FILE: validators.dfy ===
/**
 * The client-side field validators of js/main.js: e-mail, phone and ISBN.
 * Each is stated twice, as the check a reader would write and as the shape
 * its regular expression describes, and the two are proved to agree.
 */
module Validators {
  import opened Text
  import opened Sanitize

  /** Neither white space nor '@': the class `[^\s@]`. */
  predicate Plain(c: char)
  {
    !IsJsSpace(c) && c != '@'
  }

  predicate AllPlain(s: string)
  {
    forall k :: 0 <= k < |s| ==> Plain(s[k])
  }

  /** The strings `^[^\s@]+@[^\s@]+\.[^\s@]+$` matches: a '@' at `at` and a
      '.' at `dot` split the string into three non-empty runs of plain
      characters. */
  predicate EmailPattern(s: string)
  {
    exists at, dot :: 0 < at && at + 1 < dot < |s| - 1 && s[at] == '@' && s[dot] == '.'
      && AllPlain(s[..at]) && AllPlain(s[at + 1..dot]) && AllPlain(s[dot + 1..])
  }

  /** How often `c` occurs in `s`. */
  function Count(s: string, c: char): (n: nat)
    ensures n <= |s|
    ensures n == 0 <==> c !in s
  {
    if s == [] then 0 else (if s[0] == c then 1 else 0) + Count(s[1..], c)
  }

  /** The first position of `c` in `s`, or |s| when there is none. */
  function Find(s: string, c: char): (i: nat)
    ensures i <= |s|
    ensures i < |s| ==> s[i] == c
    ensures forall k :: 0 <= k < i ==> s[k] != c
  {
    if s == [] then 0 else if s[0] == c then 0 else 1 + Find(s[1..], c)
  }

  /** `c` occurs once in `s` exactly when it occurs at some position and at
      no other. */
  lemma {:induction false} CountOnce(s: string, c: char, i: int)
    requires 0 <= i < |s| && s[i] == c
    ensures Count(s, c) == 1 <==> forall k :: 0 <= k < |s| && k != i ==> s[k] != c
  {
    if i == 0 {
      assert Count(s, c) == 1 + Count(s[1..], c);
      assert forall k :: 0 < k < |s| ==> s[k] == s[1..][k - 1];
      assert (c !in s[1..]) <==> forall k :: 0 < k < |s| ==> s[k] != c;
    } else {
      CountOnce(s[1..], c, i - 1);
      assert forall k :: 0 < k < |s| ==> s[k] == s[1..][k - 1];
      if s[0] == c {
        assert Count(s[1..], c) >= 1;
      }
    }
  }

  /** validateEmail: exactly one '@', no white space, something before the
      '@', and a '.' in the domain that is neither its first nor its last
      character. */
  function ValidateEmail(s: string): (ok: bool)
  {
    var at := Find(s, '@');
    && (forall k :: 0 <= k < |s| ==> !IsJsSpace(s[k]))
    && Count(s, '@') == 1
    && 0 < at && at + 2 < |s|
    && '.' in s[at + 2..|s| - 1]
  }

  /** The validator accepts exactly what its regular expression matches. */
  lemma ValidateEmailMatchesPattern(s: string)
    ensures ValidateEmail(s) <==> EmailPattern(s)
  {
    if ValidateEmail(s) {
      ValidEmailMatches(s);
    }
    if EmailPattern(s) {
      var at, dot :| 0 < at && at + 1 < dot < |s| - 1 && s[at] == '@' && s[dot] == '.'
        && AllPlain(s[..at]) && AllPlain(s[at + 1..dot]) && AllPlain(s[dot + 1..]);
      PatternIsValidEmail(s, at, dot);
    }
  }

  lemma ValidEmailMatches(s: string)
    requires ValidateEmail(s)
    ensures EmailPattern(s)
  {
    var at := Find(s, '@');
    CountOnce(s, '@', at);
    var inner := s[at + 2..|s| - 1];
    var j :| 0 <= j < |inner| && inner[j] == '.';
    var dot := at + 2 + j;
    assert s[dot] == '.';
    assert forall k :: 0 <= k < |s| && k != at ==> Plain(s[k]);
    PlainSlice(s, 0, at);
    PlainSlice(s, at + 1, dot);
    PlainSlice(s, dot + 1, |s|);
    assert s[..at] == s[0..at] && s[dot + 1..] == s[dot + 1..|s|];
  }

  lemma PlainSlice(s: string, lo: int, hi: int)
    requires 0 <= lo <= hi <= |s|
    requires forall k :: lo <= k < hi ==> Plain(s[k])
    ensures AllPlain(s[lo..hi])
  {
    forall k | 0 <= k < hi - lo
      ensures Plain(s[lo..hi][k])
    {
      assert s[lo..hi][k] == s[lo + k];
    }
  }

  lemma PatternIsValidEmail(s: string, at: int, dot: int)
    requires 0 < at && at + 1 < dot < |s| - 1 && s[at] == '@' && s[dot] == '.'
    requires AllPlain(s[..at]) && AllPlain(s[at + 1..dot]) && AllPlain(s[dot + 1..])
    ensures ValidateEmail(s)
  {
    forall k | 0 <= k < |s| && k != at && k != dot
      ensures Plain(s[k])
    {
      if k < at {
        assert s[k] == s[..at][k];
      } else if k < dot {
        assert s[k] == s[at + 1..dot][k - at - 1];
      } else {
        assert s[k] == s[dot + 1..][k - dot - 1];
      }
    }
    CountOnce(s, '@', at);
    assert Find(s, '@') == at;
    assert s[at + 2..|s| - 1][dot - at - 2] == '.';
  }

  /** validatePhone: `^[0-9]{10}$`, exactly ten ASCII digits. */
  function ValidatePhone(s: string): (ok: bool)
  {
    |s| == 10 && AllDigits(s)
  }

  /** A phone number the form accepts is stored exactly as typed. */
  lemma ValidPhoneStoredVerbatim(s: string)
    requires ValidatePhone(s)
    ensures SanitizeInput(s) == s
  {
    SanitizePlain(s);
  }

  /** The characters validateISBN removes: '-' and white space. */
  predicate IsIsbnSeparator(c: char)
  {
    c == '-' || IsJsSpace(c)
  }

  /** `isbn.replace(/[-\s]/g, '')`: the string with its separators removed. */
  function StripIsbn(s: string): (r: string)
    ensures |r| <= |s|
    ensures forall k :: 0 <= k < |r| ==> !IsIsbnSeparator(r[k])
    ensures forall c :: c in r <==> c in s && !IsIsbnSeparator(c)
  {
    if s == [] then []
    else if IsIsbnSeparator(s[0]) then StripIsbn(s[1..])
    else [s[0]] + StripIsbn(s[1..])
  }

  /** Removing separators works piece by piece. */
  lemma {:induction false} StripIsbnAppend(a: string, b: string)
    ensures StripIsbn(a + b) == StripIsbn(a) + StripIsbn(b)
  {
    if a == [] {
      assert a + b == b;
    } else {
      assert (a + b)[0] == a[0] && (a + b)[1..] == a[1..] + b;
      StripIsbnAppend(a[1..], b);
    }
  }

  /** A string without separators is left as it is. */
  lemma {:induction false} StripIsbnPlain(s: string)
    requires forall k :: 0 <= k < |s| ==> !IsIsbnSeparator(s[k])
    ensures StripIsbn(s) == s
  {
    if s != [] {
      StripIsbnPlain(s[1..]);
    }
  }

  /** validateISBN: ten or thirteen UTF-16 code units once separators are
      gone. */
  function ValidateIsbn(s: string): (ok: bool)
  {
    var stripped := StripIsbn(s);
    JsLength(stripped) == 10 || JsLength(stripped) == 13
  }

  /** The validator looks only at the separator-free text: stripping first
      changes nothing, and it accepts the stripped text exactly when that
      has ten or thirteen code units, which for text within the Basic
      Multilingual Plane is ten or thirteen characters. */
  lemma ValidateIsbnOnStripped(s: string)
    ensures StripIsbn(StripIsbn(s)) == StripIsbn(s)
    ensures ValidateIsbn(s) == ValidateIsbn(StripIsbn(s))
    ensures ValidateIsbn(s) <==> JsLength(StripIsbn(s)) in {10, 13}
    ensures (forall c :: c in s ==> !IsAstral(c)) ==> (ValidateIsbn(s) <==> |StripIsbn(s)| in {10, 13})
  {
    StripIsbnPlain(StripIsbn(s));
  }

  /** Neither the characters nor a check digit are examined: text without
      separators passes exactly when it has ten or thirteen code units, so
      "12345abcde" passes and "12345" fails. */
  lemma ValidateIsbnLengthOnly(s: string)
    requires forall k :: 0 <= k < |s| ==> !IsIsbnSeparator(s[k])
    ensures ValidateIsbn(s) <==> JsLength(s) == 10 || JsLength(s) == 13
    ensures (forall k :: 0 <= k < |s| ==> !IsAstral(s[k])) ==> (ValidateIsbn(s) <==> |s| == 10 || |s| == 13)
  {
    StripIsbnPlain(s);
  }

  /** A character outside the Basic Multilingual Plane counts twice: digits
      followed by one such character (an emoji, say) pass exactly when there
      are eight or eleven digits, so "12345678" and an emoji, nine
      characters, pass. */
  lemma AstralCountsTwice(d: string, c: char)
    requires AllDigits(d) && IsAstral(c)
    ensures ValidateIsbn(d + [c]) <==> |d| == 8 || |d| == 11
  {
    var s := d + [c];
    forall k | 0 <= k < |s|
      ensures !IsIsbnSeparator(s[k]) && (k < |d| ==> !IsAstral(s[k]))
    {
      if k < |d| {
        assert s[k] == d[k];
      }
    }
    StripIsbnPlain(s);
    JsLengthAppend(d, [c]);
  }

  /** A hyphen or a space anywhere makes no difference to the verdict: the
      validator accepts "978-0-306-40615-7" because it accepts
      "9780306406157". */
  lemma SeparatorIgnored(a: string, sep: char, b: string)
    requires IsIsbnSeparator(sep)
    ensures StripIsbn(a + [sep] + b) == StripIsbn(a + b)
    ensures ValidateIsbn(a + [sep] + b) == ValidateIsbn(a + b)
  {
    StripIsbnAppend(a, [sep] + b);
    StripIsbnAppend(a, b);
    assert a + [sep] + b == a + ([sep] + b);
    assert ([sep] + b)[0] == sep && ([sep] + b)[1..] == b;
  }
}
